=== FILE: README.md ===
# prize-batch-drawer in Dafny

A model of the raffle engine of prize-batch-drawer, a browser app for drawing
door prizes at an event.

The app keeps its state in one persisted store:
- a roster of participant names;
- per prize id, the list of winner names for that prize's copies;
- a catalogue of drawing sessions, each a list of prize lines with a quantity;
- a lock flag.

The raffle screen works as follows:
- It shows one box per copy of every prize line of the active session.
- A batch draw shuffles the participants who have not won yet and appends
  the `k`-th shuffled name to the list of the `k`-th open box's prize. When
  every prize's list is filled from the front and prize ids are unique, that
  name lands in the `k`-th open box itself; a hole in a list misroutes it.
- A single box of a "grand" or "super" session can be reshuffled.
- The shuffle asks a proxy route for a random ordering from an external
  provider. It falls back to a local Fisher-Yates shuffle with rejection
  sampling when that request fails.
- Two forms maintain the roster and the catalogue.

Every step is modelled as a pure function over immutable data, except for
the shuffles. The local shuffle (`FisherYates.Shuffle`, with its draw
helpers `DrawBelow` and `DrawNext`) is a method that swaps in an array. The
client shuffle (`RandomClient.ShuffleWithRandomOrg`) is a method because it
calls the local shuffle.

Modules, one per source file or concern:

| module | file | models |
|---|---|---|
| `Options`, `Seqs` | options.dfy, seqs.dfy | the option type; filters, subsequences, permutations, de-duplication |
| `Numerals` | numerals.dfy | rendering a number in a template string, `trim`, and `parseInt` with no radix (ASCII white space, sign, decimal or `0x` hexadecimal digits) |
| `Slug` | slug.dfy | the session slug `addPrize` derives from a session name |
| `Prizes` | prizes.dfy | `PrizeItem`, `SessionData` (with the `allowReshuffle` flag the store writes), the sample catalogue |
| `Ledger` | ledger.dfy | every action of the store |
| `Draw` | draw.dfy | the raffle screen's boxes, open slots, candidates, completeness, batch draw, reshuffle, reveal base duration |
| `DrawProofs` | draw_proofs.dfy | where drawn names land, freshness, no double wins, what a reshuffle changes |
| `DrawRace`, `DrawTiming` | draw_race.dfy, draw_timing.dfy | the two findings below |
| `PrizeBox` | prize_box.dfy | a box's stop time, labels and reshuffle control |
| `FisherYates` | fisher_yates.dfy | the local shuffle and its rejection step |
| `RandomClient` | random_source.dfy | `fetchRandomIndices` and `shuffleWithRandomOrg` |
| `RandomRoute` | random_route.dfy | the proxy route's `POST` handler |
| `PrizeForm`, `ParticipantForm` | prize_form.dfy, participant_form.dfy | the catalogue form and the roster form |

Representation choices:
- A winner entry is `Option<string>`. `None` is JavaScript's `undefined`. It
  appears as a hole, when a reshuffle writes past the end of a list, and as an
  undefined element, when an allocation runs past the end of the shuffled list.
- A string entry is "truthy" when it is non-empty.
- Letter case is compared through ASCII lower-casing.
- Inputs that are not pure become parameters:
  - the clock reading (`now`);
  - the random values the browser supplies (a finite `seq<u32>`);
  - the provider's answer;
  - the route's reply as the client sees it;
  - whether the API key is configured.

What the code permits that its comments and labels do not suggest. Each item
has a lemma that exhibits it:
- **Adding a name twice.** The store's single add has no duplicate check
  (`Ledger.AddParticipantAcceptsDuplicate`). Only the roster form guards
  against case variants. The bulk import skips that guard: an imported `"a"`
  is filed next to `"A"` (`ParticipantForm.ImportSkipsGuard`). The importer
  trims names and drops blank cells before the import, so only case variants
  get through, not padded or empty names.
- **Repeats within a batch.** The comment on `addParticipants` says repeats
  within a batch are filtered, but the code filters only against the roster:
  a new name listed twice is appended twice
  (`Ledger.AddParticipantsKeepsBatchRepeats`).
- **Recording too many or repeated winners.**
  - `addWinner` records a name that already won (`Ledger.AddWinnerAcceptsRepeat`).
  - It records beyond a prize's quantity (`Ledger.AddWinnerNoQuantityBound`).
  - `updateWinner` writes at any position and pads with holes
    (`Ledger.UpdateWinnerPadsHoles`).
- **Zero quantities.** Only the catalogue form refuses a quantity below one.
  The store files a zero (`PrizeForm.AddPrizeAcceptsZero`).
- **The lock flag.** It is set by every recorded winner and never consulted
  (`ParticipantForm.FormIgnoresLock`).
- **Reshuffle visibility.**
  - The control follows the session id's prefix, not the session's
    `allowReshuffle` flag (`PrizeBox.ReshuffleIgnoresPermission`).
  - The flag is not even a property of the box.
  - None of the sessions of the sample catalogue `PRIZE_DATA` would show the control
    (`PrizeBox.SampleSessionsHideReshuffle`); the store does not load that
    catalogue, so this describes the sample data, not a running app.
- **Repeated roster names.** A name listed twice on the roster can win twice in
  one draw (`DrawProofs.DuplicateRosterDoubleWin`). With a repeat-free roster a
  draw never records a name twice (`DrawProofs.StartDrawKeepsNoDoubleWins`).
- **Empty names.** An empty winner name counts towards completeness but leaves
  the box open to the draw (`DrawProofs.EmptyNameCompleteYetOpen`). No path in
  the app puts `""` on the roster or into a winners list: the roster form and
  the importer both trim and refuse blank names. An empty winner name needs a
  store edited outside the app, in its persisted `doorprize-storage` copy.
- **Holes misroute a draw.** The draw appends to a prize's list instead of
  writing at the box's slot index. With an empty name in the first box of a
  two-box line, the next draw leaves that box empty, puts the first name into
  the second box and the second name past the last box
  (`DrawProofs.HoleMisroutesDraw`). The exhibit's empty name needs a
  hand-edited persisted store, as above. The reachable source of holes is an
  undefined entry: a provider reply shorter than the candidate list, or one
  with an out-of-range index, gives the draw undefined names, which it
  appends as holes.
- **The proxy route.** Its parameter check does not ask for whole numbers
  (`RandomRoute.FractionalCountPasses`).
- **Provider indices.** The client uses them unchecked: a repeated or
  out-of-range index leaks into the result (`RandomClient.UncheckedIndices`).
- **Quantity parsing.** The catalogue form's quantity goes through `parseInt`.
  Of the texts a number field holds, `"2.9"` files 2 and `"1e3"` files 1
  (`PrizeForm.QuantityParsing`).

## Model

| member | source | states |
|---|---|---|
| Ledger.SetEventName | src/store/useStore.ts:44 | the event name becomes the given text and nothing else in the store changes |
| Ledger.SetLocked | src/store/useStore.ts:118 | the lock flag becomes the given value; roster, winners, catalogue and event name stay |
| Ledger.AddParticipant | src/store/useStore.ts:46-49 | the roster grows by exactly one, keeps the old roster as a prefix, and the name's multiplicity goes up by one (no duplicate check) |
| Ledger.NewNames | src/store/useStore.ts:54-56 | the batch names kept are exactly those not on the roster, in batch order; each such name is kept as many times as the batch lists it, so repeats within the batch are not filtered |
| Ledger.AddParticipants | src/store/useStore.ts:51-58 | the old roster stays a prefix; the names appended are the batch names not already on the roster, in batch order and with the batch's multiplicity (in-batch repeats are all appended); every batch name ends up on the roster; winners, catalogue, lock and event name unchanged |
| Ledger.AddParticipantsKeepsBatchRepeats | src/store/useStore.ts:53-57 | a name not on the roster that the batch lists twice is appended twice: the batch is not deduplicated |
| Ledger.AddParticipantsKeepsDistinct | src/store/useStore.ts:51-58 | a repeat-free batch keeps a repeat-free roster repeat-free |
| Ledger.RemoveParticipant | src/store/useStore.ts:60-77 | a recorded winner is refused with the state unchanged; otherwise every occurrence of the name goes and every other name keeps its multiplicity |
| Ledger.ResetParticipants | src/store/useStore.ts:79-95 | keeps, as a subsequence of the roster, exactly the participants that are recorded winners, with their multiplicities |
| Ledger.AddWinner | src/store/useStore.ts:97-107 | the prize's list (missing counts as empty) gains the entry at its end, every other list stays, and the store locks |
| Ledger.AddWinnerWinners | src/store/useStore.ts:97-107 | after an append the winners are the old winners plus the appended name, and nobody else |
| Ledger.AddWinnerKeepsNoDoubleWins | src/store/useStore.ts:97-107 | appending a name nobody has won keeps every name recorded at most once |
| Ledger.WriteAt | src/store/useStore.ts:122-123 | writing at an index of a JavaScript array sets that index, keeps every other element, and pads with holes past the end |
| Ledger.UpdateWinner | src/store/useStore.ts:120-130 | only the given position of the given prize's list changes; other prizes, roster, catalogue and lock stay |
| Ledger.UpdateWinnerKeepsNoDoubleWins | src/store/useStore.ts:120-130 | overwriting with a name nobody has won keeps every name recorded at most once |
| Ledger.ResetDraw | src/store/useStore.ts:109-116 | no winner is left, the store unlocks, and roster, catalogue and event name stay |
| Ledger.ResetDrawIdempotent | src/store/useStore.ts:109-116 | resetting the draw twice is the same as once |
| Ledger.ResetPrizes | src/store/useStore.ts:188-193 | the catalogue and all winners are gone, the store unlocks, the roster and event name stay |
| Ledger.FindSession | src/store/useStore.ts:147-149 | the index found is the first session with exactly that name; none means no session has it |
| Ledger.AddPrizeIdShape | src/store/useStore.ts:134-138 | the prize id is a well-formed slug, a dash and the clock reading, and the clock reading parses back from it |
| Ledger.AddPrize | src/store/useStore.ts:132-170 | an existing session name gets the prize appended and its reshuffle flag overwritten with the session count kept and every other session unchanged; otherwise exactly one new session is appended |
| Ledger.AddPrizeSlots | src/store/useStore.ts:147-169 | the number of boxes in the catalogue grows by exactly the new quantity |
| Ledger.AddPrizeKeepsCatalogueShape | src/store/useStore.ts:140-169 | every prize stays filed under its session's name, and quantities stay positive when the new one is |
| Ledger.DropPrize | src/store/useStore.ts:175-178 | a session keeps its identity and exactly its prize lines with another id, in order |
| Ledger.DropPrizeAll | src/store/useStore.ts:174-178 | every session is stripped of the prize, one for one |
| Ledger.RemovePrize | src/store/useStore.ts:172-186 | no session holds the prize or is left empty; the kept sessions are the non-empty stripped ones, in their old order and each as often as before; the prize's winner list is deleted and every other list stays |
| Ledger.RemovePrizeKeepsOtherPrizes | src/store/useStore.ts:174-179 | the catalogue's prize lines afterwards are its old prize lines less exactly the removed prize, in order |
| Ledger.NonEmptySessions | src/store/useStore.ts:179 | the sessions kept are exactly those with a prize line left, in order and with their multiplicity |
| Ledger.AddParticipantAcceptsDuplicate | src/store/useStore.ts:46-49 | adding a name already on the roster lists it twice |
| Ledger.AddWinnerAcceptsRepeat | src/store/useStore.ts:97-107 | recording a name that already won breaks the at-most-once invariant |
| Ledger.AddWinnerNoQuantityBound | src/store/useStore.ts:97-107 | a one-box prize can be given a second winner |
| Ledger.UpdateWinnerPadsHoles | src/store/useStore.ts:120-130 | overwriting an unfilled position leaves holes before it |
| Slug.Lower | src/store/useStore.ts:135 | lower-casing keeps the length and maps each character on its own |
| Slug.SlugifyWellFormed | src/store/useStore.ts:134-137 | the slug contains only `[a-z0-9-]`, no dash at either end and no two dashes in a row |
| Slug.SlugifyKeepsContent | src/store/useStore.ts:134-137 | the slug keeps every letter and digit of the lower-cased name, in order, and nothing else but dashes |
| Slug.SlugifyEmpty | src/store/useStore.ts:134-137 | the slug is empty exactly when the name has no ASCII letter or digit, the case in which a new session's id falls back to the clock |
| Slug.SlugifyIdempotent | src/store/useStore.ts:134-137 | slugifying a slug changes nothing |
| Numerals.DecimalValue | src/components/DoorprizeMachine.tsx:34 | the numeral rendered into a box key has the value of the number |
| Numerals.Trim | src/components/ParticipantManager.tsx:45 | the trimmed text is a slice of the input with only white space cut off on either side, and it starts and ends with a non-space character or is empty |
| Numerals.ParseDecimal | src/components/DoorprizeMachine.tsx:296 | a rendered numeral parses back to the number |
| Numerals.ParseDecimalThen | src/components/DoorprizeMachine.tsx:296 | parsing stops at the end of the numeral, whatever non-digit follows it |
| Numerals.ParseIntDropsTail | src/components/PrizeManager.tsx:48 | parsing keeps the leading integer and drops a fraction or a unit |
| Numerals.ParseIntReadsHex | src/components/PrizeManager.tsx:48 | parsing with no radix reads a `0x` prefix as hexadecimal |
| Numerals.ParseIntBlank | src/components/PrizeManager.tsx:47-49 | blank text trims to nothing and parses as not-a-number |
| Prizes.PrizeDataSlots | src/data/prizes.ts:19-52 | the sample catalogue has four sessions with 15, 11, 3 and 2 boxes, 31 in all |
| Prizes.PrizeDataPositive | src/data/prizes.ts:19-52 | every sample prize line has quantity at least one |
| Prizes.PrizeDataCategories | src/data/prizes.ts:15-53 | every sample prize is filed under the name of its session |
| Prizes.PrizeDataSessionIds | src/data/prizes.ts:16-47 | the sample session ids are pairwise different |
| Prizes.PrizeDataIdsDistinct | src/data/prizes.ts:19-51 | the sample prize ids are pairwise different across all sessions |
| Prizes.PrizeDataWellFormed | src/data/prizes.ts:14-54 | the sample catalogue is well formed: positive quantities, matching categories, unique session and prize ids |
| Draw.PrizeBoxes | src/components/DoorprizeMachine.tsx:30-36 | a prize line gives one box per copy, numbered from 0, each keyed by prize id, dash and number |
| Draw.BoxesOf | src/components/DoorprizeMachine.tsx:27-39 | every box belongs to a listed prize, its index is below the quantity and its key is built from id and index |
| Draw.BoxesOfConcat | src/components/DoorprizeMachine.tsx:29-37 | boxes come prize line by prize line: two stretches of prize lines give their boxes one after the other |
| Draw.BoxesOfCount | src/components/DoorprizeMachine.tsx:27-39 | the number of boxes is the sum of the quantities |
| Draw.BoxesOfCover | src/components/DoorprizeMachine.tsx:27-39 | every copy of every prize line has its box |
| Draw.EntryAt | src/components/DoorprizeMachine.tsx:113-114 | the list element at that index when the index is within the list, and undefined beyond it |
| Draw.SlotsToFill | src/components/DoorprizeMachine.tsx:124-134 | the open slots are exactly the boxes without a truthy entry, in display order |
| Draw.SessionWinnersCount | src/components/DoorprizeMachine.tsx:112-115 | the count of boxes with a defined entry never exceeds the number of boxes |
| Draw.SessionCompleteIff | src/components/DoorprizeMachine.tsx:112-118 | a session is complete exactly when it has a box and every box has a defined entry |
| Draw.TabDoneMeansComplete | src/components/DoorprizeMachine.tsx:364-368 | a ticked session tab is a complete session with no open slot |
| Draw.AvailableCandidates | src/components/DoorprizeMachine.tsx:107-110 | the candidates are the roster names recorded in no winners list, as a subsequence of the roster with every multiplicity kept |
| Draw.ActiveSession | src/components/DoorprizeMachine.tsx:97-100 | the first session with the selected id when there is one, else the first session; none exactly when there are no sessions |
| Draw.ActiveSessionIsFindOrFirst | src/components/DoorprizeMachine.tsx:97-100 | the lookup agrees on every input with `find` by id (the first occurrence of the id among the session ids) falling back to the first session |
| Draw.CheckDraw | src/components/DoorprizeMachine.tsx:120-177 | the draw returns early while busy, when every box is filled, and when candidates are fewer than open slots; otherwise it goes ahead with at least as many candidates as open slots |
| Draw.Allocate | src/components/DoorprizeMachine.tsx:181-188 | slot `k` is paired with its prize and the `k`-th shuffled entry |
| Draw.Commit | src/components/DoorprizeMachine.tsx:195-197 | committing allocations leaves roster and catalogue alone and locks the store when anything is allocated |
| Draw.CommitKeys | src/components/DoorprizeMachine.tsx:195-197 | a commit opens a list for every allocated prize and for no other |
| Draw.CommitLists | src/components/DoorprizeMachine.tsx:195-197 | each prize's list becomes its old list followed by exactly the names allocated to it, in order |
| Draw.StartDraw | src/components/DoorprizeMachine.tsx:120-197 | the store is written only when every check passed, and then it holds the allocation of the shuffled names to the open slots and is locked |
| Draw.ConfirmReshuffle | src/components/DoorprizeMachine.tsx:241-270 | no target or no candidate leaves the store unchanged; otherwise only the target box's position receives the first shuffled name |
| Draw.LastSegment | src/components/DoorprizeMachine.tsx:295-296 | the last segment is the dash-free tail of the key, preceded by a dash when shorter than the key |
| Draw.KeyIndexRoundTrip | src/components/DoorprizeMachine.tsx:293-298 | the slot index is read back from a box key, whatever dashes the prize id contains |
| Draw.MaxOf | src/components/DoorprizeMachine.tsx:300-301 | the maximum is an element of the list and at least every element |
| Draw.DrawingIndices | src/components/DoorprizeMachine.tsx:293-298 | the parsed indices match the keys one for one; there are none exactly when some key does not parse |
| Draw.BaseForBounds | src/components/DoorprizeMachine.tsx:300-308 | the base lies between 3000 and 9000 ms; above the floor, the box with the largest index stops exactly at 9000 ms and none later |
| Draw.BoxKeysParse | src/components/DoorprizeMachine.tsx:293-298 | the keys of boxes parse back to their slot indices |
| Draw.BaseDurationOfBoxKeys | src/components/DoorprizeMachine.tsx:292-308 | for box keys the base duration exists, lies between 3000 and 9000 ms and, above the floor, ends the largest index exactly at 9000 ms |
| DrawProofs.NamesForCount | src/components/DoorprizeMachine.tsx:183-197 | a prize receives one entry per allocation made to it |
| DrawProofs.NamesForAt | src/components/DoorprizeMachine.tsx:183-197 | allocation `k` is the entry its prize receives after the earlier allocations to the same prize |
| DrawProofs.CommitLands | src/components/DoorprizeMachine.tsx:195-197 | after a commit, allocation `k` sits in its prize's list right after the old entries and the earlier allocations to the same prize |
| DrawProofs.CommitGrowth | src/components/DoorprizeMachine.tsx:183-197 | each prize's list grows by exactly one entry per open slot of that prize |
| DrawProofs.AlignedDrawLands | src/components/DoorprizeMachine.tsx:124-197 | when each slot's index is where appending puts it, the `k`-th shuffled name lands in the `k`-th slot's box |
| DrawProofs.PrizeSlotsAligned | src/components/DoorprizeMachine.tsx:124-134 | for a prize filled from the front, its open boxes are exactly where appending puts new names |
| DrawProofs.BoxesAligned | src/components/DoorprizeMachine.tsx:124-134 | with unique prize ids and every prize filled from the front, the open boxes of a session are where appending puts new names |
| DrawProofs.StartDrawFillsOpenBoxes | src/components/DoorprizeMachine.tsx:120-197 | when every prize of the session is filled from the front (`PrefixFilled`) and its prize ids are unique, a draw over a permutation of the candidates puts the `k`-th shuffled name into the `k`-th open box |
| DrawProofs.DrawCompletesSession | src/components/DoorprizeMachine.tsx:112-197 | under the same two hypotheses, after such a draw every box of the session has an entry: the session is complete |
| DrawProofs.DrawKeepsPrefixFilled | src/components/DoorprizeMachine.tsx:120-197 | under the same hypotheses, a draw whose shuffled names are all defined and non-empty leaves every prize of the session filled from the front, so the next draw meets them again |
| DrawProofs.HoleMisroutesDraw | src/store/useStore.ts:97-107 | with an empty name in the first box of a two-box line, a draw of two names leaves that box empty, fills the second box and appends the second name past the last box (an empty name needs a store edited outside the app; an undefined hole from a short provider reply misroutes the same way) |
| DrawProofs.CommitKeepsEntry | src/components/DoorprizeMachine.tsx:195-197 | a commit leaves every existing entry where it was |
| DrawProofs.DrawnNamesFresh | src/components/DoorprizeMachine.tsx:107-110 | with a repeat-free roster the shuffled names are distinct roster names nobody has won |
| DrawProofs.CommitWinners | src/components/DoorprizeMachine.tsx:195-197 | after a commit the winners are the old winners and the allocated names, and nobody else |
| DrawProofs.CommitKeepsNoDoubleWins | src/components/DoorprizeMachine.tsx:195-197 | handing out pairwise different names nobody has won keeps every name recorded at most once |
| DrawProofs.StartDrawKeepsNoDoubleWins | src/components/DoorprizeMachine.tsx:120-197 | with a repeat-free roster and a permuting shuffle, a draw records no name twice |
| DrawProofs.DrawShrinksPool | src/components/DoorprizeMachine.tsx:107-197 | after a draw the candidates are the old candidates less exactly the names handed to open slots |
| DrawProofs.ReshuffleFresh | src/components/DoorprizeMachine.tsx:254-270 | the reshuffled box receives a roster name nobody has won, not the one it replaces, and no name becomes recorded twice |
| DrawProofs.ReshuffleKeepsCount | src/components/DoorprizeMachine.tsx:254-270 | reshuffling a box with an entry changes no box's defined-ness, so the session's winner count stays |
| DrawProofs.ReshuffleReleasesReplaced | src/components/DoorprizeMachine.tsx:254-270 | the replaced name becomes a candidate again |
| DrawProofs.DuplicateRosterDoubleWin | src/components/DoorprizeMachine.tsx:107-197 | a name listed twice on the roster wins twice in one draw over a permuting shuffle |
| DrawProofs.RepeatedNameWinsTwice | src/components/DoorprizeMachine.tsx:107-197 | for any name listed twice and one prize line of two boxes, a fresh draw records the name twice |
| DrawProofs.CommitTwice | src/components/DoorprizeMachine.tsx:195-197 | committing one pair twice lists its name twice and breaks the at-most-once invariant |
| DrawProofs.EmptyNameCompleteYetOpen | src/components/DoorprizeMachine.tsx:112-136 | an empty winner name counts as complete while the draw still sees the box as open and the tab shows no tick (an empty name needs a store edited outside the app) |
| DrawRace.TwoClicksAsWritten | src/components/DoorprizeMachine.tsx:120-197 | two clicks commit nothing when the checks fail |
| DrawRace.AsWrittenAppendsTwice | src/components/DoorprizeMachine.tsx:120-197 | as written, two clicks append two entries per open box to each prize |
| DrawRace.AsWrittenDoubleWin | src/components/DoorprizeMachine.tsx:120-197 | as written, a one-box prize ends with the same name twice |
| DrawRace.GuardedDrawsOnce | src/components/DoorprizeMachine.tsx:120-197 | with the busy flag raised before the wait, two clicks act as one draw and record no name twice |
| DrawTiming.CorrectedStopsAtShuffleEnd | src/components/DoorprizeMachine.tsx:292-308 | staggering by slot index, a draw whose slot indices are all below 12 has every box stop by the end of the draw sound (9000 ms), the last one exactly then |
| DrawTiming.CorrectedLastStop | src/components/DoorprizeMachine.tsx:292-308 | staggering by slot index, no box stops after the box with the largest slot index `m`, which stops at 9000 ms while `m <= 12` and at 3000 + 500·`m` ms beyond, where the 3000 ms floor holds the base |
| DrawTiming.CorrectedOverrunsPastTwelve | src/components/DoorprizeMachine.tsx:300-308 | even staggered by slot index, a fresh draw of one prize line of quantity 14 has its last box stop at 9500 ms, after the draw sound |
| DrawTiming.FiveByThreeIndices | src/components/DoorprizeMachine.tsx:27-39 | a session of five prize lines of quantity 3 shows 15 boxes with slot indices 0 to 2 |
| DrawTiming.BaseForIndicesUpToTwo | src/components/DoorprizeMachine.tsx:300-308 | slot indices up to 2 give an 8000 ms base |
| DrawTiming.StaggerOverrunsAsWritten | src/components/DoorprizeMachine.tsx:459-473 | as written, in a session of five prize lines of quantity 3 the fifteenth box is scheduled to stop at 15000 ms, after the 14000 ms reset; staggered by slot index every box of that session stops by 9000 ms |
| DrawTiming.SampleSessionIsFiveByThree | src/data/prizes.ts:15-25 | the first session of the sample catalogue has five prize lines of quantity 3 |
| PrizeBox.StopTimeStaggers | src/components/PrizeBox.tsx:46-50 | the stop time starts at the base duration (3000 ms by default) and each unit of delay adds 500 ms |
| PrizeBox.LabelsAgreeIffWinner | src/components/PrizeBox.tsx:46-61 | the label at the stop and the idle label agree exactly when there is a winner, and then both show it |
| PrizeBox.ReshuffleIgnoresPermission | src/components/PrizeBox.tsx:101-105 | a "grand" session that forbids reshuffling shows the control, and an allowing session with another id does not |
| PrizeBox.SampleSessionsHideReshuffle | src/components/PrizeBox.tsx:101-105 | no sample session ever shows the reshuffle control |
| FisherYates.MaxValid | src/lib/utils.ts:13-14 | the bound is a multiple of the limit, at most 2^32 and above 2^32 less the limit |
| FisherYates.DrawBelow | src/lib/utils.ts:16-24 | the accepted value is the first one below the bound and the partner is its remainder, in `[0, limit)`; the values skipped were all rejected |
| FisherYates.DrawNext | src/lib/utils.ts:13-24 | the next partner of a pass is drawn with limit `n - t` from where the previous draw stopped, and extends the record of draws; none is drawn only when every remaining value is rejected |
| FisherYates.DrawnFromUnique | src/lib/utils.ts:10-26 | the supply decides the draws: two records of the same length over one supply have the same positions and the same partners |
| FisherYates.AcceptedUniform | src/lib/utils.ts:13-24 | among accepted values every partner is the remainder of equally many values: the rejection step is unbiased |
| FisherYates.StepsPermutes | src/lib/utils.ts:10-26 | every pass of swaps is a permutation of its input |
| FisherYates.StepsFreezeSuffix | src/lib/utils.ts:10-26 | once a position is handled, later iterations never touch it again |
| FisherYates.Shuffle | src/lib/utils.ts:8-28 | a shuffle of a copy: partner `t` is the remainder modulo `n - t` of the first supply value after the previous draw that lies below the rejection bound, every value skipped was rejected, and the result is the reference pass for those partners, a permutation of the input; `None` comes back only when the supply ran out: a draw was still due and every value after the last accepted one is rejected for its limit; inputs of length at most one come back unchanged with no value used |
| RandomClient.FetchRandomIndices | src/lib/random.ts:7-26 | indices come back exactly for an ok status with data; every other reply ends in an error |
| RandomClient.MapIndices | src/lib/random.ts:44 | element `k` is the item at the `k`-th index, undefined off the array |
| RandomClient.ShuffleWithRandomOrg | src/lib/random.ts:37-52 | short arrays come back as they are without asking; a successful reply maps its indices; on failure the fallback result is the local Fisher-Yates pass over the supply (the items with the swaps whose partners were drawn from the supply applied, so a permutation), and no result comes back only when that pass ran out of supply |
| RandomClient.IndexPermutationPermutes | src/lib/random.ts:28-44 | a reply ordering all positions, each once, yields a permutation of the array |
| RandomClient.UncheckedIndices | src/lib/random.ts:24-44 | a repeated index repeats an element and an index off the array yields undefined |
| RandomRoute.Post | src/app/api/random/route.ts:6-59 | 500 exactly without a key, 400 exactly for rejected parameters, 200 with the provider's integers exactly when it answered, 502 with the error's message otherwise; the provider is asked only for accepted parameters, for `count` distinct integers in `[0, max - 1]` |
| RandomRoute.FractionalCountPasses | src/app/api/random/route.ts:20-43 | a fractional count within bounds reaches the provider |
| RandomRoute.HonestProviderPermutes | src/app/api/random/route.ts:38-48 | for 2 to 10000 elements, a provider answer that orders all positions, relayed by the route, makes the client's result a permutation |
| RandomRoute.LargeArrayFallsBack | src/app/api/random/route.ts:20-32 | beyond 10000 elements the route refuses and the client falls back |
| PrizeForm.AcceptedQuantity | src/components/PrizeManager.tsx:46-49 | a quantity is accepted exactly when both trimmed names are non-empty, the text is non-empty and it parses to at least one |
| PrizeForm.HandleAdd | src/components/PrizeManager.tsx:46-55 | a refused form changes neither form nor store; an accepted one files the trimmed names with the parsed quantity, clears the prize name, resets the quantity and keeps the session name and flag |
| PrizeForm.HandleAddKeepsCatalogue | src/components/PrizeManager.tsx:46-55 | an add through the form keeps quantities positive and categories matching, and grows the box count by the accepted quantity |
| PrizeForm.HandleAddFilesTrimmedPrize | src/components/PrizeManager.tsx:51 | the filed prize is the last line of its session and its name is non-empty with no surrounding white space |
| PrizeForm.QuantityParsing | src/components/PrizeManager.tsx:47-49 | of number-field texts, a fraction or an exponent is dropped; zero, negative and empty quantities are refused, and so is a blank session name |
| Numerals.ParseIntNegative | src/components/PrizeManager.tsx:48 | a leading minus sign negates |
| PrizeForm.AddPrizeAcceptsZero | src/store/useStore.ts:140-145 | the store itself files a prize of quantity zero |
| PrizeForm.UniqueSessions | src/components/PrizeManager.tsx:41-44 | every session name once, no repeats, in order of first use |
| PrizeForm.Suggestions | src/components/PrizeManager.tsx:197 | the suggestions are the unique session names containing the typed text ignoring case, in order of first use |
| PrizeForm.EmptyInputSuggestsAll | src/components/PrizeManager.tsx:197 | before anything is typed every session name is suggested |
| PrizeForm.SuggestionsIgnoreCase | src/components/PrizeManager.tsx:197 | texts that differ only in letter case give the same suggestions |
| PrizeForm.TotalPrizes | src/components/PrizeManager.tsx:63-66 | the total is the sum of every quantity of every session, the number of boxes |
| PrizeForm.SampleTotal | src/components/PrizeManager.tsx:63-66 | the sample catalogue totals 31 prizes |
| PrizeForm.CopiedFlag | src/components/PrizeManager.tsx:72-75 | the flag is that of the first session with exactly that name, or unchanged when there is none |
| PrizeForm.SessionSelect | src/components/PrizeManager.tsx:68-76 | choosing a name takes it, closes the list, copies the first such session's flag and keeps the prize fields |
| PrizeForm.SessionNameChange | src/components/PrizeManager.tsx:171-177 | typing takes the text, opens the list and copies the flag of a session with exactly that name |
| PrizeForm.SelectedSessionKeepsFlag | src/components/PrizeManager.tsx:68-76 | choosing an existing session and adding a prize files it there and leaves its reshuffle flag as it was |
| ParticipantForm.HandleAdd | src/components/ParticipantManager.tsx:44-56 | blank text is ignored, a case variant of a roster name is refused with form and store unchanged, and otherwise the trimmed name is appended and the field cleared |
| ParticipantForm.HandleAddKeepsCaseDistinct | src/components/ParticipantManager.tsx:47-53 | the single add keeps the roster free of case variants |
| ParticipantForm.HandleAddRefusesVariants | src/components/ParticipantManager.tsx:45-52 | with "A" on the roster both "a" and " A" are refused |
| ParticipantForm.HandleImport | src/components/ParticipantManager.tsx:58-60 | the import adds the batch unchanged: the old roster stays a prefix, the names appended are the batch names not on the roster with the batch's multiplicity, and the roster afterwards holds exactly the old and the batch names |
| ParticipantForm.ImportSkipsGuard | src/components/ParticipantManager.tsx:58-60 | the import files a trimmed case variant (`"a"` next to `"A"`) that the single add refuses |
| ParticipantForm.FormIgnoresLock | src/components/ParticipantManager.tsx:26-60 | adding and importing act the same whether or not the store is locked |
| ParticipantForm.AllWinners | src/components/ParticipantManager.tsx:36-42 | the winner set is exactly the names recorded in some winners list |
| ParticipantForm.RemoveOfferedIffRemovable | src/components/ParticipantManager.tsx:144-168 | the remove control is offered exactly to the participants the store would actually remove |

## Left out

- `src/components/ParticipantImporter.tsx` and `src/app/page.tsx` are not part of this model: spreadsheet parsing through a library and page layout. The importer's result enters as the name list of `ParticipantForm.HandleImport`. That list is already trimmed and free of blank names (`ParticipantImporter.tsx` trims every cell and drops blank ones), which the model does not state as a precondition.
- `cn` in `src/lib/utils.ts`: a class-name helper with no logic.
- Timers, audio, confetti, animation, the cosmetic name cycling of a rolling box and the clean-up of its timers: presentation. The busy flag is a boolean input.
- Persistence to local storage and the JSON round trip (which turns `undefined` entries into `null`).
- The network: the route's reply to the client, the provider's answer and whether the API key is configured are inputs.
- The clock: `addPrize` reads `Date.now()` twice (prize id and fallback session id); the model takes one reading `now` for both.
- Unicode: lower-casing and white space cover ASCII only.
- `parseInt`: the model reads decimal and `0x` digits with a sign after ASCII white space; number precision and the limits of JavaScript numbers are not modelled.
- `FisherYates.Shuffle`: the random source is a finite supply of values and the shuffle reports `None` exactly when it runs out (`FisherYates.RanOut`), so the contract is partial correctness; `fisherYatesShuffle` keeps drawing and stops with probability one.
- `RandomClient.ShuffleWithRandomOrg`: on failure the fallback result is the Fisher-Yates pass only when the finite supply lasts; `shuffleWithRandomOrg` always produces one.
- `PrizeForm.HandleAdd`: the quantity is the field's text as given. The browser's number-field sanitisation, which empties any text that is not a valid floating-point number, is not modelled, so the model also accepts texts such as `"3 pcs"` that the field never delivers.
- `ParticipantForm.AllWinners`, `Ledger.RemoveParticipant`, `Ledger.ResetParticipants`: undefined entries are skipped, while the source adds `String(undefined)`, so a participant literally named "undefined" would also count as a winner there.
- `PrizeBox.StopTimeStaggers`: a `NaN` base duration (a key whose last segment does not parse) is not carried into the stop time; `Draw.BaseDuration` reports it as `None`.
- `RandomRoute.Post`: a JSON field that is neither a number nor absent (a string, a boolean) is not modelled; fields are absent, `null` or numbers.
- The event-name input on the raffle screen: it calls `setEventName`, modelled as `Ledger.SetEventName`.

## Findings

| source | as written | input that shows it | evidently intended | confidence | as-written member | corrected member |
|---|---|---|---|---|---|---|
| src/components/DoorprizeMachine.tsx:120-197 | the busy flag is raised only after the handler has awaited the shuffle, so a second click during the wait passes the same checks against the same render and commits a second allocation to the same open boxes | roster `["Ana", "Budi"]`, one prize line of one box, both shuffles `["Ana", "Budi"]`: the prize's list becomes `["Ana", "Ana"]` | raise the flag as soon as the checks pass, so the second click returns at its first check | not executed | DrawRace.AsWrittenDoubleWin | DrawRace.GuardedDrawsOnce |
| src/components/DoorprizeMachine.tsx:292-308 | the base duration is computed so that the box with the largest slot index stops at 9000 ms, but each box is staggered by its position on the screen (line 472), not by its slot index | a fresh draw of a session entered through the prize form as five prize lines of quantity 3: 15 boxes, slot indices 0 to 2, base 8000 ms; the box at screen position 14 is scheduled to stop at 15000 ms, but the 14000 ms reset ends the animation and the box's clean-up cancels that stop, so the box rolls until the reset and then shows its winner without ever having stopped | stagger each box by its slot index, so that every box stops by 9000 ms while no slot index exceeds 12, that is while no prize line has more than 13 copies; beyond that the 3000 ms floor makes the box with the largest slot index `m` stop at 3000 + 500·`m` ms (`DrawTiming.CorrectedLastStop`; 9500 ms for slot index 13, `DrawTiming.CorrectedOverrunsPastTwelve`) | not executed | DrawTiming.StaggerOverrunsAsWritten | DrawTiming.CorrectedStopsAtShuffleEnd |

=== FILE: draw.dfy ===
/** The draw logic of the raffle screen (`src/components/DoorprizeMachine.tsx`):
    boxes, open slots, candidates, completeness, the batch draw, the single-box
    reshuffle and the reveal's base duration. */
module Draw {
  import opened Options
  import opened Seqs
  import opened Numerals
  import opened Prizes
  import opened Ledger

  /** One on-screen box: the `index`-th copy of a prize. */
  datatype Box = Box(prize: PrizeItem, index: nat, key: string)

  /** `${prize.id}-${i}`. */
  function BoxKey(prizeId: string, i: nat): string
  {
    prizeId + "-" + Decimal(i)
  }

  /** The number of boxes a prize line occupies: its quantity, none when the
      quantity is not positive. */
  function Copies(p: PrizeItem): nat
  {
    if p.quantity > 0 then p.quantity else 0
  }

  /** The boxes of one prize line, `index` counting from 0. */
  function PrizeBoxes(p: PrizeItem): (r: seq<Box>)
    ensures |r| == Copies(p)
    ensures forall i :: 0 <= i < |r| ==> r[i] == Box(p, i, BoxKey(p.id, i))
  {
    seq(Copies(p), i requires 0 <= i < Copies(p) => Box(p, i, BoxKey(p.id, i)))
  }

  /** All boxes of a prize list, prize by prize and copy by copy. */
  function BoxesOf(prizes: seq<PrizeItem>): (r: seq<Box>)
    ensures forall k :: 0 <= k < |r| ==>
      r[k].prize in prizes && r[k].index < r[k].prize.quantity && r[k].key == BoxKey(r[k].prize.id, r[k].index)
    decreases |prizes|
  {
    if prizes == [] then []
    else
      var head := PrizeBoxes(prizes[0]);
      var rest := BoxesOf(prizes[1..]);
      assert forall k :: 0 <= k < |rest| ==> rest[k].prize in prizes;
      head + rest
  }

  /** `getDisplayBoxes(session)`. */
  function DisplayBoxes(session: SessionData): seq<Box>
  {
    BoxesOf(session.prizes)
  }

  /** Boxes come prize line by prize line: the boxes of two consecutive
      stretches of the list are the two stretches' boxes, one after the other. */
  lemma {:induction false} BoxesOfConcat(a: seq<PrizeItem>, b: seq<PrizeItem>)
    ensures BoxesOf(a + b) == BoxesOf(a) + BoxesOf(b)
    decreases |a|
  {
    if a == [] {
      assert a + b == b;
    } else {
      assert (a + b)[1..] == a[1..] + b;
      BoxesOfConcat(a[1..], b);
    }
  }

  /** With no negative quantity the box count is the sum of the quantities. */
  lemma {:induction false} BoxesOfCount(prizes: seq<PrizeItem>)
    requires forall k :: 0 <= k < |prizes| ==> prizes[k].quantity >= 0
    ensures |BoxesOf(prizes)| == PrizeSlots(prizes)
    decreases |prizes|
  {
    if prizes != [] {
      BoxesOfCount(prizes[1..]);
    }
  }

  /** Every copy of every prize line has its box. */
  lemma {:induction false} BoxesOfCover(prizes: seq<PrizeItem>, j: nat, i: nat)
    requires j < |prizes| && i < prizes[j].quantity
    ensures Box(prizes[j], i, BoxKey(prizes[j].id, i)) in BoxesOf(prizes)
    decreases j
  {
    if j == 0 {
      assert PrizeBoxes(prizes[0])[i] == Box(prizes[0], i, BoxKey(prizes[0].id, i));
    } else {
      BoxesOfCover(prizes[1..], j - 1, i);
    }
  }

  // ------------------------------------------------------------ lookups

  /** `(winners[prizeId] || [])[index]`. */
  function EntryAt(w: Winners, prizeId: string, index: nat): (r: Entry)
    ensures index < |ListOf(w, prizeId)| ==> r == ListOf(w, prizeId)[index]
    ensures index >= |ListOf(w, prizeId)| ==> r.None?
  {
    var l := ListOf(w, prizeId);
    if index < |l| then l[index] else None
  }

  /** JavaScript truthiness of an entry: defined and not the empty string. */
  predicate Truthy(e: Entry)
  {
    e.Some? && e.value != ""
  }

  /** The box shows a winner, as the draw button sees it (truthy entry). */
  predicate Filled(w: Winners, b: Box)
  {
    Truthy(EntryAt(w, b.prize.id, b.index))
  }

  /** The box has an entry, as the completeness count sees it (`!== undefined`). */
  predicate Defined(w: Winners, b: Box)
  {
    EntryAt(w, b.prize.id, b.index).Some?
  }

  /** `slotsToFill`: the boxes without a truthy entry, in display order. */
  function SlotsToFill(w: Winners, boxes: seq<Box>): (r: seq<Box>)
    ensures forall b :: b in r <==> b in boxes && !Filled(w, b)
    ensures SubseqOf(r, boxes)
  {
    FilterIsSubseq((b: Box) => !Filled(w, b), boxes);
    Filter((b: Box) => !Filled(w, b), boxes)
  }

  /** `sessionWinnersCount`. */
  function SessionWinnersCount(w: Winners, boxes: seq<Box>): (r: nat)
    ensures r <= |boxes|
  {
    |Filter((b: Box) => Defined(w, b), boxes)|
  }

  /** `isSessionComplete`. */
  predicate IsSessionComplete(w: Winners, boxes: seq<Box>)
  {
    |boxes| > 0 && SessionWinnersCount(w, boxes) == |boxes|
  }

  /** A session is complete exactly when it has a box and every box has an
      entry. */
  lemma SessionCompleteIff(w: Winners, boxes: seq<Box>)
    ensures IsSessionComplete(w, boxes) <==> |boxes| > 0 && forall k :: 0 <= k < |boxes| ==> Defined(w, boxes[k])
  {
    FilterKeepsLength((b: Box) => Defined(w, b), boxes);
  }

  /** The check mark on a session tab: a box exists and every box is truthy. */
  predicate TabShowsDone(w: Winners, boxes: seq<Box>)
  {
    |boxes| > 0 && forall k :: 0 <= k < |boxes| ==> Filled(w, boxes[k])
  }

  /** A ticked tab is a complete session, and then nothing is left to fill. */
  lemma TabDoneMeansComplete(w: Winners, boxes: seq<Box>)
    ensures TabShowsDone(w, boxes) ==> IsSessionComplete(w, boxes) && SlotsToFill(w, boxes) == []
  {
    SessionCompleteIff(w, boxes);
    FilterEmpty((b: Box) => !Filled(w, b), boxes);
  }

  /** `availableCandidates`: the participants not recorded as winners, in roster
      order (repeats on the roster stay repeated). */
  function AvailableCandidates(participants: seq<string>, w: Winners): (r: seq<string>)
    ensures forall p :: p in r <==> p in participants && !IsWinner(w, p)
    ensures SubseqOf(r, participants)
    ensures forall p :: !IsWinner(w, p) ==> multiset(r)[p] == multiset(participants)[p]
  {
    FilterIsSubseq((p: string) => !IsWinner(w, p), participants);
    FilterCount((p: string) => !IsWinner(w, p), participants);
    Filter((p: string) => !IsWinner(w, p), participants)
  }

  /** With no winners recorded every box is open. */
  lemma NothingFilledYet(boxes: seq<Box>)
    ensures SlotsToFill(map[], boxes) == boxes
  {
    var w: Winners := map[];
    FilterAll((b: Box) => !Filled(w, b), boxes);
  }

  /** With no winners recorded every participant is a candidate. */
  lemma NobodyWonYet(participants: seq<string>)
    ensures AvailableCandidates(participants, map[]) == participants
  {
    var w: Winners := map[];
    FilterAll((p: string) => !IsWinner(w, p), participants);
  }

  /** `x` is the first session of `sessions` whose id is `id`. */
  predicate FirstWithId(sessions: seq<SessionData>, id: string, x: SessionData)
  {
    exists k :: 0 <= k < |sessions| && sessions[k] == x && x.id == id
      && forall j :: 0 <= j < k ==> sessions[j].id != id
  }

  /** `activeSession`: the session with the selected id, else the first one;
      none when there are no sessions. */
  function ActiveSession(sessions: seq<SessionData>, activeId: string): (r: Option<SessionData>)
    ensures r.None? <==> sessions == []
    ensures r.Some? ==> r.value in sessions
    ensures r.Some? && r.value.id != activeId ==> r.value == sessions[0] && forall k :: 0 <= k < |sessions| ==> sessions[k].id != activeId
    ensures (exists k :: 0 <= k < |sessions| && sessions[k].id == activeId) ==> r.Some? && r.value.id == activeId
    ensures r.Some? && r.value.id == activeId ==> FirstWithId(sessions, activeId, r.value)
    decreases |sessions|
  {
    if sessions == [] then None
    else if sessions[0].id == activeId then Some(sessions[0])
    else
      match ActiveSession(sessions[1..], activeId)
      case Some(x) =>
        if x.id == activeId then Some(x) else Some(sessions[0])
      case None => Some(sessions[0])
  }

  /** Reference for `sessions.find(s => s.id === activeId) || sessions[0]`,
      through the position of the first occurrence of the id. */
  function FindOrFirst(sessions: seq<SessionData>, activeId: string): Option<SessionData>
  {
    var ids := SessionIds(sessions);
    if activeId in ids then Some(sessions[FirstIndex(ids, activeId)])
    else if sessions == [] then None
    else Some(sessions[0])
  }

  lemma ActiveSessionIsFindOrFirst(sessions: seq<SessionData>, activeId: string)
    ensures ActiveSession(sessions, activeId) == FindOrFirst(sessions, activeId)
  {
    var ids := SessionIds(sessions);
    var r := ActiveSession(sessions, activeId);
    if activeId in ids {
      var i :| 0 <= i < |ids| && ids[i] == activeId;
      assert r.Some? && r.value.id == activeId;
      var k :| 0 <= k < |sessions| && sessions[k] == r.value && r.value.id == activeId
        && forall j :: 0 <= j < k ==> sessions[j].id != activeId;
      assert activeId !in ids[..k] by {
        forall j | 0 <= j < k
          ensures ids[..k][j] != activeId
        {
          assert ids[..k][j] == sessions[j].id;
        }
      }
      FirstIndexUnique(ids, activeId, k);
    } else if sessions != [] {
      assert forall k :: 0 <= k < |sessions| ==> ids[k] in ids;
    }
  }

  // ---------------------------------------------------------- batch draw

  /** What `handleStartDraw` decides before it suspends. */
  datatype DrawCheck =
    | Busy
    | NothingToFill
    | NotEnough(need: nat, have: nat)
    | Ready(slots: seq<Box>, candidates: seq<string>)

  /** The three early returns, in source order, then the go-ahead. */
  function CheckDraw(playing: bool, st: AppState, boxes: seq<Box>): (r: DrawCheck)
    ensures r.Busy? <==> playing
    ensures r.NothingToFill? <==> !playing && forall b :: b in boxes ==> Filled(st.winners, b)
    ensures r.NotEnough? ==> r.need == |SlotsToFill(st.winners, boxes)| > r.have == |AvailableCandidates(st.participants, st.winners)|
    ensures r.Ready? ==>
      r.slots == SlotsToFill(st.winners, boxes) && r.slots != []
      && r.candidates == AvailableCandidates(st.participants, st.winners)
      && |r.slots| <= |r.candidates|
  {
    var slots := SlotsToFill(st.winners, boxes);
    var cands := AvailableCandidates(st.participants, st.winners);
    if playing then Busy
    else if slots == [] then NothingToFill
    else if |cands| < |slots| then
      assert slots[0] in slots;
      NotEnough(|slots|, |cands|)
    else
      assert slots[0] in slots;
      Ready(slots, cands)
  }

  /** One `(prizeId, name)` pair of `allocatedWinners`. */
  datatype Allocation = Allocation(prizeId: string, name: Entry)

  /** Slot `k` gets `shuffled[k]` (undefined past the end of `shuffled`). */
  function Allocate(slots: seq<Box>, shuffled: seq<Entry>): (r: seq<Allocation>)
    ensures |r| == |slots|
    ensures forall k :: 0 <= k < |slots| ==> r[k].prizeId == slots[k].prize.id
    ensures forall k :: 0 <= k < |slots| && k < |shuffled| ==> r[k].name == shuffled[k]
  {
    seq(|slots|, k requires 0 <= k < |slots| =>
      Allocation(slots[k].prize.id, if k < |shuffled| then shuffled[k] else None))
  }

  /** The entries an allocation list appends to one prize, in order. */
  function NamesFor(alloc: seq<Allocation>, prizeId: string): (r: seq<Entry>)
    ensures |r| <= |alloc|
    decreases |alloc|
  {
    if alloc == [] then []
    else
      var last := alloc[|alloc| - 1];
      NamesFor(alloc[..|alloc| - 1], prizeId) + (if last.prizeId == prizeId then [last.name] else [])
  }

  /** `allocatedWinners.forEach(addWinner)`: every pair appended in order. */
  function Commit(st: AppState, alloc: seq<Allocation>): (r: AppState)
    ensures r.isLocked == (st.isLocked || alloc != [])
    ensures r.participants == st.participants && r.sessions == st.sessions
    decreases |alloc|
  {
    if alloc == [] then st
    else
      var init := alloc[..|alloc| - 1];
      var last := alloc[|alloc| - 1];
      AddWinner(Commit(st, init), last.prizeId, last.name)
  }

  /** A commit opens a list for every allocated prize and for no other. */
  lemma {:induction false} CommitKeys(st: AppState, alloc: seq<Allocation>)
    ensures Commit(st, alloc).winners.Keys == st.winners.Keys + set k | 0 <= k < |alloc| :: alloc[k].prizeId
    decreases |alloc|
  {
    if alloc != [] {
      var init := alloc[..|alloc| - 1];
      var last := alloc[|alloc| - 1];
      CommitKeys(st, init);
      AllocatedIdsSnoc(alloc);
    }
  }

  lemma AllocatedIdsSnoc(alloc: seq<Allocation>)
    requires alloc != []
    ensures var init := alloc[..|alloc| - 1];
      (set k | 0 <= k < |alloc| :: alloc[k].prizeId)
      == (set k | 0 <= k < |init| :: init[k].prizeId) + {alloc[|alloc| - 1].prizeId}
  {
    var init := alloc[..|alloc| - 1];
    assert forall k :: 0 <= k < |init| ==> init[k] == alloc[k];
  }

  /** After a commit every prize's list is its old list followed by exactly the
      names allocated to that prize, in allocation order. */
  lemma {:induction false} CommitLists(st: AppState, alloc: seq<Allocation>, id: string)
    ensures ListOf(Commit(st, alloc).winners, id) == ListOf(st.winners, id) + NamesFor(alloc, id)
    decreases |alloc|
  {
    if alloc != [] {
      var init := alloc[..|alloc| - 1];
      var last := alloc[|alloc| - 1];
      CommitLists(st, init, id);
      var a, b := ListOf(st.winners, id), NamesFor(init, id);
      if id == last.prizeId {
        assert NamesFor(alloc, id) == b + [last.name];
        assert (a + b) + [last.name] == a + (b + [last.name]);
      } else {
        assert NamesFor(alloc, id) == b + [];
        assert b + [] == b;
      }
    }
  }

  /** The data steps of `handleStartDraw`, with the shuffle's result supplied:
      the store is written only when every check passed. */
  function StartDraw(playing: bool, st: AppState, boxes: seq<Box>, shuffled: seq<Entry>): (r: AppState)
    ensures !CheckDraw(playing, st, boxes).Ready? ==> r == st
    ensures CheckDraw(playing, st, boxes).Ready? ==>
      var slots := SlotsToFill(st.winners, boxes);
      r == Commit(st, Allocate(slots, shuffled)) && r.isLocked
  {
    match CheckDraw(playing, st, boxes)
    case Ready(slots, _) => Commit(st, Allocate(slots, shuffled))
    case _ => st
  }

  // ------------------------------------------------------------ reshuffle

  /** The data steps of `handleConfirmReshuffle` for a chosen box: nothing when
      there is no target or no candidate, else the box's entry becomes the first
      shuffled candidate. */
  function ConfirmReshuffle(st: AppState, target: Option<Box>, shuffled: seq<Entry>): (r: AppState)
    ensures target.None? || AvailableCandidates(st.participants, st.winners) == [] ==> r == st
    ensures target.Some? && AvailableCandidates(st.participants, st.winners) != [] ==>
      r == UpdateWinner(st, target.value.prize.id, target.value.index, if shuffled != [] then shuffled[0] else None)
  {
    if target.None? then st
    else if AvailableCandidates(st.participants, st.winners) == [] then st
    else UpdateWinner(st, target.value.prize.id, target.value.index, if shuffled != [] then shuffled[0] else None)
  }

  // ------------------------------------------------------ reveal duration

  /** `k.split("-")` then the last part: the text after the last dash. */
  function LastSegment(k: string): (r: string)
    ensures |r| <= |k| && r == k[|k| - |r|..]
    ensures forall i :: 0 <= i < |r| ==> r[i] != '-'
    ensures |r| < |k| ==> k[|k| - |r| - 1] == '-'
    decreases |k|
  {
    if k == [] || k[|k| - 1] == '-' then []
    else LastSegment(k[..|k| - 1]) + [k[|k| - 1]]
  }

  /** `parseInt(parts[parts.length - 1] || "0")`; `None` is `NaN`. */
  function KeyIndex(k: string): Option<int>
  {
    var seg := LastSegment(k);
    ParseInt(if seg != [] then seg else "0")
  }

  /** The last segment of `x-d` is `d` when `d` has no dash. */
  lemma {:induction false} LastSegmentAfterDash(x: string, d: string)
    requires forall i :: 0 <= i < |d| ==> d[i] != '-'
    ensures LastSegment(x + "-" + d) == d
    decreases |d|
  {
    var k := x + "-" + d;
    if d != [] {
      var d' := d[..|d| - 1];
      assert k[..|k| - 1] == x + "-" + d';
      LastSegmentAfterDash(x, d');
      assert d == d' + [d[|d| - 1]];
    }
  }

  /** The slot index is read back from a box key, whatever dashes the prize id
      itself contains. */
  lemma KeyIndexRoundTrip(prizeId: string, i: nat)
    ensures LastSegment(BoxKey(prizeId, i)) == Decimal(i)
    ensures KeyIndex(BoxKey(prizeId, i)) == Some(i)
  {
    var d := Decimal(i);
    assert forall j :: 0 <= j < |d| ==> IsDigit(d[j]);
    LastSegmentAfterDash(prizeId, d);
    ParseDecimal(i);
  }

  /** `Math.max(...xs)` for a non-empty list. */
  function MaxOf(xs: seq<int>): (m: int)
    requires xs != []
    ensures m in xs && forall k :: 0 <= k < |xs| ==> xs[k] <= m
    decreases |xs|
  {
    if |xs| == 1 then xs[0]
    else
      var m := MaxOf(xs[1..]);
      assert m in xs;
      if xs[0] > m then xs[0] else m
  }

  /** The parsed indices of the drawing keys; `None` when one of them is
      `NaN`, which turns the whole maximum into `NaN`. */
  function DrawingIndices(keys: seq<string>): (r: Option<seq<int>>)
    ensures r.Some? ==> |r.value| == |keys| && forall k :: 0 <= k < |keys| ==> KeyIndex(keys[k]) == Some(r.value[k])
    ensures r.None? ==> exists k :: 0 <= k < |keys| && KeyIndex(keys[k]).None?
  {
    if forall k :: 0 <= k < |keys| ==> KeyIndex(keys[k]).Some? then
      Some(seq(|keys|, k requires 0 <= k < |keys| => KeyIndex(keys[k]).value))
    else None
  }

  /** `Math.max(3000, 9000 - maxDrawingIndex * 500)`; `None` is `NaN`. */
  function BaseDuration(keys: seq<string>): Option<int>
  {
    match DrawingIndices(keys)
    case None => None
    case Some(ix) => Some(BaseFor(ix))
  }

  /** The base duration for parsed indices (maximum 0 when there are none). */
  function BaseFor(ix: seq<int>): int
  {
    var m := if ix == [] then 0 else MaxOf(ix);
    if 9000 - m * 500 > 3000 then 9000 - m * 500 else 3000
  }

  /** For non-negative indices the base lies in [3000, 9000]; unless the
      3000 ms floor applies, no index stops after 9000 ms and the largest
      index stops exactly then. */
  lemma BaseForBounds(ix: seq<int>)
    requires forall k :: 0 <= k < |ix| ==> ix[k] >= 0
    ensures 3000 <= BaseFor(ix) <= 9000
    ensures ix == [] ==> BaseFor(ix) == 9000
    ensures BaseFor(ix) > 3000 ==> forall k :: 0 <= k < |ix| ==> BaseFor(ix) + 500 * ix[k] <= 9000
    ensures ix != [] && BaseFor(ix) > 3000 ==> exists k :: 0 <= k < |ix| && BaseFor(ix) + 500 * ix[k] == 9000
  {
    if ix != [] {
      var m := MaxOf(ix);
      var j :| 0 <= j < |ix| && ix[j] == m;
    }
  }

  /** The keys of a list of boxes. */
  function Keys(boxes: seq<Box>): (r: seq<string>)
    ensures |r| == |boxes| && forall k :: 0 <= k < |boxes| ==> r[k] == boxes[k].key
  {
    seq(|boxes|, k requires 0 <= k < |boxes| => boxes[k].key)
  }

  /** The slot indices of a list of boxes. */
  function Indices(boxes: seq<Box>): (r: seq<int>)
    ensures |r| == |boxes| && forall k :: 0 <= k < |boxes| ==> r[k] == boxes[k].index
  {
    seq(|boxes|, k requires 0 <= k < |boxes| => boxes[k].index)
  }

  /** Box keys parse back to the boxes' slot indices. */
  lemma BoxKeysParse(boxes: seq<Box>)
    requires forall k :: 0 <= k < |boxes| ==> boxes[k].key == BoxKey(boxes[k].prize.id, boxes[k].index)
    ensures DrawingIndices(Keys(boxes)) == Some(Indices(boxes))
  {
    var keys := Keys(boxes);
    forall k | 0 <= k < |boxes|
      ensures KeyIndex(keys[k]) == Some(boxes[k].index)
    {
      KeyIndexRoundTrip(boxes[k].prize.id, boxes[k].index);
    }
    var ix := DrawingIndices(keys);
    assert ix.Some?;
    assert ix.value == Indices(boxes);
  }

  /** For box keys the base duration lies between 3000 and 9000 ms: it is 9000
      ms less 500 ms per step of the largest slot index, floored at 3000 ms. */
  lemma BaseDurationOfBoxKeys(boxes: seq<Box>)
    requires forall k :: 0 <= k < |boxes| ==> boxes[k].key == BoxKey(boxes[k].prize.id, boxes[k].index)
    ensures var d := BaseDuration(Keys(boxes));
      d.Some? && 3000 <= d.value <= 9000
      && (boxes == [] ==> d.value == 9000)
      && (d.value > 3000 ==> forall k :: 0 <= k < |boxes| ==> d.value + 500 * boxes[k].index <= 9000)
      && (boxes != [] && d.value > 3000 ==> exists k :: 0 <= k < |boxes| && d.value + 500 * boxes[k].index == 9000)
  {
    BoxKeysParse(boxes);
    var xs := Indices(boxes);
    BaseForBounds(xs);
    var d := BaseFor(xs);
    if boxes != [] && d > 3000 {
      var k :| 0 <= k < |xs| && d + 500 * xs[k] == 9000;
      assert d + 500 * boxes[k].index == 9000;
    }
  }
}

=== FILE: draw_proofs.dfy ===
/** What the batch draw and the single-box reshuffle guarantee: where every
    drawn name lands, that drawn names are fresh, that no name is recorded
    twice, and what the reshuffle changes. */
module DrawProofs {
  import opened Options
  import opened Seqs
  import opened Prizes
  import opened Ledger
  import opened Draw

  /** The prize ids of a list of boxes. */
  function SlotIds(slots: seq<Box>): (r: seq<string>)
    ensures |r| == |slots| && forall k :: 0 <= k < |slots| ==> r[k] == slots[k].prize.id
  {
    seq(|slots|, k requires 0 <= k < |slots| => slots[k].prize.id)
  }

  /** The prize ids of an allocation list. */
  function AllocIds(alloc: seq<Allocation>): (r: seq<string>)
    ensures |r| == |alloc| && forall k :: 0 <= k < |alloc| ==> r[k] == alloc[k].prizeId
  {
    seq(|alloc|, k requires 0 <= k < |alloc| => alloc[k].prizeId)
  }

  // ------------------------------------------------- where names land

  /** A prize receives one entry per allocation made to it. */
  lemma {:induction false} NamesForCount(alloc: seq<Allocation>, id: string)
    ensures |NamesFor(alloc, id)| == multiset(AllocIds(alloc))[id]
    decreases |alloc|
  {
    if alloc != [] {
      var init := alloc[..|alloc| - 1];
      NamesForCount(init, id);
      assert AllocIds(alloc) == AllocIds(init) + [alloc[|alloc| - 1].prizeId];
    }
  }

  /** The entries a prefix of the allocations hands a prize come first. */
  lemma {:induction false} NamesForPrefix(alloc: seq<Allocation>, m: nat, id: string)
    requires m <= |alloc|
    ensures |NamesFor(alloc[..m], id)| <= |NamesFor(alloc, id)|
    ensures NamesFor(alloc, id)[..|NamesFor(alloc[..m], id)|] == NamesFor(alloc[..m], id)
    decreases |alloc|
  {
    if m == |alloc| {
      assert alloc[..m] == alloc;
    } else {
      var init := alloc[..|alloc| - 1];
      assert init[..m] == alloc[..m];
      NamesForPrefix(init, m, id);
      var p := NamesFor(alloc[..m], id);
      var last := alloc[|alloc| - 1];
      assert NamesFor(alloc, id) == NamesFor(init, id) + (if last.prizeId == id then [last.name] else []);
      assert NamesFor(alloc, id)[..|p|] == NamesFor(init, id)[..|p|];
    }
  }

  /** Allocation `k` is the `c`-th entry its prize receives, where `c` counts
      the earlier allocations to the same prize. */
  lemma NamesForAt(alloc: seq<Allocation>, k: nat)
    requires k < |alloc|
    ensures var id := alloc[k].prizeId;
      var c := multiset(AllocIds(alloc)[..k])[id];
      c < |NamesFor(alloc, id)| && NamesFor(alloc, id)[c] == alloc[k].name
  {
    var id := alloc[k].prizeId;
    NamesForCount(alloc[..k], id);
    AllocIdsPrefix(alloc, k);
    NamesForSnoc(alloc, k);
    NamesForPrefix(alloc, k + 1, id);
  }

  lemma AllocIdsPrefix(alloc: seq<Allocation>, k: nat)
    requires k <= |alloc|
    ensures AllocIds(alloc[..k]) == AllocIds(alloc)[..k]
  {
  }

  /** The prefix through allocation `k` hands its prize one more entry. */
  lemma NamesForSnoc(alloc: seq<Allocation>, k: nat)
    requires k < |alloc|
    ensures NamesFor(alloc[..k + 1], alloc[k].prizeId) == NamesFor(alloc[..k], alloc[k].prizeId) + [alloc[k].name]
  {
    var pre := alloc[..k + 1];
    assert pre[..k] == alloc[..k] && pre[k] == alloc[k];
  }

  /** After a commit, allocation `k` sits in its prize's list right after the
      old entries and the earlier allocations to the same prize. */
  lemma CommitLands(st: AppState, alloc: seq<Allocation>, k: nat)
    requires k < |alloc|
    ensures forall at: nat | at == |ListOf(st.winners, alloc[k].prizeId)| + multiset(AllocIds(alloc)[..k])[alloc[k].prizeId] ::
      EntryAt(Commit(st, alloc).winners, alloc[k].prizeId, at) == alloc[k].name
  {
    CommitLists(st, alloc, alloc[k].prizeId);
    NamesForAt(alloc, k);
  }

  /** Committing an allocation of open boxes adds to each prize's list exactly
      one entry per open box of that prize. */
  lemma CommitGrowth(st: AppState, slots: seq<Box>, shuffled: seq<Entry>, id: string)
    ensures |ListOf(Commit(st, Allocate(slots, shuffled)).winners, id)|
         == |ListOf(st.winners, id)| + multiset(SlotIds(slots))[id]
  {
    var a := Allocate(slots, shuffled);
    CommitLists(st, a, id);
    NamesForCount(a, id);
    assert AllocIds(a) == SlotIds(slots);
  }

  /** Slot `j`'s index is where appending puts it: its prize's list length
      plus the earlier slots for the same prize. */
  predicate AlignedSlot(w: Winners, slots: seq<Box>, j: nat)
    requires j < |slots|
  {
    slots[j].index == |ListOf(w, slots[j].prize.id)| + multiset(SlotIds(slots)[..j])[slots[j].prize.id]
  }

  /** Slot `j`'s index is its prize's list length plus the number of earlier
      slots for the same prize: appending fills exactly these positions. */
  predicate Aligned(w: Winners, slots: seq<Box>)
  {
    forall j :: 0 <= j < |slots| ==> AlignedSlot(w, slots, j)
  }

  /** For aligned slots, appending the allocations puts the `k`-th shuffled
      entry into the `k`-th slot's box. */
  lemma AlignedDrawLands(st: AppState, slots: seq<Box>, shuffled: seq<Entry>, k: nat)
    requires Aligned(st.winners, slots) && k < |slots| && k < |shuffled|
    ensures EntryAt(Commit(st, Allocate(slots, shuffled)).winners, slots[k].prize.id, slots[k].index) == shuffled[k]
  {
    var alloc := Allocate(slots, shuffled);
    var id := slots[k].prize.id;
    var c := multiset(SlotIds(slots)[..k])[id];
    AlignedAt(st.winners, slots, k);
    AllocateIds(slots, shuffled);
    AllocateAt(slots, shuffled, k);
    assert multiset(AllocIds(alloc)[..k])[id] == c;
    CommitLands(st, alloc, k);
  }

  /** The allocation list follows the slots' prize ids. */
  lemma AllocateIds(slots: seq<Box>, shuffled: seq<Entry>)
    ensures AllocIds(Allocate(slots, shuffled)) == SlotIds(slots)
  {
  }

  lemma AllocateAt(slots: seq<Box>, shuffled: seq<Entry>, k: nat)
    requires k < |slots| && k < |shuffled|
    ensures Allocate(slots, shuffled)[k] == Allocation(slots[k].prize.id, shuffled[k])
  {
  }

  /** A prize's list is filled from the front: every entry up to the prize's
      quantity is truthy. A draw of truthy names keeps this true
      (`DrawKeepsPrefixFilled`). */
  predicate PrefixFilled(w: Winners, p: PrizeItem)
  {
    forall i :: 0 <= i < |ListOf(w, p.id)| && i < Copies(p) ==> Truthy(ListOf(w, p.id)[i])
  }

  /** The number of boxes of `p` already filled. */
  function FilledCopies(w: Winners, p: PrizeItem): (m: nat)
    ensures m <= Copies(p) && m <= |ListOf(w, p.id)|
  {
    var n := |ListOf(w, p.id)|;
    if n < Copies(p) then n else Copies(p)
  }

  /** For a front-filled prize the open boxes are its trailing boxes. */
  lemma PrizeSlotsSuffix(w: Winners, p: PrizeItem)
    requires PrefixFilled(w, p)
    ensures SlotsToFill(w, PrizeBoxes(p)) == PrizeBoxes(p)[FilledCopies(w, p)..]
  {
    FilterSuffix((b: Box) => !Filled(w, b), PrizeBoxes(p), FilledCopies(w, p));
  }

  lemma PrizeSlotsAligned(w: Winners, p: PrizeItem)
    requires PrefixFilled(w, p)
    ensures Aligned(w, SlotsToFill(w, PrizeBoxes(p)))
  {
    PrizeSlotsSuffix(w, p);
    var slots := PrizeBoxes(p)[FilledCopies(w, p)..];
    forall j | 0 <= j < |slots|
      ensures AlignedSlot(w, slots, j)
    {
      TrailingSlot(w, p, slots, j);
    }
  }

  lemma TrailingSlot(w: Winners, p: PrizeItem, slots: seq<Box>, j: nat)
    requires slots == PrizeBoxes(p)[FilledCopies(w, p)..] && j < |slots|
    ensures slots[j].index == |ListOf(w, slots[j].prize.id)| + multiset(SlotIds(slots)[..j])[slots[j].prize.id]
  {
    var m := FilledCopies(w, p);
    assert slots[j] == PrizeBoxes(p)[m + j];
    assert m == |ListOf(w, p.id)|;
    ConstantCount(SlotIds(slots)[..j], p.id);
  }

  /** Two aligned stretches of slots for different prizes stay aligned when
      joined. */
  lemma AlignedConcat(w: Winners, a: seq<Box>, b: seq<Box>)
    requires Aligned(w, a) && Aligned(w, b)
    requires forall i, j :: 0 <= i < |a| && 0 <= j < |b| ==> a[i].prize.id != b[j].prize.id
    ensures Aligned(w, a + b)
  {
    var s := a + b;
    forall j | 0 <= j < |s|
      ensures AlignedSlot(w, s, j)
    {
      if j < |a| {
        AlignedAt(w, a, j);
        FirstStretchAligned(w, a, b, j);
      } else {
        var k := j - |a|;
        AlignedAt(w, b, k);
        assert forall i :: 0 <= i < |a| ==> a[i].prize.id != b[k].prize.id;
        SecondStretchAligned(w, a, b, k);
      }
    }
  }

  lemma AlignedAt(w: Winners, slots: seq<Box>, j: nat)
    requires Aligned(w, slots) && j < |slots|
    ensures AlignedSlot(w, slots, j)
  {
  }

  lemma FirstStretchAligned(w: Winners, a: seq<Box>, b: seq<Box>, j: nat)
    requires j < |a| && AlignedSlot(w, a, j)
    ensures AlignedSlot(w, a + b, j)
  {
    assert (a + b)[j] == a[j];
    assert SlotIds(a + b)[..j] == SlotIds(a)[..j];
  }

  /** Slots of the second stretch count no slot of the first before them. */
  lemma SecondStretchAligned(w: Winners, a: seq<Box>, b: seq<Box>, j: nat)
    requires j < |b| && AlignedSlot(w, b, j)
    requires forall i :: 0 <= i < |a| ==> a[i].prize.id != b[j].prize.id
    ensures AlignedSlot(w, a + b, |a| + j)
  {
    var id := b[j].prize.id;
    assert (a + b)[|a| + j] == b[j];
    assert SlotIds(a + b)[..|a| + j] == SlotIds(a) + SlotIds(b)[..j];
    assert id !in SlotIds(a);
  }

  /** With unique prize ids and every prize filled from the front, the open
      boxes of a prize list are aligned. */
  lemma {:induction false} BoxesAligned(w: Winners, prizes: seq<PrizeItem>)
    requires forall k :: 0 <= k < |prizes| ==> PrefixFilled(w, prizes[k])
    requires Distinct(PrizeIds(prizes))
    ensures Aligned(w, SlotsToFill(w, BoxesOf(prizes)))
    decreases |prizes|
  {
    if prizes != [] {
      var rest := prizes[1..];
      assert PrizeIds(rest) == PrizeIds(prizes)[1..];
      BoxesAligned(w, rest);
      PrizeSlotsAligned(w, prizes[0]);
      var a := SlotsToFill(w, PrizeBoxes(prizes[0]));
      var b := SlotsToFill(w, BoxesOf(rest));
      SlotsToFillConcat(w, PrizeBoxes(prizes[0]), BoxesOf(rest));
      forall i, j | 0 <= i < |a| && 0 <= j < |b|
        ensures a[i].prize.id != b[j].prize.id
      {
        OtherPrizeSlot(w, prizes, a[i], b[j]);
      }
      AlignedConcat(w, a, b);
    }
  }

  lemma SlotsToFillConcat(w: Winners, a: seq<Box>, b: seq<Box>)
    ensures SlotsToFill(w, a + b) == SlotsToFill(w, a) + SlotsToFill(w, b)
  {
    FilterConcat((x: Box) => !Filled(w, x), a, b);
  }

  lemma OtherPrizeSlot(w: Winners, prizes: seq<PrizeItem>, x: Box, y: Box)
    requires prizes != [] && Distinct(PrizeIds(prizes))
    requires x in SlotsToFill(w, PrizeBoxes(prizes[0])) && y in SlotsToFill(w, BoxesOf(prizes[1..]))
    ensures x.prize.id != y.prize.id
  {
    var rest := prizes[1..];
    assert x in PrizeBoxes(prizes[0]);
    assert y in BoxesOf(rest);
    var q :| 0 <= q < |rest| && rest[q] == y.prize;
    assert PrizeIds(prizes)[q + 1] == y.prize.id;
    assert PrizeIds(prizes)[0] == x.prize.id;
  }

  /** The batch draw puts the `k`-th shuffled candidate into the `k`-th open
      box, for a session whose prize ids are unique and whose prizes are
      filled from the front. */
  lemma StartDrawFillsOpenBoxes(st: AppState, session: SessionData, shuffled: seq<Entry>)
    requires CheckDraw(false, st, DisplayBoxes(session)).Ready?
    requires forall j :: 0 <= j < |session.prizes| ==> PrefixFilled(st.winners, session.prizes[j])
    requires Distinct(PrizeIds(session.prizes))
    requires PermutationOf(shuffled, AvailableCandidates(st.participants, st.winners))
    ensures var slots := SlotsToFill(st.winners, DisplayBoxes(session));
      var r := StartDraw(false, st, DisplayBoxes(session), shuffled);
      |slots| <= |shuffled|
      && forall k :: 0 <= k < |slots| ==>
           shuffled[k].Some? && EntryAt(r.winners, slots[k].prize.id, slots[k].index) == shuffled[k]
  {
    var slots := SlotsToFill(st.winners, DisplayBoxes(session));
    assert |Values(shuffled)| == |AvailableCandidates(st.participants, st.winners)|;
    BoxesAligned(st.winners, session.prizes);
    forall k | 0 <= k < |slots|
      ensures EntryAt(StartDraw(false, st, DisplayBoxes(session), shuffled).winners, slots[k].prize.id, slots[k].index) == shuffled[k]
    {
      AlignedDrawLands(st, slots, shuffled, k);
    }
  }

  /** A draw whose shuffled names are all truthy keeps every prize of the
      session filled from the front: the boxes filled before keep their
      entries, and each open box receives a truthy name. */
  lemma DrawKeepsPrefixFilled(st: AppState, session: SessionData, shuffled: seq<Entry>)
    requires CheckDraw(false, st, DisplayBoxes(session)).Ready?
    requires forall j :: 0 <= j < |session.prizes| ==> PrefixFilled(st.winners, session.prizes[j])
    requires Distinct(PrizeIds(session.prizes))
    requires PermutationOf(shuffled, AvailableCandidates(st.participants, st.winners))
    requires forall k :: 0 <= k < |shuffled| ==> Truthy(shuffled[k])
    ensures var r := StartDraw(false, st, DisplayBoxes(session), shuffled);
      forall j :: 0 <= j < |session.prizes| ==> PrefixFilled(r.winners, session.prizes[j])
  {
    var boxes := DisplayBoxes(session);
    var r := StartDraw(false, st, boxes, shuffled);
    StartDrawFillsOpenBoxes(st, session, shuffled);
    forall j | 0 <= j < |session.prizes|
      ensures PrefixFilled(r.winners, session.prizes[j])
    {
      var p := session.prizes[j];
      forall i | 0 <= i < |ListOf(r.winners, p.id)| && i < Copies(p)
        ensures Truthy(ListOf(r.winners, p.id)[i])
      {
        BoxesOfCover(session.prizes, j, i);
        DrawnBoxTruthy(st, boxes, shuffled, Box(p, i, BoxKey(p.id, i)));
      }
    }
  }

  /** When every slot received its shuffled name and those names are truthy,
      every box shows a truthy entry after the draw. */
  lemma DrawnBoxTruthy(st: AppState, boxes: seq<Box>, shuffled: seq<Entry>, b: Box)
    requires CheckDraw(false, st, boxes).Ready? && b in boxes
    requires var slots := SlotsToFill(st.winners, boxes);
      |slots| <= |shuffled|
      && forall k :: 0 <= k < |slots| ==>
           EntryAt(StartDraw(false, st, boxes, shuffled).winners, slots[k].prize.id, slots[k].index) == shuffled[k]
    requires forall k :: 0 <= k < |shuffled| ==> Truthy(shuffled[k])
    ensures Truthy(EntryAt(StartDraw(false, st, boxes, shuffled).winners, b.prize.id, b.index))
  {
    var slots := SlotsToFill(st.winners, boxes);
    if Filled(st.winners, b) {
      CommitKeepsEntry(st, Allocate(slots, shuffled), b);
    } else {
      var k := OpenSlotIndex(st.winners, boxes, b);
    }
  }

  /** After such a draw every box of the session has an entry: the session is
      complete. */
  lemma DrawCompletesSession(st: AppState, session: SessionData, shuffled: seq<Entry>)
    requires CheckDraw(false, st, DisplayBoxes(session)).Ready?
    requires forall j :: 0 <= j < |session.prizes| ==> PrefixFilled(st.winners, session.prizes[j])
    requires Distinct(PrizeIds(session.prizes))
    requires PermutationOf(shuffled, AvailableCandidates(st.participants, st.winners))
    ensures IsSessionComplete(StartDraw(false, st, DisplayBoxes(session), shuffled).winners, DisplayBoxes(session))
  {
    var boxes := DisplayBoxes(session);
    var slots := SlotsToFill(st.winners, boxes);
    var alloc := Allocate(slots, shuffled);
    var r := StartDraw(false, st, boxes, shuffled);
    StartDrawFillsOpenBoxes(st, session, shuffled);
    forall j | 0 <= j < |boxes|
      ensures Defined(r.winners, boxes[j])
    {
      var b := boxes[j];
      if Filled(st.winners, b) {
        CommitKeepsEntry(st, alloc, b);
      } else {
        var k := OpenSlotIndex(st.winners, boxes, b);
        assert EntryAt(r.winners, slots[k].prize.id, slots[k].index) == shuffled[k];
      }
    }
    assert slots[0] in boxes;
    SessionCompleteIff(r.winners, boxes);
  }

  /** A commit leaves every existing entry where it was. */
  lemma CommitKeepsEntry(st: AppState, alloc: seq<Allocation>, b: Box)
    requires Defined(st.winners, b)
    ensures EntryAt(Commit(st, alloc).winners, b.prize.id, b.index) == EntryAt(st.winners, b.prize.id, b.index)
  {
    CommitLists(st, alloc, b.prize.id);
    var l := ListOf(Commit(st, alloc).winners, b.prize.id);
    assert l[b.index] == ListOf(st.winners, b.prize.id)[b.index];
  }

  /** An open box is one of the slots to fill. */
  lemma OpenSlotIndex(w: Winners, boxes: seq<Box>, b: Box) returns (k: nat)
    requires b in boxes && !Filled(w, b)
    ensures k < |SlotsToFill(w, boxes)| && SlotsToFill(w, boxes)[k] == b
  {
    var slots := SlotsToFill(w, boxes);
    assert b in slots;
    k :| 0 <= k < |slots| && slots[k] == b;
  }

  // ------------------------------------------------------ fresh names

  /** With a roster free of repeats, the shuffled candidates are distinct
      roster names nobody has won. */
  lemma DrawnNamesFresh(st: AppState, shuffled: seq<Entry>)
    requires Distinct(st.participants)
    requires PermutationOf(shuffled, AvailableCandidates(st.participants, st.winners))
    ensures Distinct(Values(shuffled))
    ensures forall k :: 0 <= k < |shuffled| ==>
      shuffled[k].Some? && shuffled[k].value in st.participants && !IsWinner(st.winners, shuffled[k].value)
  {
    var cands := AvailableCandidates(st.participants, st.winners);
    forall x
      ensures multiset(cands)[x] <= 1
    {
      DistinctMultiplicity(st.participants, x);
    }
    MultiplicityDistinct(cands);
    PermutationKeepsDistinct(cands, Values(shuffled));
    forall k | 0 <= k < |shuffled|
      ensures shuffled[k].value in cands
    {
      assert Values(shuffled)[k] in multiset(Values(shuffled));
    }
  }

  /** After a commit the winners are the old winners and the names handed out. */
  lemma {:induction false} CommitWinners(st: AppState, alloc: seq<Allocation>, x: string)
    ensures IsWinner(Commit(st, alloc).winners, x)
      <==> IsWinner(st.winners, x) || exists k :: 0 <= k < |alloc| && alloc[k].name == Some(x)
    decreases |alloc|
  {
    if alloc != [] {
      var init := alloc[..|alloc| - 1];
      var last := alloc[|alloc| - 1];
      CommitWinners(st, init, x);
      AddWinnerWinners(Commit(st, init), last.prizeId, last.name, x);
      if exists k :: 0 <= k < |alloc| && alloc[k].name == Some(x) {
        var k :| 0 <= k < |alloc| && alloc[k].name == Some(x);
        if k < |init| {
          assert init[k].name == Some(x);
        }
      }
      if exists k :: 0 <= k < |init| && init[k].name == Some(x) {
        var k :| 0 <= k < |init| && init[k].name == Some(x);
        assert alloc[k].name == Some(x);
      }
    }
  }

  /** Handing out pairwise different names nobody has won keeps every name
      recorded at most once. */
  lemma {:induction false} CommitKeepsNoDoubleWins(st: AppState, alloc: seq<Allocation>)
    requires NoDoubleWins(st.winners)
    requires forall k :: 0 <= k < |alloc| && alloc[k].name.Some? ==> !IsWinner(st.winners, alloc[k].name.value)
    requires forall i, j :: 0 <= i < j < |alloc| && alloc[i].name.Some? ==> alloc[i].name != alloc[j].name
    ensures NoDoubleWins(Commit(st, alloc).winners)
    decreases |alloc|
  {
    if alloc != [] {
      var init := alloc[..|alloc| - 1];
      var last := alloc[|alloc| - 1];
      CommitKeepsNoDoubleWins(st, init);
      var prev := Commit(st, init);
      if last.name.Some? {
        CommitWinners(st, init, last.name.value);
        forall k | 0 <= k < |init|
          ensures init[k].name != Some(last.name.value)
        {
          assert alloc[k] == init[k];
        }
      }
      AddWinnerKeepsNoDoubleWins(prev, last.prizeId, last.name);
    }
  }

  /** With a roster free of repeats and a shuffle that is a permutation of the
      candidates, a draw records no name twice. */
  lemma StartDrawKeepsNoDoubleWins(playing: bool, st: AppState, boxes: seq<Box>, shuffled: seq<Entry>)
    requires NoDoubleWins(st.winners) && Distinct(st.participants)
    requires CheckDraw(playing, st, boxes).Ready? ==> PermutationOf(shuffled, AvailableCandidates(st.participants, st.winners))
    ensures NoDoubleWins(StartDraw(playing, st, boxes, shuffled).winners)
  {
    if CheckDraw(playing, st, boxes).Ready? {
      var slots := SlotsToFill(st.winners, boxes);
      var alloc := Allocate(slots, shuffled);
      DrawnNamesFresh(st, shuffled);
      assert |Values(shuffled)| == |AvailableCandidates(st.participants, st.winners)|;
      forall i, j | 0 <= i < j < |alloc| && alloc[i].name.Some?
        ensures alloc[i].name != alloc[j].name
      {
        assert Values(shuffled)[i] != Values(shuffled)[j];
      }
      CommitKeepsNoDoubleWins(st, alloc);
    }
  }

  /** After a draw the candidates are the old candidates less exactly the
      names placed into the open boxes. */
  lemma DrawShrinksPool(playing: bool, st: AppState, boxes: seq<Box>, shuffled: seq<Entry>, p: string)
    requires CheckDraw(playing, st, boxes).Ready?
    ensures var r := StartDraw(playing, st, boxes, shuffled);
      var n := |SlotsToFill(st.winners, boxes)|;
      (p in AvailableCandidates(r.participants, r.winners)
       <==> p in AvailableCandidates(st.participants, st.winners)
            && forall k :: 0 <= k < n && k < |shuffled| ==> shuffled[k] != Some(p))
  {
    var slots := SlotsToFill(st.winners, boxes);
    var alloc := Allocate(slots, shuffled);
    CommitWinners(st, alloc, p);
    if exists k :: 0 <= k < |alloc| && alloc[k].name == Some(p) {
      var k :| 0 <= k < |alloc| && alloc[k].name == Some(p);
      assert k < |shuffled| && shuffled[k] == Some(p);
    }
  }

  // -------------------------------------------------------- reshuffle

  /** Reshuffling a box writes the first shuffled candidate into it: a roster
      name nobody has won, so not the name it replaces; when every name was
      recorded at most once, that still holds. */
  lemma ReshuffleFresh(st: AppState, b: Box, shuffled: seq<Entry>)
    requires AvailableCandidates(st.participants, st.winners) != []
    requires PermutationOf(shuffled, AvailableCandidates(st.participants, st.winners))
    ensures shuffled != [] && shuffled[0].Some?
    ensures var n := shuffled[0].value;
      var r := ConfirmReshuffle(st, Some(b), shuffled);
      EntryAt(r.winners, b.prize.id, b.index) == Some(n)
      && n in st.participants && !IsWinner(st.winners, n)
      && EntryAt(st.winners, b.prize.id, b.index) != Some(n)
      && (NoDoubleWins(st.winners) ==> NoDoubleWins(r.winners))
  {
    var cands := AvailableCandidates(st.participants, st.winners);
    assert |Values(shuffled)| == |cands|;
    var n := shuffled[0].value;
    assert Values(shuffled)[0] in multiset(Values(shuffled));
    assert n in cands;
    var l := ListOf(st.winners, b.prize.id);
    assert b.index < |l| ==> b.prize.id in st.winners && l[b.index] in st.winners[b.prize.id];
    if NoDoubleWins(st.winners) {
      UpdateWinnerKeepsNoDoubleWins(st, b.prize.id, b.index, shuffled[0]);
    }
  }

  /** Reshuffling a box that has an entry leaves every box's defined-ness
      alone, so the session's winner count stays the same. */
  lemma ReshuffleKeepsCount(st: AppState, b: Box, shuffled: seq<Entry>, boxes: seq<Box>)
    requires Defined(st.winners, b)
    requires AvailableCandidates(st.participants, st.winners) != [] ==>
      PermutationOf(shuffled, AvailableCandidates(st.participants, st.winners))
    ensures var r := ConfirmReshuffle(st, Some(b), shuffled);
      (forall c :: Defined(r.winners, c) <==> Defined(st.winners, c))
      && SessionWinnersCount(r.winners, boxes) == SessionWinnersCount(st.winners, boxes)
  {
    var r := ConfirmReshuffle(st, Some(b), shuffled);
    if AvailableCandidates(st.participants, st.winners) != [] {
      ReshuffleFresh(st, b, shuffled);
      forall c
        ensures Defined(r.winners, c) <==> Defined(st.winners, c)
      {
        if c.prize.id == b.prize.id && c.index < |ListOf(r.winners, c.prize.id)| && c.index != b.index {
          assert c.index < |ListOf(st.winners, c.prize.id)|;
        }
      }
    }
    FilterAgree((x: Box) => Defined(r.winners, x), (x: Box) => Defined(st.winners, x), boxes);
  }

  /** The name a reshuffle replaces becomes a candidate again, when every name
      was recorded at most once. */
  lemma ReshuffleReleasesReplaced(st: AppState, b: Box, shuffled: seq<Entry>, x: string)
    requires NoDoubleWins(st.winners)
    requires EntryAt(st.winners, b.prize.id, b.index) == Some(x) && x in st.participants
    requires AvailableCandidates(st.participants, st.winners) != []
    requires PermutationOf(shuffled, AvailableCandidates(st.participants, st.winners))
    ensures x in AvailableCandidates(ConfirmReshuffle(st, Some(b), shuffled).participants,
                                     ConfirmReshuffle(st, Some(b), shuffled).winners)
  {
    ReshuffleFresh(st, b, shuffled);
    var w: Winners := st.winners;
    var r := ConfirmReshuffle(st, Some(b), shuffled);
    var w': Winners := r.winners;
    var pid := b.prize.id;
    var n := shuffled[0].value;
    assert pid in w && Some(x) in w[pid];
    forall id, a | id in w' && 0 <= a < |w'[id]|
      ensures w'[id][a] != Some(x)
    {
      assert w'[id] == ListOf(w', id);
      if id == pid && a == b.index {
        assert w'[id][a] == Some(n);
      } else if id == pid {
        if a < |ListOf(w, pid)| {
          assert w'[id][a] == w[pid][a];
          assert w[pid][b.index] != w[pid][a];
        }
      } else {
        assert ListOf(w', id) == ListOf(w, id);
        assert id in w && w'[id][a] == w[id][a];
        assert w[pid][b.index] != w[id][a];
      }
    }
  }

  // -------------------------------------------------- gaps, exhibited

  /** A name listed twice on the roster can win twice in one draw. */
  lemma DuplicateRosterDoubleWin()
    ensures var st := Initial().(participants := ["Ana", "Ana"]);
      var session := SessionData("s", "S", false, [PrizeItem("p", "S", "Lamp", 2)]);
      var shuffled := [Some("Ana"), Some("Ana")];
      PermutationOf(shuffled, AvailableCandidates(st.participants, st.winners))
      && CheckDraw(false, st, DisplayBoxes(session)).Ready?
      && !NoDoubleWins(StartDraw(false, st, DisplayBoxes(session), shuffled).winners)
  {
    var st := Initial().(participants := ["Ana", "Ana"]);
    var session := SessionData("s", "S", false, [PrizeItem("p", "S", "Lamp", 2)]);
    RepeatedNameWinsTwice(st, session, "Ana");
  }

  /** The general form: one prize line of two boxes, no winners yet, and a
      roster holding one name twice. */
  lemma RepeatedNameWinsTwice(st: AppState, session: SessionData, name: string)
    requires st.winners == map[] && st.participants == [name, name]
    requires |session.prizes| == 1 && session.prizes[0].quantity == 2
    ensures var shuffled := [Some(name), Some(name)];
      PermutationOf(shuffled, AvailableCandidates(st.participants, st.winners))
      && CheckDraw(false, st, DisplayBoxes(session)).Ready?
      && !NoDoubleWins(StartDraw(false, st, DisplayBoxes(session), shuffled).winners)
  {
    var shuffled: seq<Entry> := [Some(name), Some(name)];
    var boxes := DisplayBoxes(session);
    SingleLineBoxes(session);
    NothingFilledYet(boxes);
    NobodyWonYet(st.participants);
    assert Values(shuffled) == [name, name];
    var a := Allocation(session.prizes[0].id, Some(name));
    assert Allocate(boxes, shuffled) == [a, a];
    CommitTwice(st, a);
  }

  /** The boxes of a one-line session are that line's boxes. */
  lemma SingleLineBoxes(session: SessionData)
    requires |session.prizes| == 1
    ensures DisplayBoxes(session) == PrizeBoxes(session.prizes[0])
  {
    var ps := session.prizes;
    assert ps[1..] == [];
    assert BoxesOf(ps) == PrizeBoxes(ps[0]) + BoxesOf([]);
  }

  /** Committing one pair twice lists its name twice. */
  lemma CommitTwice(st: AppState, a: Allocation)
    requires a.name.Some? && st.winners == map[]
    ensures var w := Commit(st, [a, a]).winners;
      a.prizeId in w && |w[a.prizeId]| == 2 && w[a.prizeId][0] == w[a.prizeId][1] == a.name
      && !NoDoubleWins(w)
  {
    var id := a.prizeId;
    assert [a, a][..1] == [a] && [a][..0] == [];
    assert NamesFor([a], id) == [a.name];
    assert NamesFor([a, a], id) == [a.name, a.name];
    CommitLists(st, [a, a], id);
    var w := Commit(st, [a, a]).winners;
    assert ListOf(w, id) == [a.name, a.name];
    RepeatBreaksNoDoubleWins(w, id);
  }

  /** A list holding one name in two places breaks the invariant. */
  lemma RepeatBreaksNoDoubleWins(w: Winners, id: string)
    requires id in w && |w[id]| >= 2 && w[id][0] == w[id][1] && w[id][0].Some?
    ensures !NoDoubleWins(w)
  {
  }

  /** An empty name counts towards completeness but not as filled: such a
      session reads complete while the draw still sees an open box. */
  lemma EmptyNameCompleteYetOpen()
    ensures var w: Winners := map["p" := [Some("")]];
      var boxes := PrizeBoxes(PrizeItem("p", "S", "Lamp", 1));
      IsSessionComplete(w, boxes) && SlotsToFill(w, boxes) == boxes && !TabShowsDone(w, boxes)
  {
    var w: Winners := map["p" := [Some("")]];
    var boxes := PrizeBoxes(PrizeItem("p", "S", "Lamp", 1));
    SessionCompleteIff(w, boxes);
    FilterAll((b: Box) => !Filled(w, b), boxes);
  }

  /** A hole before a prize's open boxes misroutes the draw, because the draw
      appends: with an empty name in the first box of a two-box line, the
      first shuffled name lands in the second box, the second one past the
      last box, and the first box keeps its empty name. */
  lemma HoleMisroutesDraw()
    ensures var st := Initial().(participants := ["Ana", "Budi"], winners := map["p" := [Some("")]]);
      var session := SessionData("s", "S", false, [PrizeItem("p", "S", "Lamp", 2)]);
      var shuffled := [Some("Ana"), Some("Budi")];
      var r := StartDraw(false, st, DisplayBoxes(session), shuffled);
      PermutationOf(shuffled, AvailableCandidates(st.participants, st.winners))
      && CheckDraw(false, st, DisplayBoxes(session)).Ready?
      && SlotsToFill(st.winners, DisplayBoxes(session)) == DisplayBoxes(session)
      && ListOf(r.winners, "p") == [Some(""), Some("Ana"), Some("Budi")]
      && EntryAt(r.winners, "p", 0) == Some("")
  {
    var w: Winners := map["p" := [Some("")]];
    var st := Initial().(participants := ["Ana", "Budi"], winners := w);
    var session := SessionData("s", "S", false, [PrizeItem("p", "S", "Lamp", 2)]);
    var shuffled: seq<Entry> := [Some("Ana"), Some("Budi")];
    var boxes := DisplayBoxes(session);
    SingleLineBoxes(session);
    HoleOpensBothBoxes(w, session.prizes[0]);
    HoleKeepsCandidates(w, st.participants);
    assert Values(shuffled) == ["Ana", "Budi"];
    assert CheckDraw(false, st, boxes).Ready?;
    HoleCommit(st, boxes, shuffled);
    assert StartDraw(false, st, boxes, shuffled) == Commit(st, Allocate(boxes, shuffled));
  }

  lemma HoleOpensBothBoxes(w: Winners, p: PrizeItem)
    requires w == map[p.id := [Some("")]] && p.quantity == 2
    ensures SlotsToFill(w, PrizeBoxes(p)) == PrizeBoxes(p)
  {
    FilterAll((b: Box) => !Filled(w, b), PrizeBoxes(p));
  }

  lemma HoleKeepsCandidates(w: Winners, names: seq<string>)
    requires w == map["p" := [Some("")]] && forall k :: 0 <= k < |names| ==> names[k] != ""
    ensures AvailableCandidates(names, w) == names
  {
    forall k | 0 <= k < |names|
      ensures !IsWinner(w, names[k])
    {
      assert Some(names[k]) != Some("");
    }
    FilterAll((x: string) => !IsWinner(w, x), names);
  }

  lemma HoleCommit(st: AppState, boxes: seq<Box>, shuffled: seq<Entry>)
    requires st.winners == map["p" := [Some("")]] && shuffled == [Some("Ana"), Some("Budi")]
    requires |boxes| == 2 && boxes[0].prize.id == "p" && boxes[1].prize.id == "p"
    ensures ListOf(Commit(st, Allocate(boxes, shuffled)).winners, "p") == [Some(""), Some("Ana"), Some("Budi")]
  {
    var alloc := [Allocation("p", Some("Ana")), Allocation("p", Some("Budi"))];
    assert Allocate(boxes, shuffled) == alloc;
    assert alloc[..1] == [alloc[0]] && [alloc[0]][..0] == [];
    assert NamesFor(alloc, "p") == [Some("Ana"), Some("Budi")];
    CommitLists(st, alloc, "p");
  }

}

=== FILE: draw_race.dfy ===
/** Two clicks on the start button, the second arriving while the first is
    still waiting for the shuffle. The handler raises its busy flag only after
    the wait, so the second click passes the same checks against the same
    render and commits a second allocation to the same open boxes. */
module DrawRace {
  import opened Options
  import opened Seqs
  import opened Prizes
  import opened Ledger
  import opened Draw
  import opened DrawProofs

  /** As written: both handlers see the state before either commits (busy
      flag down, same open boxes, same candidates), then both append their
      allocations to the store, one after the other. */
  function TwoClicksAsWritten(st: AppState, boxes: seq<Box>, first: seq<Entry>, second: seq<Entry>): (r: AppState)
    ensures !CheckDraw(false, st, boxes).Ready? ==> r == st
  {
    match CheckDraw(false, st, boxes)
    case Ready(slots, _) => Commit(Commit(st, Allocate(slots, first)), Allocate(slots, second))
    case _ => st
  }

  /** As written, every open box's prize receives two entries per open box. */
  lemma AsWrittenAppendsTwice(st: AppState, boxes: seq<Box>, first: seq<Entry>, second: seq<Entry>, id: string)
    requires CheckDraw(false, st, boxes).Ready?
    ensures var slots := SlotsToFill(st.winners, boxes);
      |ListOf(TwoClicksAsWritten(st, boxes, first, second).winners, id)|
        == |ListOf(st.winners, id)| + 2 * multiset(SlotIds(slots))[id]
  {
    var slots := SlotsToFill(st.winners, boxes);
    var mid := Commit(st, Allocate(slots, first));
    CommitGrowth(st, slots, first, id);
    CommitGrowth(mid, slots, second, id);
  }

  /** Input that shows it: one single-box prize, two roster names, both
      shuffles putting Ana first. The box's list ends with Ana twice, beyond
      the prize's quantity. */
  lemma AsWrittenDoubleWin()
    ensures var st := Initial().(participants := ["Ana", "Budi"]);
      var boxes := PrizeBoxes(PrizeItem("p", "S", "Lamp", 1));
      var shuffled := [Some("Ana"), Some("Budi")];
      var r := TwoClicksAsWritten(st, boxes, shuffled, shuffled);
      CheckDraw(false, st, boxes).Ready?
      && PermutationOf(shuffled, AvailableCandidates(st.participants, st.winners))
      && ListOf(r.winners, "p") == [Some("Ana"), Some("Ana")]
      && !NoDoubleWins(r.winners)
  {
    var st := Initial().(participants := ["Ana", "Budi"]);
    var boxes := PrizeBoxes(PrizeItem("p", "S", "Lamp", 1));
    var shuffled: seq<Entry> := [Some("Ana"), Some("Budi")];
    FilterAll((b: Box) => !Filled(st.winners, b), boxes);
    FilterAll((x: string) => !IsWinner(st.winners, x), st.participants);
    assert Values(shuffled) == ["Ana", "Budi"];
    var slots := SlotsToFill(st.winners, boxes);
    var a := Allocate(slots, shuffled);
    assert a == [Allocation("p", Some("Ana"))];
    var mid := Commit(st, a);
    CommitLists(st, a, "p");
    CommitLists(mid, a, "p");
    assert a[..0] == [];
    var w': Winners := TwoClicksAsWritten(st, boxes, shuffled, shuffled).winners;
    assert ListOf(w', "p") == [Some("Ana"), Some("Ana")];
    assert w'["p"][0] == w'["p"][1];
  }

  /** Corrected: the busy flag goes up as soon as the checks pass, before the
      handler waits, so the second click returns at its first check. */
  function TwoClicksGuarded(st: AppState, boxes: seq<Box>, first: seq<Entry>, second: seq<Entry>): (r: AppState)
  {
    var busy := CheckDraw(false, st, boxes).Ready?;
    StartDraw(busy, StartDraw(false, st, boxes, first), boxes, second)
  }

  /** With the guard, two clicks act as one: each prize receives exactly one
      entry per open box, and with a repeat-free roster and a permuting
      shuffle no name is recorded twice. */
  lemma GuardedDrawsOnce(st: AppState, boxes: seq<Box>, first: seq<Entry>, second: seq<Entry>, id: string)
    requires NoDoubleWins(st.winners) && Distinct(st.participants)
    requires CheckDraw(false, st, boxes).Ready? ==>
      PermutationOf(first, AvailableCandidates(st.participants, st.winners))
    ensures var r := TwoClicksGuarded(st, boxes, first, second);
      r == StartDraw(false, st, boxes, first)
      && NoDoubleWins(r.winners)
      && |ListOf(r.winners, id)| == |ListOf(st.winners, id)|
           + (if CheckDraw(false, st, boxes).Ready? then multiset(SlotIds(SlotsToFill(st.winners, boxes)))[id] else 0)
  {
    StartDrawKeepsNoDoubleWins(false, st, boxes, first);
    if CheckDraw(false, st, boxes).Ready? {
      CommitGrowth(st, SlotsToFill(st.winners, boxes), first, id);
    }
  }
}

=== FILE: draw_timing.dfy ===
/** When the boxes of a draw stop rolling. The screen computes a base duration
    so that the box with the largest slot index stops when the 9-second draw
    sound ends, but staggers each box by its position on the screen; in a
    session with several prize lines the later boxes are scheduled to stop
    well after that, some after the 14-second reset that ends the animation. */
module DrawTiming {
  import opened Options
  import opened Seqs
  import opened Prizes
  import opened Ledger
  import opened Draw
  import opened PrizeBox

  /** The draw sound's length, when the reveal is meant to finish. */
  const ShuffleDuration: int := 9000
  /** When the animation is switched off and rolling boxes stop being rolled. */
  const TotalDuration: int := 14000

  /** When a box stops, given the base duration (`None` is `NaN`) and the
      number of stagger steps it is delayed by. */
  function StopWith(base: Option<int>, delay: nat): Option<int>
  {
    match base
    case None => None
    case Some(d) => Some(StopTime(Some(d), Some(delay)))
  }

  /** As written: the box at screen position `idx` is delayed by `idx` steps,
      while the base duration was computed from the slot indices in the
      drawing keys. */
  function StopAsWritten(drawingKeys: seq<string>, idx: nat): Option<int>
  {
    StopWith(BaseDuration(drawingKeys), idx)
  }

  /** Corrected: the box is delayed by its slot index, the quantity the base
      duration is computed from. */
  function StopCorrected(drawingKeys: seq<string>, b: Box): Option<int>
  {
    StopWith(BaseDuration(drawingKeys), b.index)
  }

  /** With the correction, drawing boxes whose slot indices stay below 12 all
      stop by the end of the draw sound, and the last of them exactly then. */
  lemma CorrectedStopsAtShuffleEnd(slots: seq<Box>)
    requires forall k :: 0 <= k < |slots| ==> slots[k].key == BoxKey(slots[k].prize.id, slots[k].index)
    requires forall k :: 0 <= k < |slots| ==> slots[k].index < 12
    ensures forall k :: 0 <= k < |slots| ==>
      StopCorrected(Keys(slots), slots[k]).Some? && StopCorrected(Keys(slots), slots[k]).value <= ShuffleDuration
    ensures slots != [] ==>
      exists k :: 0 <= k < |slots| && StopCorrected(Keys(slots), slots[k]) == Some(ShuffleDuration)
  {
    var keys := Keys(slots);
    BaseAboveFloor(slots);
    BaseDurationOfBoxKeys(slots);
    var d := BaseDuration(keys).value;
    forall k | 0 <= k < |slots|
      ensures StopCorrected(keys, slots[k]).Some? && StopCorrected(keys, slots[k]).value <= ShuffleDuration
    {
      StopCorrectedIs(keys, slots[k], d);
    }
    if slots != [] {
      var k :| 0 <= k < |slots| && d + 500 * slots[k].index == 9000;
      StopCorrectedIs(keys, slots[k], d);
    }
  }

  /** When the box with the largest slot index `m` stops under the
      correction: at the end of the draw sound while `m <= 12`, and later once
      the base sits at its 3000 ms floor. */
  function CorrectedEnd(m: int): int
  {
    if m <= 12 then ShuffleDuration else 3000 + 500 * m
  }

  /** The correction has a limit: no box stops later than the box with the
      largest slot index `m`, which stops at 9000 ms only while `m <= 12` and
      at 3000 + 500 * `m` ms after that. */
  lemma CorrectedLastStop(slots: seq<Box>)
    requires forall k :: 0 <= k < |slots| ==> slots[k].key == BoxKey(slots[k].prize.id, slots[k].index)
    requires slots != []
    ensures forall k :: 0 <= k < |slots| ==>
      StopCorrected(Keys(slots), slots[k]).Some?
      && StopCorrected(Keys(slots), slots[k]).value <= CorrectedEnd(MaxOf(Indices(slots)))
    ensures var last := CorrectedEnd(MaxOf(Indices(slots)));
      exists k :: 0 <= k < |slots| && StopCorrected(Keys(slots), slots[k]).Some? && StopCorrected(Keys(slots), slots[k]).value == last
  {
    var keys := Keys(slots);
    var ix := Indices(slots);
    BoxKeysParse(slots);
    var d := BaseFor(ix);
    var j := BaseForLast(ix);
    StopsUpTo(keys, slots, ix, d, j, CorrectedEnd(MaxOf(ix)));
  }

  lemma StopsUpTo(keys: seq<string>, slots: seq<Box>, ix: seq<int>, d: int, j: nat, e: int)
    requires BaseDuration(keys) == Some(d)
    requires |ix| == |slots| && forall k :: 0 <= k < |slots| ==> ix[k] == slots[k].index
    requires forall k :: 0 <= k < |ix| ==> d + 500 * ix[k] <= e
    requires j < |ix| && d + 500 * ix[j] == e
    ensures forall k :: 0 <= k < |slots| ==> StopCorrected(keys, slots[k]).Some? && StopCorrected(keys, slots[k]).value <= e
    ensures exists k :: 0 <= k < |slots| && StopCorrected(keys, slots[k]).Some? && StopCorrected(keys, slots[k]).value == e
  {
    forall k | 0 <= k < |slots|
      ensures StopCorrected(keys, slots[k]).Some? && StopCorrected(keys, slots[k]).value <= e
    {
      StopCorrectedIs(keys, slots[k], d);
    }
    assert slots[j].index == ix[j];
    StopCorrectedIs(keys, slots[j], d);
  }

  /** The same for the parsed indices themselves; `j` is a position of the
      largest index. */
  lemma BaseForLast(ix: seq<int>) returns (j: nat)
    requires ix != [] && forall k :: 0 <= k < |ix| ==> ix[k] >= 0
    ensures forall k :: 0 <= k < |ix| ==> BaseFor(ix) + 500 * ix[k] <= CorrectedEnd(MaxOf(ix))
    ensures j < |ix| && BaseFor(ix) + 500 * ix[j] == CorrectedEnd(MaxOf(ix))
  {
    j :| 0 <= j < |ix| && ix[j] == MaxOf(ix);
  }

  /** Input that shows the limit: a fresh draw of one prize line of quantity
      14. Its last box has slot index 13, so even with the correction it stops
      at 9500 ms, after the draw sound. */
  lemma CorrectedOverrunsPastTwelve()
    ensures var boxes := PrizeBoxes(PrizeItem("p", "S", "Lamp", 14));
      exists k :: 0 <= k < |boxes| && StopCorrected(Keys(boxes), boxes[k]).Some? && StopCorrected(Keys(boxes), boxes[k]).value == 9500
  {
    var boxes := PrizeBoxes(PrizeItem("p", "S", "Lamp", 14));
    var ix := Indices(boxes);
    assert ix[13] == 13;
    assert MaxOf(ix) == 13;
    CorrectedLastStop(boxes);
    assert CorrectedEnd(13) == 9500;
  }

  /** Slot indices below 12 keep the base above its 3000 ms floor. */
  lemma BaseAboveFloor(slots: seq<Box>)
    requires forall k :: 0 <= k < |slots| ==> slots[k].key == BoxKey(slots[k].prize.id, slots[k].index)
    requires forall k :: 0 <= k < |slots| ==> slots[k].index < 12
    ensures BaseDuration(Keys(slots)).Some? && BaseDuration(Keys(slots)).value > 3000
  {
    BoxKeysParse(slots);
    var ix := Indices(slots);
    if ix != [] {
      var m := MaxOf(ix);
      assert m < 12;
    }
  }

  lemma StopWithBase(d: int, i: nat)
    ensures StopWith(Some(d), i) == Some(d + 500 * i)
  {
  }

  lemma StopCorrectedIs(keys: seq<string>, b: Box, d: int)
    requires BaseDuration(keys) == Some(d)
    ensures StopCorrected(keys, b) == Some(d + 500 * b.index)
  {
    StopWithBase(d, b.index);
  }

  /** Five prize lines of three copies each: what five prize-form entries of
      quantity 3 under one session name build (the sample first session in
      `src/data/prizes.ts` has this shape too). */
  predicate FiveByThree(session: SessionData)
  {
    |session.prizes| == 5 && forall j :: 0 <= j < 5 ==> session.prizes[j].quantity == 3
  }

  /** A list of prize lines that all have quantity `q` holds `q` slots per line. */
  lemma {:induction false} UniformSlots(prizes: seq<PrizeItem>, q: int)
    requires forall j :: 0 <= j < |prizes| ==> prizes[j].quantity == q
    ensures PrizeSlots(prizes) == q * |prizes|
    decreases |prizes|
  {
    if prizes != [] {
      UniformSlots(prizes[1..], q);
    }
  }

  /** Such a session shows 15 boxes with slot indices 0, 1 or 2, and its
      third box has slot index 2. */
  lemma FiveByThreeIndices(session: SessionData, boxes: seq<Box>)
    requires FiveByThree(session) && boxes == DisplayBoxes(session)
    ensures forall k :: 0 <= k < |boxes| ==> boxes[k].index < 3
    ensures |boxes| == 15 && boxes[2].index == 2
  {
    var prizes := session.prizes;
    forall k | 0 <= k < |boxes|
      ensures boxes[k].index < 3
    {
      var j :| 0 <= j < |prizes| && prizes[j] == boxes[k].prize;
    }
    UniformSlots(prizes, 3);
    BoxesOfCount(prizes);
    assert boxes[..3] == PrizeBoxes(prizes[0]);
  }

  /** Boxes with slot indices below 3, one of them 2, get an 8000 ms base. */
  lemma BaseForIndicesUpToTwo(boxes: seq<Box>)
    requires forall k :: 0 <= k < |boxes| ==> boxes[k].key == BoxKey(boxes[k].prize.id, boxes[k].index)
    requires forall k :: 0 <= k < |boxes| ==> boxes[k].index < 3
    requires |boxes| > 2 && boxes[2].index == 2
    ensures BaseDuration(Keys(boxes)) == Some(8000)
  {
    BoxKeysParse(boxes);
    var ix := Indices(boxes);
    var m := MaxOf(ix);
    assert ix[2] == 2;
    assert m == 2;
  }

  /** Input that shows it: a fresh draw of a session of five prize lines of
      quantity 3 (15 boxes, slot indices 0 to 2). The base is 8000 ms, so the
      box at screen position 14 is scheduled to stop at 15000 ms, after the
      14000 ms reset that switches the animation off and cancels its pending
      stop; with the correction every box of this session stops by 9000 ms. */
  lemma StaggerOverrunsAsWritten(session: SessionData)
    requires FiveByThree(session)
    ensures var boxes := DisplayBoxes(session);
      |boxes| == 15 && SlotsToFill(map[], boxes) == boxes
      && BaseDuration(Keys(boxes)) == Some(8000)
      && StopAsWritten(Keys(boxes), 14) == Some(15000) && 15000 > TotalDuration
      && forall k :: 0 <= k < |boxes| ==> StopCorrected(Keys(boxes), boxes[k]).value <= ShuffleDuration
  {
    var boxes := DisplayBoxes(session);
    NothingFilledYet(boxes);
    FiveByThreeIndices(session, boxes);
    BaseForIndicesUpToTwo(boxes);
    CorrectedStopsAtShuffleEnd(boxes);
  }

  /** The sample first session is one such session. */
  lemma SampleSessionIsFiveByThree()
    ensures FiveByThree(PrizeData()[0])
  {
  }
}

=== FILE: fisher_yates.dfy ===
/** The local shuffle (`fisherYatesShuffle`, `src/lib/utils.ts`): a
    Fisher-Yates pass from the last position down, each swap partner drawn by
    rejection sampling over unsigned 32-bit random values. The random source
    is a finite supply of values; when it runs out the shuffle reports `None`
    (`fisherYatesShuffle` keeps asking, and stops with probability one). */
module FisherYates {
  import opened Options
  import opened Seqs

  const TwoTo32: int := 0x1_0000_0000

  /** One value of the `Uint32Array` buffer. */
  newtype u32 = x: int | 0 <= x < 0x1_0000_0000

  lemma SmallMultiple(limit: int, d: int)
    requires limit >= 1 && -limit < limit * d < limit
    ensures d == 0
  {
  }

  /** Adding a multiple of `limit` leaves the remainder unchanged. */
  lemma BlockMod(q: int, limit: int, r: int)
    requires limit >= 1 && 0 <= r < limit
    ensures (q * limit + r) % limit == r
  {
    var x := q * limit + r;
    var d := x / limit - q;
    assert x == limit * (x / limit) + x % limit;
    assert limit * d == limit * (x / limit) - limit * q;
    assert limit * d == r - x % limit;
    SmallMultiple(limit, d);
  }

  /** `4294967296 - (4294967296 % limit)`: the largest multiple of `limit` not
      above 2^32. */
  function MaxValid(limit: int): (m: int)
    requires 1 <= limit <= TwoTo32
    ensures m % limit == 0 && m <= TwoTo32 && m > TwoTo32 - limit && m >= limit
  {
    var q := TwoTo32 / limit;
    var m := TwoTo32 - TwoTo32 % limit;
    assert TwoTo32 == limit * q + TwoTo32 % limit;
    assert m == q * limit;
    BlockMod(q, limit, 0);
    assert q >= 1 by {
      assert limit * q > 0;
    }
    assert q * limit >= limit;
    m
  }

  /** The rejection loop: reads values from position `from` on until one lies
      below `MaxValid(limit)`, and returns it modulo `limit` with the position
      after it; `None` when the supply runs out first. */
  method DrawBelow(limit: int, supply: seq<u32>, from: nat) returns (j: Option<int>, next: nat)
    requires 1 <= limit <= TwoTo32 && from <= |supply|
    ensures from <= next <= |supply|
    ensures j.Some? ==>
      from < next && (supply[next - 1] as int) < MaxValid(limit)
      && j.value == (supply[next - 1] as int) % limit && 0 <= j.value < limit
    ensures j.None? ==> next == |supply|
    ensures forall t :: from <= t < (if j.Some? then next - 1 else next) ==> supply[t] as int >= MaxValid(limit)
  {
    var maxValid := MaxValid(limit);
    var pos := from;
    while pos < |supply| && supply[pos] as int >= maxValid
      invariant from <= pos <= |supply|
      invariant forall t :: from <= t < pos ==> supply[t] as int >= maxValid
    {
      pos := pos + 1;
    }
    if pos == |supply| {
      return None, pos;
    }
    return Some((supply[pos] as int) % limit), pos + 1;
  }

  /** `supply[p]` is the first value from position `from` on that the
      rejection loop for `limit` accepts. */
  predicate FirstAccepted(supply: seq<u32>, limit: int, from: int, p: int)
  {
    1 <= limit <= TwoTo32 && 0 <= from <= p < |supply|
    && (supply[p] as int) < MaxValid(limit)
    && forall q :: from <= q < p ==> supply[q] as int >= MaxValid(limit)
  }

  /** The position after the last accepted value; 0 before the first draw. */
  function After(positions: seq<int>): int
  {
    if positions == [] then 0 else positions[|positions| - 1] + 1
  }

  /** The partners of a pass over `n` elements, read off the supply: draw `t`
      uses limit `n - t`, accepts the first value after the previous draw's,
      found at `positions[t]`, and takes its remainder. */
  predicate DrawnFrom(n: int, supply: seq<u32>, picks: seq<int>, positions: seq<int>)
  {
    |positions| == |picks| && forall t :: 0 <= t < |positions| ==> DrawAt(n, supply, picks, positions, t)
  }

  /** Draw `t` of such a pass. */
  predicate DrawAt(n: int, supply: seq<u32>, picks: seq<int>, positions: seq<int>, t: int)
    requires 0 <= t < |positions| == |picks|
  {
    FirstAccepted(supply, n - t, if t == 0 then 0 else positions[t - 1] + 1, positions[t])
    && picks[t] == (supply[positions[t]] as int) % (n - t)
  }

  lemma FirstAcceptedUnique(supply: seq<u32>, limit: int, from: int, p: int, p': int)
    requires FirstAccepted(supply, limit, from, p) && FirstAccepted(supply, limit, from, p')
    ensures p == p'
  {
  }

  lemma DrawnFromPrefix(n: int, supply: seq<u32>, picks: seq<int>, positions: seq<int>, m: nat)
    requires DrawnFrom(n, supply, picks, positions) && m <= |positions|
    ensures DrawnFrom(n, supply, picks[..m], positions[..m])
  {
    var ps := positions[..m];
    forall t | 0 <= t < m
      ensures DrawAt(n, supply, picks[..m], ps, t)
    {
      assert DrawAt(n, supply, picks, positions, t);
      assert ps[t] == positions[t] && picks[..m][t] == picks[t];
      if t > 0 {
        assert ps[t - 1] == positions[t - 1];
      }
    }
  }

  /** The supply decides the partners: two runs of the same length drawn from
      one supply read the same positions and draw the same partners. */
  lemma {:induction false} DrawnFromUnique(n: int, supply: seq<u32>, picks: seq<int>, positions: seq<int>,
                                            picks': seq<int>, positions': seq<int>)
    requires DrawnFrom(n, supply, picks, positions) && DrawnFrom(n, supply, picks', positions')
    requires |positions| == |positions'|
    ensures picks == picks' && positions == positions'
    decreases |positions|
  {
    if positions != [] {
      var m := |positions| - 1;
      DrawnFromPrefix(n, supply, picks, positions, m);
      DrawnFromPrefix(n, supply, picks', positions', m);
      DrawnFromUnique(n, supply, picks[..m], positions[..m], picks'[..m], positions'[..m]);
      var from := if m == 0 then 0 else positions[m - 1] + 1;
      assert m > 0 ==> positions[m - 1] == positions[..m][m - 1] == positions'[m - 1];
      assert DrawAt(n, supply, picks, positions, m) && DrawAt(n, supply, picks', positions', m);
      FirstAcceptedUnique(supply, n - m, from, positions[m], positions'[m]);
      assert positions == positions[..m] + [positions[m]];
      assert positions' == positions'[..m] + [positions'[m]];
      assert picks == picks[..m] + [picks[m]];
      assert picks' == picks'[..m] + [picks'[m]];
    }
  }

  /** One more accepted draw extends the record. */
  lemma DrawnSnoc(n: int, supply: seq<u32>, picks: seq<int>, positions: seq<int>, p: int, j: int)
    requires DrawnFrom(n, supply, picks, positions)
    requires FirstAccepted(supply, n - |positions|, After(positions), p)
    requires j == (supply[p] as int) % (n - |positions|)
    ensures DrawnFrom(n, supply, picks + [j], positions + [p]) && After(positions + [p]) == p + 1
  {
    var ps := positions + [p];
    var js := picks + [j];
    forall t | 0 <= t < |ps|
      ensures DrawAt(n, supply, js, ps, t)
    {
      if t < |positions| {
        assert DrawAt(n, supply, picks, positions, t);
        assert ps[t] == positions[t] && js[t] == picks[t];
        if t > 0 {
          assert ps[t - 1] == positions[t - 1];
        }
      } else if t > 0 {
        assert ps[t - 1] == positions[t - 1];
      }
    }
  }

  /** The supply ran out during the pass over `n` elements: the draws so far
      are recorded, a further draw was due, and every value after the last
      accepted one is rejected for the next limit. */
  predicate RanOut(n: int, supply: seq<u32>, picks: seq<int>, positions: seq<int>)
  {
    DrawnFrom(n, supply, picks, positions)
    && |positions| < n - 1 && n - |positions| <= TwoTo32 && 0 <= After(positions) <= |supply|
    && forall q :: After(positions) <= q < |supply| ==> supply[q] as int >= MaxValid(n - |positions|)
  }

  /** The next draw of a pass over `n` elements: runs the rejection loop from
      where the previous draw stopped and extends the record with it. */
  method DrawNext(n: int, supply: seq<u32>, picks: seq<int>, positions: seq<int>) returns (j: Option<int>, next: nat)
    requires DrawnFrom(n, supply, picks, positions)
    requires 1 <= n - |positions| <= TwoTo32 && 0 <= After(positions) <= |supply|
    ensures j.None? ==> next == |supply|
    ensures j.None? ==> forall q :: After(positions) <= q < |supply| ==> supply[q] as int >= MaxValid(n - |positions|)
    ensures j.None? && |positions| < n - 1 ==> RanOut(n, supply, picks, positions)
    ensures j.Some? ==> 0 <= j.value < n - |positions| && 0 < next <= |supply|
    ensures j.Some? ==> DrawnFrom(n, supply, picks + [j.value], positions + [next - 1]) && After(positions + [next - 1]) == next
  {
    j, next := DrawBelow(n - |positions|, supply, After(positions));
    if j.Some? {
      DrawnSnoc(n, supply, picks, positions, next - 1, j.value);
    }
  }

  // ------------------------------------------------------------ reference

  /** `[a[i], a[j]] = [a[j], a[i]]`. */
  function Swap<T>(a: seq<T>, i: nat, j: nat): (r: seq<T>)
    requires i < |a| && j < |a|
    ensures |r| == |a|
  {
    a[i := a[j]][j := a[i]]
  }

  /** Swap partners a pass may use: iteration `t` handles position
      `n - 1 - t` and swaps it with a position at or below it. */
  predicate ValidPicks(n: nat, picks: seq<int>)
  {
    (picks == [] || |picks| < n) && forall t :: 0 <= t < |picks| ==> 0 <= picks[t] <= n - 1 - t
  }

  /** The array after the first `|picks|` iterations. */
  function Steps<T>(a: seq<T>, picks: seq<int>): (r: seq<T>)
    requires ValidPicks(|a|, picks)
    ensures |r| == |a|
    decreases |picks|
  {
    if picks == [] then a
    else
      var t := |picks| - 1;
      Swap(Steps(a, picks[..t]), |a| - 1 - t, picks[t])
  }

  /** One more iteration: the pass extended by the swap partner `j` of
      position `|a| - 1 - |picks|`. */
  lemma StepsSnoc<T>(a: seq<T>, picks: seq<int>, j: int)
    requires ValidPicks(|a|, picks) && |picks| + 1 < |a| && 0 <= j <= |a| - 1 - |picks|
    ensures ValidPicks(|a|, picks + [j])
    ensures Steps(a, picks + [j]) == Swap(Steps(a, picks), |a| - 1 - |picks|, j)
  {
    var q := picks + [j];
    assert q[..|picks|] == picks && q[|picks|] == j;
    forall t | 0 <= t < |q|
      ensures 0 <= q[t] <= |a| - 1 - t
    {
      if t < |picks| {
        assert q[t] == picks[t];
      }
    }
  }

  lemma SwapPermutes<T>(a: seq<T>, i: nat, j: nat)
    requires i < |a| && j < |a|
    ensures multiset(Swap(a, i, j)) == multiset(a)
  {
    if i != j {
      var b := a[i := a[j]];
      assert multiset(b) == multiset(a) - multiset{a[i]} + multiset{a[j]};
      assert multiset(b[j := a[i]]) == multiset(b) - multiset{b[j]} + multiset{a[i]};
    }
  }

  /** Every pass is a permutation of its input. */
  lemma {:induction false} StepsPermutes<T>(a: seq<T>, picks: seq<int>)
    requires ValidPicks(|a|, picks)
    ensures multiset(Steps(a, picks)) == multiset(a)
    decreases |picks|
  {
    if picks != [] {
      var t := |picks| - 1;
      StepsPermutes(a, picks[..t]);
      SwapPermutes(Steps(a, picks[..t]), |a| - 1 - t, picks[t]);
    }
  }

  /** Once iteration `m - 1` is done, positions `n - m` onward are final:
      later iterations only swap below them. */
  lemma {:induction false} StepsFreezeSuffix<T>(a: seq<T>, picks: seq<int>, m: nat)
    requires ValidPicks(|a|, picks) && m <= |picks|
    ensures Steps(a, picks)[|a| - m..] == Steps(a, picks[..m])[|a| - m..]
    decreases |picks|
  {
    if m < |picks| {
      var t := |picks| - 1;
      assert picks[..t][..m] == picks[..m];
      StepsFreezeSuffix(a, picks[..t], m);
      var prev := Steps(a, picks[..t]);
      assert Steps(a, picks)[|a| - m..] == prev[|a| - m..];
    } else {
      assert picks[..m] == picks;
    }
  }

  // -------------------------------------------------------------- shuffle

  /** `fisherYatesShuffle`: copies the input into a new array and swaps from
      the last position down. Reports the swap partners it drew, the supply
      positions of the values it accepted and how much of the supply it used;
      `None` when the supply ran out. */
  method Shuffle<T>(input: seq<T>, supply: seq<u32>)
    returns (r: Option<seq<T>>, picks: seq<int>, used: nat, positions: seq<int>)
    requires |input| < TwoTo32
    ensures used <= |supply|
    ensures DrawnFrom(|input|, supply, picks, positions)
    ensures r.Some? ==> used == After(positions)
    ensures r.None? ==> used == |supply| && RanOut(|input|, supply, picks, positions)
    ensures r.Some? ==> ValidPicks(|input|, picks) && r.value == Steps(input, picks)
    ensures r.Some? && |input| > 0 ==> |picks| == |input| - 1
    ensures r.Some? ==> |r.value| == |input| && multiset(r.value) == multiset(input)
    ensures |input| <= 1 ==> r == Some(input) && picks == [] && used == 0
  {
    var a := new T[|input|](k requires 0 <= k < |input| => input[k]);
    assert a[..] == input;
    var i := a.Length - 1;
    picks := [];
    used := 0;
    positions := [];
    while i > 0
      invariant -1 <= i < a.Length || (a.Length == 0 && i == -1)
      invariant a.Length > 0 ==> i >= 0 && |picks| == a.Length - 1 - i
      invariant a.Length == 0 ==> picks == []
      invariant ValidPicks(|input|, picks)
      invariant a[..] == Steps(input, picks)
      invariant used <= |supply|
      invariant picks == [] ==> used == 0
      invariant DrawnFrom(|input|, supply, picks, positions) && used == After(positions)
      modifies a
    {
      var j, next := DrawNext(|input|, supply, picks, positions);
      if j.None? {
        return None, picks, next, positions;
      }
      positions := positions + [next - 1];
      used := next;
      ghost var before := a[..];
      a[i], a[j.value] := a[j.value], a[i];
      assert a[..] == Swap(before, i, j.value);
      StepsSnoc(input, picks, j.value);
      picks := picks + [j.value];
      i := i - 1;
    }
    r := Some(a[..]);
    StepsPermutes(input, picks);
  }

  // ----------------------------------------------------------- unbiased

  /** How many values below `m` leave remainder `j` modulo `limit`. */
  function CountResidue(m: nat, limit: nat, j: nat): nat
    requires limit >= 1
  {
    if m == 0 then 0 else CountResidue(m - 1, limit, j) + (if (m - 1) % limit == j then 1 else 0)
  }

  lemma {:induction false} ResidueBlock(q: nat, limit: nat, j: nat, t: nat)
    requires limit >= 1 && j < limit && t <= limit
    ensures CountResidue(q * limit + t, limit, j) == CountResidue(q * limit, limit, j) + (if j < t then 1 else 0)
    decreases t
  {
    if t > 0 {
      ResidueBlock(q, limit, j, t - 1);
      BlockMod(q, limit, t - 1);
    }
  }

  lemma {:induction false} ResidueCount(q: nat, limit: nat, j: nat)
    requires limit >= 1 && j < limit
    ensures CountResidue(q * limit, limit, j) == q
    decreases q
  {
    if q > 0 {
      ResidueCount(q - 1, limit, j);
      ResidueBlock(q - 1, limit, j, limit);
      assert (q - 1) * limit + limit == q * limit;
    }
  }

  /** The rejection step is unbiased: among the accepted values (those below
      `MaxValid(limit)`) every swap partner `0 <= j < limit` is the remainder
      of exactly as many values. */
  lemma AcceptedUniform(limit: int, j: nat)
    requires 1 <= limit <= TwoTo32 && j < limit
    ensures CountResidue(MaxValid(limit), limit, j) == MaxValid(limit) / limit
  {
    var m := MaxValid(limit);
    var q := m / limit;
    assert m == q * limit;
    ResidueCount(q, limit, j);
  }
}

=== FILE: ledger.dfy ===
/** The persisted application store: roster, per-prize winner lists, prize
    catalogue and the lock flag, with every store action as a pure state
    transition (`src/store/useStore.ts`). */
module Ledger {
  import opened Options
  import opened Seqs
  import opened Numerals
  import opened Slug
  import opened Prizes

  /** One winner-list entry. `None` is JavaScript's `undefined`: a hole left by
      writing past the end of a list, or an undefined name handed to the store. */
  type Entry = Option<string>

  /** Prize id to the list of winner entries for that prize's boxes. */
  type Winners = map<string, seq<Entry>>

  datatype AppState = AppState(
    eventName: string,
    participants: seq<string>,
    winners: Winners,
    isLocked: bool,
    sessions: seq<SessionData>)

  const DefaultEventName: string := "Edit Label Acara"

  /** The state a new store starts from. */
  function Initial(): (s: AppState)
    ensures s.participants == [] && s.winners == map[] && !s.isLocked && s.sessions == []
    ensures s.eventName == DefaultEventName
  {
    AppState(DefaultEventName, [], map[], false, [])
  }

  /** `state.winners[prizeId] || []`. */
  function ListOf(w: Winners, prizeId: string): seq<Entry>
  {
    if prizeId in w then w[prizeId] else []
  }

  /** `name` is recorded in some winners list. */
  predicate IsWinner(w: Winners, name: string)
  {
    exists id :: id in w && Some(name) in w[id]
  }

  /** No name is recorded at two positions, in one list or across lists. */
  predicate NoDoubleWins(w: Winners)
  {
    forall i, j, a, b ::
      i in w && j in w && 0 <= a < |w[i]| && 0 <= b < |w[j]| && (i != j || a != b) && w[i][a].Some?
      ==> w[i][a] != w[j][b]
  }

  /** The lists of all prizes but `prizeId` agree. */
  ghost predicate OthersUnchanged(w: Winners, w': Winners, prizeId: string)
  {
    forall id :: id != prizeId ==> ListOf(w', id) == ListOf(w, id)
  }

  function SetEventName(s: AppState, name: string): (r: AppState)
    ensures r.eventName == name
    ensures r.participants == s.participants && r.winners == s.winners
    ensures r.isLocked == s.isLocked && r.sessions == s.sessions
  {
    s.(eventName := name)
  }

  function SetLocked(s: AppState, locked: bool): (r: AppState)
    ensures r.isLocked == locked
    ensures r.participants == s.participants && r.winners == s.winners && r.sessions == s.sessions
    ensures r.eventName == s.eventName
  {
    s.(isLocked := locked)
  }

  // ---------------------------------------------------------------- roster

  /** Appends the name with no duplicate check: the name's multiplicity grows
      by one and nothing else changes. */
  function AddParticipant(s: AppState, name: string): (r: AppState)
    ensures |r.participants| == |s.participants| + 1
    ensures r.participants[..|s.participants|] == s.participants
    ensures multiset(r.participants)[name] == multiset(s.participants)[name] + 1
    ensures r.winners == s.winners && r.sessions == s.sessions && r.isLocked == s.isLocked
    ensures r.eventName == s.eventName
  {
    s.(participants := s.participants + [name])
  }

  /** The names of a batch not already on the roster (in-batch repeats kept). */
  function NewNames(roster: seq<string>, names: seq<string>): (r: seq<string>)
    ensures forall k :: 0 <= k < |r| ==> r[k] !in roster && r[k] in names
    ensures forall x :: x in names && x !in roster ==> x in r
    ensures SubseqOf(r, names)
    ensures forall x :: multiset(r)[x] == if x in roster then 0 else multiset(names)[x]
  {
    var r := Filter((n: string) => n !in roster, names);
    assert forall k :: 0 <= k < |r| ==> r[k] in r;
    FilterIsSubseq((n: string) => n !in roster, names);
    FilterCount((n: string) => n !in roster, names);

    r
  }

  /** Appends, in input order, the batch names not on the roster before the call. */
  function AddParticipants(s: AppState, names: seq<string>): (r: AppState)
    ensures |s.participants| <= |r.participants| <= |s.participants| + |names|
    ensures r.participants[..|s.participants|] == s.participants
    ensures forall x :: x in r.participants <==> x in s.participants || x in names
    ensures forall k :: |s.participants| <= k < |r.participants| ==> r.participants[k] !in s.participants
    ensures SubseqOf(r.participants[|s.participants|..], names)
    ensures forall x :: multiset(r.participants[|s.participants|..])[x] == if x in s.participants then 0 else multiset(names)[x]
    ensures r.winners == s.winners && r.sessions == s.sessions && r.isLocked == s.isLocked
    ensures r.eventName == s.eventName
  {
    var added := NewNames(s.participants, names);
    var ps := s.participants + added;
    assert ps[|s.participants|..] == added;
    s.(participants := ps)
  }

  /** Repeats within a batch are not filtered: a new name listed twice is
      appended twice. */
  lemma AddParticipantsKeepsBatchRepeats(s: AppState, n: string)
    requires n !in s.participants
    ensures AddParticipants(s, [n, n]).participants == s.participants + [n, n]
  {
    var keep := (x: string) => x !in s.participants;
    assert [n, n][1..][1..] == [];
    assert Filter(keep, [n, n]) == [n, n];
  }

  /** A batch without repeats keeps a repeat-free roster repeat-free. */
  lemma AddParticipantsKeepsDistinct(s: AppState, names: seq<string>)
    requires Distinct(s.participants) && Distinct(names)
    ensures Distinct(AddParticipants(s, names).participants)
  {
    var added := NewNames(s.participants, names);
    FilterKeepsDistinct((n: string) => n !in s.participants, names);
    var ps := s.participants + added;
    forall i, j | 0 <= i < j < |ps|
      ensures ps[i] != ps[j]
    {
      if j >= |s.participants| && i < |s.participants| {
        assert ps[j] == added[j - |s.participants|];
        assert ps[i] in s.participants;
      } else if i >= |s.participants| {
        assert ps[i] == added[i - |s.participants|] && ps[j] == added[j - |s.participants|];
      }
    }
  }

  /** Refused (state unchanged) for a recorded winner; otherwise every
      occurrence of the name leaves the roster and nothing else changes. */
  function RemoveParticipant(s: AppState, name: string): (r: AppState)
    ensures IsWinner(s.winners, name) ==> r == s
    ensures !IsWinner(s.winners, name) ==>
      name !in r.participants
      && (forall x :: x != name ==> multiset(r.participants)[x] == multiset(s.participants)[x])
      && SubseqOf(r.participants, s.participants)
    ensures r.winners == s.winners && r.sessions == s.sessions && r.isLocked == s.isLocked
    ensures r.eventName == s.eventName
  {
    if IsWinner(s.winners, name) then s
    else
      FilterCount((p: string) => p != name, s.participants);
      FilterIsSubseq((p: string) => p != name, s.participants);
      s.(participants := Filter((p: string) => p != name, s.participants))
  }

  /** Keeps, in roster order, exactly the participants recorded as winners. */
  function ResetParticipants(s: AppState): (r: AppState)
    ensures forall p :: p in r.participants <==> p in s.participants && IsWinner(s.winners, p)
    ensures forall p :: IsWinner(s.winners, p) ==> multiset(r.participants)[p] == multiset(s.participants)[p]
    ensures SubseqOf(r.participants, s.participants)
    ensures r.winners == s.winners && r.sessions == s.sessions && r.isLocked == s.isLocked
    ensures r.eventName == s.eventName
  {
    FilterCount((p: string) => IsWinner(s.winners, p), s.participants);
    FilterIsSubseq((p: string) => IsWinner(s.winners, p), s.participants);
    s.(participants := Filter((p: string) => IsWinner(s.winners, p), s.participants))
  }

  // --------------------------------------------------------------- winners

  /** Appends the entry to the prize's list (a missing list counts as empty)
      and locks; no bound on the prize's quantity is consulted. */
  function AddWinner(s: AppState, prizeId: string, name: Entry): (r: AppState)
    ensures ListOf(r.winners, prizeId) == ListOf(s.winners, prizeId) + [name]
    ensures prizeId in r.winners && r.winners.Keys == s.winners.Keys + {prizeId}
    ensures OthersUnchanged(s.winners, r.winners, prizeId)
    ensures r.isLocked
    ensures r.participants == s.participants && r.sessions == s.sessions
    ensures r.eventName == s.eventName
  {
    s.(winners := s.winners[prizeId := ListOf(s.winners, prizeId) + [name]], isLocked := true)
  }

  /** Appending makes the appended name a winner and nobody else. */
  lemma AddWinnerWinners(s: AppState, prizeId: string, name: Entry, x: string)
    ensures IsWinner(AddWinner(s, prizeId, name).winners, x) <==> IsWinner(s.winners, x) || name == Some(x)
  {
    var w: Winners := s.winners;
    var w': Winners := AddWinner(s, prizeId, name).winners;
    if IsWinner(w', x) {
      var id :| id in w' && Some(x) in w'[id];
      if id == prizeId {
        assert w'[id] == ListOf(w, prizeId) + [name];
        if Some(x) in ListOf(w, prizeId) {
          assert prizeId in w && Some(x) in w[prizeId];
        }
      } else {
        assert w'[id] == ListOf(w, id);
        assert id in w && Some(x) in w[id];
      }
    }
    if IsWinner(w, x) {
      var id :| id in w && Some(x) in w[id];
      if id == prizeId {
        assert w'[id] == w[id] + [name];
      } else {
        assert w'[id] == w[id];
      }
      assert id in w' && Some(x) in w'[id];
    }
    if name == Some(x) {
      assert w'[prizeId][|w'[prizeId]| - 1] == name;
      assert prizeId in w' && Some(x) in w'[prizeId];
    }
  }

  /** `n` holes. */
  function Holes(n: nat): (r: seq<Entry>)
    ensures |r| == n && forall k :: 0 <= k < n ==> r[k] == None
  {
    seq(n, k => None)
  }

  /** `list[index] = name` on a JavaScript array: writing past the end pads
      with holes. */
  function WriteAt(list: seq<Entry>, index: nat, name: Entry): (r: seq<Entry>)
    ensures |r| == if index < |list| then |list| else index + 1
    ensures r[index] == name
    ensures forall k :: 0 <= k < |r| && k != index ==> r[k] == if k < |list| then list[k] else None
  {
    if index < |list| then list[index := name] else list + Holes(index - |list|) + [name]
  }

  /** Overwrites one position of one prize's list; no check that the position
      was filled or that the session allows reshuffling. */
  function UpdateWinner(s: AppState, prizeId: string, index: nat, name: Entry): (r: AppState)
    ensures var old_ := ListOf(s.winners, prizeId);
      var new_ := ListOf(r.winners, prizeId);
      |new_| == (if index < |old_| then |old_| else index + 1)
      && new_[index] == name
      && forall k :: 0 <= k < |new_| && k != index ==> new_[k] == if k < |old_| then old_[k] else None
    ensures OthersUnchanged(s.winners, r.winners, prizeId)
    ensures r.isLocked == s.isLocked && r.participants == s.participants && r.sessions == s.sessions
    ensures r.eventName == s.eventName
  {
    s.(winners := s.winners[prizeId := WriteAt(ListOf(s.winners, prizeId), index, name)])
  }

  /** Clears every winner and unlocks. */
  function ResetDraw(s: AppState): (r: AppState)
    ensures forall id :: ListOf(r.winners, id) == []
    ensures forall n :: !IsWinner(r.winners, n)
    ensures !r.isLocked
    ensures r.participants == s.participants && r.sessions == s.sessions && r.eventName == s.eventName
  {
    s.(winners := map[], isLocked := false)
  }

  lemma ResetDrawIdempotent(s: AppState)
    ensures ResetDraw(ResetDraw(s)) == ResetDraw(s)
  {
  }

  /** Removes every prize and winner and unlocks; the roster stays. */
  function ResetPrizes(s: AppState): (r: AppState)
    ensures r.sessions == [] && TotalSlots(r.sessions) == 0
    ensures forall id :: ListOf(r.winners, id) == []
    ensures !r.isLocked
    ensures r.participants == s.participants && r.eventName == s.eventName
  {
    s.(sessions := [], winners := map[], isLocked := false)
  }

  // ---------------------------------------------------------------- prizes

  /** `sessions.findIndex(s => s.name === name)`, `None` for -1. */
  function FindSession(sessions: seq<SessionData>, name: string): (r: Option<nat>)
    ensures r.Some? ==>
      r.value < |sessions| && sessions[r.value].name == name
      && forall k :: 0 <= k < r.value ==> sessions[k].name != name
    ensures r.None? ==> forall k :: 0 <= k < |sessions| ==> sessions[k].name != name
    decreases |sessions|
  {
    if sessions == [] then None
    else if sessions[0].name == name then Some(0)
    else
      match FindSession(sessions[1..], name)
      case None => None
      case Some(i) => Some(i + 1)
  }

  /** The id `addPrize` gives a new prize: the session slug, a dash, the clock. */
  function NewPrizeId(sessionName: string, now: nat): string
  {
    Slugify(sessionName) + "-" + Decimal(now)
  }

  /** The id of a newly created session: its slug, or `session-<now>` when the
      name has no letter or digit. */
  function NewSessionId(sessionName: string, now: nat): string
  {
    var slug := Slugify(sessionName);
    if slug != [] then slug else "session-" + Decimal(now)
  }

  /** Files a prize under the first session with exactly that name (and
      overwrites its reshuffle flag), or opens a new session at the end. */
  function AddPrize(s: AppState, sessionName: string, name: string, quantity: int,
                    allowReshuffle: bool, now: nat): (r: AppState)
    ensures var prize := PrizeItem(NewPrizeId(sessionName, now), sessionName, name, quantity);
      match FindSession(s.sessions, sessionName)
      case Some(i) =>
        |r.sessions| == |s.sessions|
        && r.sessions[i].id == s.sessions[i].id && r.sessions[i].name == sessionName
        && r.sessions[i].allowReshuffle == allowReshuffle
        && r.sessions[i].prizes == s.sessions[i].prizes + [prize]
        && forall k :: 0 <= k < |s.sessions| && k != i ==> r.sessions[k] == s.sessions[k]
      case None =>
        r.sessions == s.sessions + [SessionData(NewSessionId(sessionName, now), sessionName, allowReshuffle, [prize])]
    ensures r.participants == s.participants && r.winners == s.winners && r.isLocked == s.isLocked
    ensures r.eventName == s.eventName
  {
    var prize := PrizeItem(NewPrizeId(sessionName, now), sessionName, name, quantity);
    match FindSession(s.sessions, sessionName)
    case Some(i) =>
      var old_ := s.sessions[i];
      s.(sessions := s.sessions[i := old_.(allowReshuffle := allowReshuffle, prizes := old_.prizes + [prize])])
    case None =>
      s.(sessions := s.sessions + [SessionData(NewSessionId(sessionName, now), sessionName, allowReshuffle, [prize])])
  }

  /** The prize id is the well-formed slug of the session name followed by a
      dash and the clock reading. */
  lemma AddPrizeIdShape(sessionName: string, now: nat)
    ensures var id := NewPrizeId(sessionName, now);
      var slug := Slugify(sessionName);
      WellFormedSlug(slug) && id == slug + "-" + Decimal(now)
      && ParseInt(id[|slug| + 1..]) == Some(now)
  {
    SlugifyWellFormed(sessionName);
    var slug := Slugify(sessionName);
    var id := NewPrizeId(sessionName, now);
    assert id[|slug| + 1..] == Decimal(now);
    ParseDecimal(now);
  }

  lemma {:induction false} PrizeSlotsAppend(prizes: seq<PrizeItem>, p: PrizeItem)
    ensures PrizeSlots(prizes + [p]) == PrizeSlots(prizes) + p.quantity
    decreases |prizes|
  {
    if prizes == [] {
      assert [p][1..] == [];
    } else {
      assert (prizes + [p])[1..] == prizes[1..] + [p];
      PrizeSlotsAppend(prizes[1..], p);
    }
  }

  lemma {:induction false} TotalSlotsAppend(sessions: seq<SessionData>, x: SessionData)
    ensures TotalSlots(sessions + [x]) == TotalSlots(sessions) + PrizeSlots(x.prizes)
    decreases |sessions|
  {
    if sessions == [] {
      assert [x][1..] == [];
    } else {
      assert (sessions + [x])[1..] == sessions[1..] + [x];
      TotalSlotsAppend(sessions[1..], x);
    }
  }

  lemma {:induction false} TotalSlotsUpdate(sessions: seq<SessionData>, i: nat, x: SessionData)
    requires i < |sessions|
    ensures TotalSlots(sessions[i := x]) == TotalSlots(sessions) - PrizeSlots(sessions[i].prizes) + PrizeSlots(x.prizes)
    decreases i
  {
    if i > 0 {
      assert sessions[i := x][1..] == sessions[1..][i - 1 := x];
      TotalSlotsUpdate(sessions[1..], i - 1, x);
    }
  }

  /** Adding a prize adds exactly its quantity to the number of boxes. */
  lemma AddPrizeSlots(s: AppState, sessionName: string, name: string, quantity: int,
                      allowReshuffle: bool, now: nat)
    ensures TotalSlots(AddPrize(s, sessionName, name, quantity, allowReshuffle, now).sessions)
         == TotalSlots(s.sessions) + quantity
  {
    var prize := PrizeItem(NewPrizeId(sessionName, now), sessionName, name, quantity);
    match FindSession(s.sessions, sessionName)
    case Some(i) =>
      var old_ := s.sessions[i];
      PrizeSlotsAppend(old_.prizes, prize);
      TotalSlotsUpdate(s.sessions, i, old_.(allowReshuffle := allowReshuffle, prizes := old_.prizes + [prize]));
    case None =>
      var x := SessionData(NewSessionId(sessionName, now), sessionName, allowReshuffle, [prize]);
      TotalSlotsAppend(s.sessions, x);
      assert [prize][1..] == [];
  }

  /** Adding a prize keeps every prize filed under its session's name, and
      keeps every quantity positive when the new one is. */
  lemma AddPrizeKeepsCatalogueShape(s: AppState, sessionName: string, name: string, quantity: int,
                                    allowReshuffle: bool, now: nat)
    requires CategoriesMatch(s.sessions)
    ensures var r := AddPrize(s, sessionName, name, quantity, allowReshuffle, now);
      CategoriesMatch(r.sessions)
      && (PositiveQuantities(s.sessions) && quantity >= 1 ==> PositiveQuantities(r.sessions))
  {
    var r := AddPrize(s, sessionName, name, quantity, allowReshuffle, now);
    var prize := PrizeItem(NewPrizeId(sessionName, now), sessionName, name, quantity);
    match FindSession(s.sessions, sessionName)
    case Some(i) =>
      forall t, k | 0 <= t < |r.sessions| && 0 <= k < |r.sessions[t].prizes|
        ensures r.sessions[t].prizes[k].category == r.sessions[t].name
        ensures PositiveQuantities(s.sessions) && quantity >= 1 ==> r.sessions[t].prizes[k].quantity >= 1
      {
        if t == i && k == |s.sessions[i].prizes| {
          assert r.sessions[t].prizes[k] == prize;
        } else {
          assert r.sessions[t].prizes[k] == s.sessions[t].prizes[k];
        }
      }
    case None =>
      var n := |s.sessions|;
      forall t, k | 0 <= t < |r.sessions| && 0 <= k < |r.sessions[t].prizes|
        ensures r.sessions[t].prizes[k].category == r.sessions[t].name
        ensures PositiveQuantities(s.sessions) && quantity >= 1 ==> r.sessions[t].prizes[k].quantity >= 1
      {
        if t < n {
          assert r.sessions[t] == s.sessions[t];
        }
      }
  }

  /** The index of the session a prize is filed under: the first session of
      that name, or the new one at the end. */
  function TargetSession(sessions: seq<SessionData>, sessionName: string): nat
  {
    match FindSession(sessions, sessionName)
    case Some(i) => i
    case None => |sessions|
  }

  /** Session `i` exists, carries `name`, and ends with prize line `p`. */
  predicate FiledLast(sessions: seq<SessionData>, i: nat, name: string, p: PrizeItem)
  {
    i < |sessions| && sessions[i].name == name && sessions[i].prizes != []
    && sessions[i].prizes[|sessions[i].prizes| - 1] == p
  }

  /** The filed prize is the last line of its target session, under the
      given names and quantity. */
  lemma AddPrizeFilesLast(s: AppState, sessionName: string, name: string, quantity: int,
                          allowReshuffle: bool, now: nat)
    ensures FiledLast(AddPrize(s, sessionName, name, quantity, allowReshuffle, now).sessions,
                      TargetSession(s.sessions, sessionName), sessionName,
                      PrizeItem(NewPrizeId(sessionName, now), sessionName, name, quantity))
  {
  }

  /** No prize line of the session carries `prizeId`. */
  predicate Lacks(session: SessionData, prizeId: string)
  {
    forall j :: 0 <= j < |session.prizes| ==> session.prizes[j].id != prizeId
  }

  /** Keeps the prizes whose id differs from `prizeId`. */
  function DropPrize(session: SessionData, prizeId: string): (r: SessionData)
    ensures r.id == session.id && r.name == session.name && r.allowReshuffle == session.allowReshuffle
    ensures forall p :: p in r.prizes <==> p in session.prizes && p.id != prizeId
    ensures SubseqOf(r.prizes, session.prizes)
    ensures Lacks(r, prizeId)
  {
    var r := session.(prizes := Filter((p: PrizeItem) => p.id != prizeId, session.prizes));
    FilterIsSubseq((p: PrizeItem) => p.id != prizeId, session.prizes);
    assert forall j :: 0 <= j < |r.prizes| ==> r.prizes[j] in r.prizes;
    r
  }

  function DropPrizeAll(sessions: seq<SessionData>, prizeId: string): (r: seq<SessionData>)
    ensures |r| == |sessions| && forall k :: 0 <= k < |r| ==> r[k] == DropPrize(sessions[k], prizeId)
    ensures forall x :: x in r ==> Lacks(x, prizeId)
  {
    seq(|sessions|, k requires 0 <= k < |sessions| => DropPrize(sessions[k], prizeId))
  }

  /** The sessions that still hold a prize line, in order. */
  function NonEmptySessions(sessions: seq<SessionData>): (r: seq<SessionData>)
    ensures forall k :: 0 <= k < |r| ==> |r[k].prizes| > 0 && r[k] in sessions
    ensures forall x :: x in r <==> x in sessions && |x.prizes| > 0
    ensures SubseqOf(r, sessions)
    ensures forall x :: multiset(r)[x] == if |x.prizes| > 0 then multiset(sessions)[x] else 0
  {
    var r := Filter((x: SessionData) => |x.prizes| > 0, sessions);
    assert forall k :: 0 <= k < |r| ==> r[k] in r;
    FilterIsSubseq((x: SessionData) => |x.prizes| > 0, sessions);
    FilterCount((x: SessionData) => |x.prizes| > 0, sessions);
    r
  }

  /** Drops the prize from every session, then every session left empty, and
      deletes the prize's winner list. */
  function RemovePrize(s: AppState, prizeId: string): (r: AppState)
    ensures forall k :: 0 <= k < |r.sessions| ==> Lacks(r.sessions[k], prizeId) && |r.sessions[k].prizes| > 0
    ensures forall x :: x in r.sessions <==> x in DropPrizeAll(s.sessions, prizeId) && |x.prizes| > 0
    ensures SubseqOf(r.sessions, DropPrizeAll(s.sessions, prizeId))
    ensures forall x :: multiset(r.sessions)[x] == if |x.prizes| > 0 then multiset(DropPrizeAll(s.sessions, prizeId))[x] else 0
    ensures prizeId !in r.winners && ListOf(r.winners, prizeId) == []
    ensures OthersUnchanged(s.winners, r.winners, prizeId)
    ensures r.participants == s.participants && r.isLocked == s.isLocked
    ensures r.eventName == s.eventName
  {
    s.(sessions := NonEmptySessions(DropPrizeAll(s.sessions, prizeId)), winners := s.winners - {prizeId})
  }

  /** Removing a prize takes away exactly its boxes from the catalogue's prize
      list, keeping the rest in order. */
  lemma {:induction false} RemovePrizeContent(sessions: seq<SessionData>, prizeId: string)
    ensures var kept := Filter((x: SessionData) => |x.prizes| > 0, DropPrizeAll(sessions, prizeId));
      AllPrizes(kept) == Filter((p: PrizeItem) => p.id != prizeId, AllPrizes(sessions))
    decreases |sessions|
  {
    var keepS := (x: SessionData) => |x.prizes| > 0;
    var keepP := (p: PrizeItem) => p.id != prizeId;
    if sessions != [] {
      var d := DropPrizeAll(sessions, prizeId);
      assert d == [d[0]] + DropPrizeAll(sessions[1..], prizeId);
      FilterConcat(keepS, [d[0]], DropPrizeAll(sessions[1..], prizeId));
      RemovePrizeContent(sessions[1..], prizeId);
      FilterConcat(keepP, sessions[0].prizes, AllPrizes(sessions[1..]));
      var rest := Filter(keepS, DropPrizeAll(sessions[1..], prizeId));
      if |d[0].prizes| > 0 {
        assert Filter(keepS, [d[0]]) == [d[0]];
        assert ([d[0]] + rest)[1..] == rest;
      } else {
        assert Filter(keepS, [d[0]]) == [];
        assert [] + rest == rest;
      }
    }
  }

  /** After `RemovePrize`, the catalogue's prize list is the old one without
      the removed prize's lines, in the old order. */
  lemma RemovePrizeKeepsOtherPrizes(s: AppState, prizeId: string)
    ensures AllPrizes(RemovePrize(s, prizeId).sessions)
      == Filter((p: PrizeItem) => p.id != prizeId, AllPrizes(s.sessions))
  {
    RemovePrizeContent(s.sessions, prizeId);
  }

  // -------------------------------------------------------------- invariant

  /** After an append, every position but the new one holds the entry it
      held before. */
  lemma AddWinnerOld(s: AppState, prizeId: string, name: Entry, i: string, a: nat)
    requires var w' := AddWinner(s, prizeId, name).winners;
      i in w' && a < |w'[i]| && !(i == prizeId && a == |ListOf(s.winners, prizeId)|)
    ensures i in s.winners && a < |s.winners[i]|
    ensures AddWinner(s, prizeId, name).winners[i][a] == s.winners[i][a]
  {
    var w' := AddWinner(s, prizeId, name).winners;
    assert w'[i] == if i == prizeId then ListOf(s.winners, prizeId) + [name] else ListOf(s.winners, i);
  }

  /** Appending a name nobody has won yet (or an undefined entry) keeps every
      name recorded at most once. */
  lemma AddWinnerKeepsNoDoubleWins(s: AppState, prizeId: string, name: Entry)
    requires NoDoubleWins(s.winners)
    requires name.Some? ==> !IsWinner(s.winners, name.value)
    ensures NoDoubleWins(AddWinner(s, prizeId, name).winners)
  {
    var w: Winners := s.winners;
    var w': Winners := AddWinner(s, prizeId, name).winners;
    var last := |ListOf(w, prizeId)|;
    assert w'[prizeId][last] == name;
    forall i, j, a, b | i in w' && j in w' && 0 <= a < |w'[i]| && 0 <= b < |w'[j]| && (i != j || a != b) && w'[i][a].Some?
      ensures w'[i][a] != w'[j][b]
    {
      if !(i == prizeId && a == last) {
        AddWinnerOld(s, prizeId, name, i, a);
        assert w[i][a] in w[i];
      }
      if !(j == prizeId && b == last) {
        AddWinnerOld(s, prizeId, name, j, b);
        assert w[j][b] in w[j];
      }
    }
  }

  /** After an overwrite, every present entry but the written one is an entry
      that was there before. */
  lemma UpdateWinnerOld(s: AppState, prizeId: string, index: nat, name: Entry, i: string, a: nat)
    requires var w' := UpdateWinner(s, prizeId, index, name).winners;
      i in w' && a < |w'[i]| && !(i == prizeId && a == index) && w'[i][a].Some?
    ensures i in s.winners && a < |s.winners[i]|
    ensures UpdateWinner(s, prizeId, index, name).winners[i][a] == s.winners[i][a]
  {
    var w' := UpdateWinner(s, prizeId, index, name).winners;
    assert i != prizeId ==> w'[i] == ListOf(s.winners, i);
  }

  /** Overwriting one position with a name nobody has won yet keeps every name
      recorded at most once. */
  lemma UpdateWinnerKeepsNoDoubleWins(s: AppState, prizeId: string, index: nat, name: Entry)
    requires NoDoubleWins(s.winners)
    requires name.Some? ==> !IsWinner(s.winners, name.value)
    ensures NoDoubleWins(UpdateWinner(s, prizeId, index, name).winners)
  {
    var w: Winners := s.winners;
    var w': Winners := UpdateWinner(s, prizeId, index, name).winners;
    forall i, j, a, b | i in w' && j in w' && 0 <= a < |w'[i]| && 0 <= b < |w'[j]| && (i != j || a != b) && w'[i][a].Some?
      ensures w'[i][a] != w'[j][b]
    {
      if !(i == prizeId && a == index) {
        UpdateWinnerOld(s, prizeId, index, name, i, a);
        assert w[i][a] in w[i];
      }
      if !(j == prizeId && b == index) && w'[j][b].Some? {
        UpdateWinnerOld(s, prizeId, index, name, j, b);
        assert w[j][b] in w[j];
      }
    }
  }

  // ------------------------------------------------------- gaps, exhibited

  /** Adding a name already on the roster duplicates it. */
  lemma AddParticipantAcceptsDuplicate()
    ensures var s := Initial().(participants := ["Ana"]);
      AddParticipant(s, "Ana").participants == ["Ana", "Ana"]
  {
  }

  /** Recording a name that already won breaks the at-most-once invariant:
      the store itself does not guard it. */
  lemma AddWinnerAcceptsRepeat()
    ensures var s := Initial().(winners := map["p" := [Some("Ana")]]);
      NoDoubleWins(s.winners) && !NoDoubleWins(AddWinner(s, "q", Some("Ana")).winners)
  {
    var s := Initial().(winners := map["p" := [Some("Ana")]]);
    var w' := AddWinner(s, "q", Some("Ana")).winners;
    assert w'["p"][0] == w'["q"][0];
  }

  /** Recording beyond a prize's quantity is accepted: a one-box prize ends
      with two entries. */
  lemma AddWinnerNoQuantityBound()
    ensures var s := Initial().(winners := map["p" := [Some("Ana")]]);
      |ListOf(AddWinner(s, "p", Some("Budi")).winners, "p")| == 2
  {
  }

  /** Overwriting a position that was never filled pads the list with holes. */
  lemma UpdateWinnerPadsHoles()
    ensures ListOf(UpdateWinner(Initial(), "p", 2, Some("Ana")).winners, "p") == [None, None, Some("Ana")]
  {
  }
}

=== FILE: numerals.dfy ===
/** Decimal numerals: rendering a natural number the way a JavaScript
    template literal does (`${n}`), the subset of `parseInt` the engine relies
    on, and `String.prototype.trim` over ASCII white space. */
module Numerals {
  import opened Options

  predicate IsDigit(c: char)
  {
    '0' <= c <= '9'
  }

  predicate AllDigits(s: string)
  {
    forall k :: 0 <= k < |s| ==> IsDigit(s[k])
  }

  function DigitChar(d: nat): (c: char)
    requires d < 10
    ensures IsDigit(c) && c as int - '0' as int == d
  {
    ('0' as int + d) as char
  }

  /** The shortest decimal numeral of `n`. */
  function Decimal(n: nat): (r: string)
    ensures |r| >= 1 && AllDigits(r)
    decreases n
  {
    if n < 10 then [DigitChar(n)] else Decimal(n / 10) + [DigitChar(n % 10)]
  }

  /** The value of a string of decimal digits (empty string: 0). */
  function DigitsValue(ds: string): nat
    requires AllDigits(ds)
    decreases |ds|
  {
    if ds == [] then 0
    else DigitsValue(ds[..|ds| - 1]) * 10 + (ds[|ds| - 1] as int - '0' as int)
  }

  lemma {:induction false} DecimalValue(n: nat)
    ensures DigitsValue(Decimal(n)) == n
    decreases n
  {
    if n >= 10 {
      DecimalValue(n / 10);
      var d := Decimal(n / 10) + [DigitChar(n % 10)];
      assert d[..|d| - 1] == Decimal(n / 10);
    }
  }

  /** ASCII white space as `trim` and `parseInt` skip it (tab, line feed,
      vertical tab, form feed, carriage return, space). */
  predicate IsSpace(c: char)
  {
    c == ' ' || 9 <= c as int <= 13
  }

  function TrimStart(s: string): (r: string)
    ensures |r| <= |s| && r == s[|s| - |r|..]
    ensures r == [] || !IsSpace(r[0])
    ensures forall k :: 0 <= k < |s| - |r| ==> IsSpace(s[k])
    decreases |s|
  {
    if s != [] && IsSpace(s[0]) then TrimStart(s[1..]) else s
  }

  function TrimEnd(s: string): (r: string)
    ensures |r| <= |s| && r == s[..|r|]
    ensures r == [] || !IsSpace(r[|r| - 1])
    ensures forall k :: |r| <= k < |s| ==> IsSpace(s[k])
    decreases |s|
  {
    if s != [] && IsSpace(s[|s| - 1]) then TrimEnd(s[..|s| - 1]) else s
  }

  /** Text that starts with a non-space character loses nothing at the front. */
  lemma TrimStartSolid(s: string)
    requires s != [] && !IsSpace(s[0])
    ensures TrimStart(s) == s
  {
  }

  /** Text that starts and ends with a non-space character trims to itself. */
  lemma TrimKeepsSolid(s: string)
    requires s != [] && !IsSpace(s[0]) && !IsSpace(s[|s| - 1])
    ensures TrimStart(s) == s && TrimEnd(s) == s && Trim(s) == s
  {
  }

  /** `String.prototype.trim`, for ASCII white space: the result is a slice
      `s[i..i + |r|]` whose surroundings are white space only. */
  function Trim(s: string): (r: string)
    ensures r == [] || (!IsSpace(r[0]) && !IsSpace(r[|r| - 1]))
    ensures exists i :: TrimmedAt(s, r, i)
  {
    var t := TrimStart(s);
    var r := TrimEnd(t);
    assert TrimmedAt(s, r, |s| - |t|);
    r
  }

  /** `r` is `s[i..i + |r|]`, and everything of `s` outside it is white space. */
  predicate TrimmedAt(s: string, r: string, i: int)
  {
    0 <= i <= i + |r| <= |s| && r == s[i..i + |r|]
    && (forall k :: 0 <= k < i ==> IsSpace(s[k]))
    && (forall k :: i + |r| <= k < |s| ==> IsSpace(s[k]))
  }

  /** The longest prefix of `s` made of digits. */
  function LeadingDigits(s: string): (r: string)
    ensures |r| <= |s| && r == s[..|r|] && AllDigits(r)
    ensures |r| < |s| ==> !IsDigit(s[|r|])
    decreases |s|
  {
    if s != [] && IsDigit(s[0]) then
      var rest := LeadingDigits(s[1..]);
      assert ([s[0]] + rest)[1..] == rest;
      [s[0]] + rest
    else []
  }

  /** The value of a hexadecimal digit (`0-9`, `a-f`, `A-F`); 16 for any
      other character. */
  function HexValue(c: char): (v: nat)
    ensures v <= 16
    ensures IsDigit(c) ==> v == c as int - '0' as int
  {
    if '0' <= c <= '9' then c as int - '0' as int
    else if 'a' <= c <= 'f' then c as int - 'a' as int + 10
    else if 'A' <= c <= 'F' then c as int - 'A' as int + 10
    else 16
  }

  predicate IsHexDigit(c: char)
  {
    HexValue(c) < 16
  }

  /** The longest prefix of `s` made of hexadecimal digits. */
  function LeadingHex(s: string): (r: string)
    ensures |r| <= |s| && r == s[..|r|]
    ensures forall k :: 0 <= k < |r| ==> IsHexDigit(r[k])
    ensures |r| < |s| ==> !IsHexDigit(s[|r|])
    decreases |s|
  {
    if s != [] && IsHexDigit(s[0]) then
      var rest := LeadingHex(s[1..]);
      assert ([s[0]] + rest)[1..] == rest;
      [s[0]] + rest
    else []
  }

  /** The value of a string of hexadecimal digits (empty string: 0). */
  function HexDigitsValue(ds: string): nat
    requires forall k :: 0 <= k < |ds| ==> IsHexDigit(ds[k])
    decreases |ds|
  {
    if ds == [] then 0
    else HexDigitsValue(ds[..|ds| - 1]) * 16 + HexValue(ds[|ds| - 1])
  }

  /** The sign `parseInt` reads: whether it is a minus, and the text after it. */
  function SplitSign(t: string): (bool, string)
  {
    if t != [] && (t[0] == '-' || t[0] == '+') then (t[0] == '-', t[1..]) else (false, t)
  }

  predicate HexPrefix(body: string)
  {
    |body| >= 2 && body[0] == '0' && (body[1] == 'x' || body[1] == 'X')
  }

  /** The unsigned number at the start of `body`: hexadecimal after `0x` or
      `0X`, decimal otherwise; `None` when no digit is there. */
  function Magnitude(body: string): Option<nat>
  {
    if HexPrefix(body) then
      var ds := LeadingHex(body[2..]);
      if ds == [] then None else Some(HexDigitsValue(ds))
    else
      var ds := LeadingDigits(body);
      if ds == [] then None else Some(DigitsValue(ds))
  }

  /** `parseInt(s)` with no radix: skips leading white space, reads an
      optional sign, then the magnitude; `None` is `NaN` (no digit there). */
  function ParseInt(s: string): (r: Option<int>)
  {
    var (negative, body) := SplitSign(TrimStart(s));
    match Magnitude(body)
    case None => None
    case Some(m) =>
      var value: int := if negative then -(m as int) else m;
      Some(value)
  }

  /** The digit run of a string that starts with digits and then stops is
      those digits. */
  lemma {:induction false} LeadingDigitsThen(ds: string, rest: string)
    requires AllDigits(ds)
    requires rest == [] || !IsDigit(rest[0])
    ensures LeadingDigits(ds + rest) == ds
    decreases |ds|
  {
    if ds != [] {
      assert (ds + rest)[1..] == ds[1..] + rest;
      LeadingDigitsThen(ds[1..], rest);
    }
  }

  /** A numeral written by `Decimal`, followed by anything that is neither a
      digit nor an `x`, reads back as the number it renders. */
  lemma ParseDecimalThen(n: nat, rest: string)
    requires rest == [] || (!IsDigit(rest[0]) && rest[0] != 'x' && rest[0] != 'X')
    ensures ParseInt(Decimal(n) + rest) == Some(n)
  {
    var s := Decimal(n) + rest;
    assert s[0] == Decimal(n)[0];
    TrimStartSolid(s);
    assert SplitSign(s) == (false, s);
    DecimalMagnitude(n, rest);
  }

  lemma DecimalMagnitude(n: nat, rest: string)
    requires rest == [] || (!IsDigit(rest[0]) && rest[0] != 'x' && rest[0] != 'X')
    ensures Magnitude(Decimal(n) + rest) == Some(n)
  {
    var d := Decimal(n);
    var s := d + rest;
    assert !HexPrefix(s) by {
      if |d| >= 2 {
        assert s[1] == d[1];
      } else if |s| >= 2 {
        assert s[1] == rest[0];
      }
    }
    LeadingDigitsThen(d, rest);
    DecimalValue(n);
  }

  /** A numeral written by `Decimal` reads back as the number it renders. */
  lemma ParseDecimal(n: nat)
    ensures ParseInt(Decimal(n)) == Some(n)
  {
    assert Decimal(n) + [] == Decimal(n);
    ParseDecimalThen(n, []);
  }

  /** `parseInt` reads the leading number and drops what follows it. */
  lemma ParseIntDropsTail()
    ensures ParseInt("2.9") == Some(2) && ParseInt("3 pcs") == Some(3)
  {
    assert Decimal(2) + ".9" == "2.9";
    ParseDecimalThen(2, ".9");
    assert Decimal(3) + " pcs" == "3 pcs";
    ParseDecimalThen(3, " pcs");
  }

  /** `parseInt` with no radix reads a `0x` prefix as hexadecimal. */
  lemma ParseIntReadsHex()
    ensures ParseInt("0x10") == Some(16)
  {
    var t := "0x10";
    TrimKeepsSolid(t);
    assert HexPrefix(t) && t[2..] == "10";
    assert LeadingHex("10") == "10";
    assert HexDigitsValue("10") == 16 by {
      assert "10"[..1] == "1";
      assert "1"[..0] == [];
    }
    assert Magnitude(t) == Some(16);
  }

  /** A leading minus sign negates. */
  lemma ParseIntNegative()
    ensures ParseInt("-1") == Some(-1)
  {
    TrimKeepsSolid("-1");
    assert "-1"[1..] == "1";
  }

  /** Blank text trims to nothing and parses as `NaN`. */
  lemma ParseIntBlank()
    ensures Trim(" ") == [] && ParseInt(" ").None? && ParseInt("").None?
  {
    assert TrimStart(" ") == [];
  }
}

=== FILE: options.dfy ===
/** An optional value. In this model `None` plays the part of JavaScript's
    `undefined`: a missing map entry, a hole in an array, an out-of-range read. */
module Options {

  datatype Option<+T> = None | Some(value: T) {

    /** The value, or `default` when there is none (JavaScript's `x || default`
        for values that are never falsy). */
    function GetOr(default: T): T
    {
      match this
      case Some(v) => v
      case None => default
    }
  }
}

=== FILE: participant_form.dfy ===
/** The roster form (`src/components/ParticipantManager.tsx`): the guarded
    single add, the unguarded bulk import, the set of winners the roster view
    marks, and which participants are offered a remove control. */
module ParticipantForm {
  import opened Options
  import opened Seqs
  import opened Numerals
  import opened Slug
  import opened Ledger

  /** The roster already holds `name` up to (ASCII) letter case. */
  predicate HasCaseVariant(roster: seq<string>, name: string)
  {
    exists k :: 0 <= k < |roster| && Lower(roster[k]) == Lower(name)
  }

  /** No two roster names differ only in letter case (or not at all). */
  predicate CaseDistinct(roster: seq<string>)
  {
    forall i, j :: 0 <= i < j < |roster| ==> Lower(roster[i]) != Lower(roster[j])
  }

  /** What a press of the add button does: nothing (blank text), the
      duplicate alert, or an add. */
  datatype AddOutcome = Ignored | Duplicate | Added

  /** `handleAdd` on the text in the name field: a blank name is ignored, a
      name already on the roster up to case is refused with the alert, and
      otherwise the trimmed name is appended and the field cleared. Returns
      the field's text, the store and the outcome. */
  function HandleAdd(text: string, s: AppState): (r: (string, AppState, AddOutcome))
    ensures r.2 == Added <==> Trim(text) != [] && !HasCaseVariant(s.participants, Trim(text))
    ensures r.2 != Added ==> r.0 == text && r.1 == s
    ensures r.2 == Duplicate <==> Trim(text) != [] && HasCaseVariant(s.participants, Trim(text))
    ensures r.2 == Added ==> r.0 == [] && r.1 == AddParticipant(s, Trim(text))
  {
    var name := Trim(text);
    if name == [] then (text, s, Ignored)
    else if HasCaseVariant(s.participants, name) then (text, s, Duplicate)
    else ("", AddParticipant(s, name), Added)
  }

  /** The single add keeps the roster free of case variants: only a name
      with no variant on the roster is appended. */
  lemma HandleAddKeepsCaseDistinct(text: string, s: AppState)
    requires CaseDistinct(s.participants)
    ensures CaseDistinct(HandleAdd(text, s).1.participants)
  {
    var r := HandleAdd(text, s);
    if r.2 == Added {
      var ps := r.1.participants;
      var n := |s.participants|;
      assert ps == s.participants + [Trim(text)];
      forall i, j | 0 <= i < j < |ps|
        ensures Lower(ps[i]) != Lower(ps[j])
      {
        if j == n {
          assert ps[i] == s.participants[i];
        } else {
          assert ps[i] == s.participants[i] && ps[j] == s.participants[j];
        }
      }
    }
  }

  /** The guard compares letters case-blind and after trimming: with "A" on
      the roster, both "a" and " A" are refused. */
  lemma HandleAddRefusesVariants()
    ensures var s := Initial().(participants := ["A"]);
      HandleAdd("a", s) == ("a", s, Duplicate) && HandleAdd(" A", s) == (" A", s, Duplicate)
  {
    var s := Initial().(participants := ["A"]);
    TrimLetters();
    VariantOfA(s.participants, "a");
    VariantOfA(s.participants, "A");
  }

  lemma TrimLetters()
    ensures Trim("a") == "a" && Trim(" A") == "A"
  {
    TrimKeepsSolid("a");
    TrimKeepsSolid("A");
    assert TrimStart(" A") == TrimStart(" A"[1..]);
    assert " A"[1..] == "A";
  }

  lemma VariantOfA(roster: seq<string>, name: string)
    requires roster == ["A"] && (name == "a" || name == "A")
    ensures HasCaseVariant(roster, name)
  {
    assert LowerChar('A') == 'a' && LowerChar('a') == 'a';
    assert Lower(roster[0]) == Lower(name);
  }

  /** `handleImport`: the batch goes to `addParticipants` as it is, with no
      case-blind check. The spreadsheet importer hands it names that are
      already trimmed and non-blank; this step adds no trimming of its own. */
  function HandleImport(s: AppState, names: seq<string>): (r: AppState)
    ensures |s.participants| <= |r.participants| && r.participants[..|s.participants|] == s.participants
    ensures forall x :: x in r.participants <==> x in s.participants || x in names
    ensures forall x :: multiset(r.participants[|s.participants|..])[x] == if x in s.participants then 0 else multiset(names)[x]
    ensures r.winners == s.winners && r.sessions == s.sessions && r.isLocked == s.isLocked
  {
    AddParticipants(s, names)
  }

  /** The import bypasses the add guard: it files "a" next to "A", a name
      the single add refuses. (The spreadsheet importer has already trimmed
      the names and dropped blank cells, so the exhibit uses a trimmed name.) */
  lemma ImportSkipsGuard()
    ensures var s := Initial().(participants := ["A"]);
      var r := HandleImport(s, ["a"]);
      r.participants == ["A", "a"] && !CaseDistinct(r.participants)
      && HandleAdd("a", s).2 == Duplicate
  {
    var s := Initial().(participants := ["A"]);
    ImportFilesVariant(s);
    HandleAddRefusesVariants();
  }

  lemma VariantIsNew()
    ensures NewNames(["A"], ["a"]) == ["a"]
  {
    var batch := ["a"];
    var keep := (n: string) => n !in ["A"];
    assert "a" != "A";
    assert batch[1..] == [];
    assert Filter(keep, batch) == ["a"];
  }

  lemma ImportFilesVariant(s: AppState)
    requires s.participants == ["A"]
    ensures HandleImport(s, ["a"]).participants == ["A", "a"]
    ensures !CaseDistinct(["A", "a"])
  {
    VariantIsNew();
    assert HandleImport(s, ["a"]).participants == ["A"] + ["a"];
    var r := ["A", "a"];
    assert Lower(r[0]) == Lower(r[1]) by {
      assert LowerChar('A') == 'a';
    }
  }

  /** The lock flag is read but never consulted: adding and importing act
      the same whether or not the store is locked. */
  lemma FormIgnoresLock(text: string, names: seq<string>, s: AppState, locked: bool)
    ensures var t := s.(isLocked := locked);
      HandleAdd(text, t).1.participants == HandleAdd(text, s).1.participants
      && HandleAdd(text, t).2 == HandleAdd(text, s).2
      && HandleImport(t, names).participants == HandleImport(s, names).participants
  {
  }

  // ------------------------------------------------------------ winners

  /** `allWinners`: every name in any winners list. Holes are skipped, as
      `forEach` skips them. */
  function AllWinners(w: Winners): (r: set<string>)
    ensures forall x :: x in r <==> IsWinner(w, x)
  {
    var r := set id, e | id in w && e in w[id] && e.Some? :: e.value;
    assert forall x :: IsWinner(w, x) ==> x in r by {
      forall x | IsWinner(w, x)
        ensures x in r
      {
        var id :| id in w && Some(x) in w[id];
        assert Some(x).value == x;
      }
    }
    r
  }

  /** The remove control is offered to a participant not in `allWinners`. */
  predicate RemoveOffered(s: AppState, p: string)
  {
    p !in AllWinners(s.winners)
  }

  /** The control is offered exactly to the participants the store would
      actually remove: for a winner the store's own refusal leaves the roster
      as it was, and every other participant leaves it when clicked. */
  lemma RemoveOfferedIffRemovable(s: AppState, p: string)
    requires p in s.participants
    ensures RemoveOffered(s, p) <==> RemoveParticipant(s, p).participants != s.participants
  {
    var r := RemoveParticipant(s, p);
    if RemoveOffered(s, p) {
      assert p !in r.participants;
    }
  }
}

=== FILE: prize_box.dfy ===
/** The decisions of one prize box on the raffle screen
    (`src/components/PrizeBox.tsx`): when its reveal stops, which label it
    shows, and whether it offers the reshuffle control. */
module PrizeBox {
  import opened Options
  import opened Prizes
  import opened Ledger
  import opened Draw

  /** Milliseconds added per step of the stagger `delay`. */
  const StaggerStep: int := 500
  /** `baseDuration` when the prop is not given. */
  const DefaultBase: int := 3000

  const NoWinnerLabel: string := "No Winner"
  const UnknownLabel: string := "????"

  /** The stop timer of a rolling box: the base duration plus one stagger step
      per unit of delay; an absent prop takes its default (3000 ms, delay 0). */
  function StopTime(baseDuration: Option<int>, delay: Option<int>): int
  {
    baseDuration.GetOr(DefaultBase) + delay.GetOr(0) * StaggerStep
  }

  /** The stop time starts at the base duration and each further unit of delay
      postpones it by exactly one stagger step. */
  lemma StopTimeStaggers(baseDuration: Option<int>, d: int)
    ensures StopTime(baseDuration, Some(0)) == StopTime(baseDuration, None) == baseDuration.GetOr(DefaultBase)
    ensures StopTime(baseDuration, Some(d + 1)) == StopTime(baseDuration, Some(d)) + StaggerStep
    ensures StopTime(None, None) == 3000
  {
  }

  /** The label set when the stop timer fires: the winner when there is one,
      else the no-winner placeholder. */
  function StopLabel(winnerName: Entry): string
  {
    if Truthy(winnerName) then winnerName.value else NoWinnerLabel
  }

  /** The label of a box that is not rolling: the winner when there is one,
      else the unknown placeholder. */
  function IdleLabel(winnerName: Entry): string
  {
    if Truthy(winnerName) then winnerName.value else UnknownLabel
  }

  /** The label a box settles on after its reveal equals the one it shows
      afterwards (and after a reload) exactly when it has a winner; an empty
      or missing name reads "No Winner" at the reveal and "????" later. */
  lemma LabelsAgreeIffWinner(winnerName: Entry)
    ensures StopLabel(winnerName) == IdleLabel(winnerName) <==> Truthy(winnerName)
    ensures Truthy(winnerName) ==> StopLabel(winnerName) == winnerName.value
  {
    assert NoWinnerLabel[0] != UnknownLabel[0];
  }

  predicate StartsWith(s: string, prefix: string)
  {
    |prefix| <= |s| && s[..|prefix|] == prefix
  }

  /** The reshuffle control shows for a revealed winner of a session whose id
      starts with "grand" or "super", when a handler is given. The session's
      `allowReshuffle` flag is not an input: the box never receives it. */
  predicate ReshuffleVisible(winnerName: Entry, rolling: bool, activeSessionId: string, hasHandler: bool)
  {
    Truthy(winnerName) && !rolling
    && (StartsWith(activeSessionId, "grand") || StartsWith(activeSessionId, "super"))
    && hasHandler
  }

  /** Visibility follows the session id, not the session's permission: a
      "grand" session that forbids reshuffling shows the control, and a session
      that allows it but has another id does not. */
  lemma ReshuffleIgnoresPermission()
    ensures var forbidden := SessionData("grand-prize", "Grand Prize", false, []);
      !forbidden.allowReshuffle && ReshuffleVisible(Some("Ana"), false, forbidden.id, true)
    ensures var allowed := SessionData("doorprize-utama", "Doorprize Utama", true, []);
      allowed.allowReshuffle && !ReshuffleVisible(Some("Ana"), false, allowed.id, true)
  {
    var allowed := "doorprize-utama";
    assert allowed[..5] != "grand" && allowed[..5] != "super" by {
      assert allowed[0] == 'd';
    }
  }

  /** None of the sample sessions ever shows the control. */
  lemma SampleSessionsHideReshuffle(k: nat, winnerName: Entry, rolling: bool, hasHandler: bool)
    requires k < |PrizeData()|
    ensures !ReshuffleVisible(winnerName, rolling, PrizeData()[k].id, hasHandler)
  {
    var id := PrizeData()[k].id;
    assert id[0] == 's' || id[0] == 'u';
    assert |id| >= 5 ==> id[..5][0] == id[0];
    assert id[..5][1] == id[1];
    assert id[0] == 's' ==> id[1] == 'e';
  }
}

=== FILE: prize_form.dfy ===
/** The prize catalogue form (`src/components/PrizeManager.tsx`): the checks
    that guard `addPrize`, the session-name suggestions, the prize total, and
    the reshuffle flag the form copies from an existing session. The form is
    the only place a quantity below one is refused. */
module PrizeForm {
  import opened Options
  import opened Seqs
  import opened Numerals
  import opened Slug
  import opened Prizes
  import opened Ledger

  /** The form's fields: session name, prize name, quantity text, reshuffle
      flag, and whether the suggestion list is open. */
  datatype Form = Form(sessionName: string, prizeName: string, quantity: string,
                       allowReshuffle: bool, suggestionsOpen: bool)

  /** The fields as the form first renders. */
  function EmptyForm(): Form
  {
    Form("", "", "1", false, false)
  }

  // -------------------------------------------------------------- adding

  /** The quantity `handleAdd` files: present exactly when both trimmed names
      are non-empty, the quantity text is non-empty, and it parses to a number
      of at least one. */
  function AcceptedQuantity(form: Form): (q: Option<int>)
    ensures q.Some? <==>
      Trim(form.sessionName) != [] && Trim(form.prizeName) != [] && form.quantity != []
      && ParseInt(form.quantity).Some? && ParseInt(form.quantity).value >= 1
    ensures q.Some? ==> q == ParseInt(form.quantity) && q.value >= 1
  {
    if Trim(form.sessionName) == [] || Trim(form.prizeName) == [] || form.quantity == [] then None
    else match ParseInt(form.quantity)
      case None => None
      case Some(qty) => if qty < 1 then None else Some(qty)
  }

  /** `handleAdd` with the clock reading `now`. A refused form changes
      neither the form nor the store; an accepted one files the prize under
      the trimmed names with the parsed quantity, then clears the prize name
      and resets the quantity text, keeping the session name and flag. */
  function HandleAdd(form: Form, s: AppState, now: nat): (r: (Form, AppState))
    ensures AcceptedQuantity(form).None? ==> r == (form, s)
    ensures AcceptedQuantity(form).Some? ==>
      r.0 == form.(prizeName := "", quantity := "1")
      && r.1 == AddPrize(s, Trim(form.sessionName), Trim(form.prizeName), AcceptedQuantity(form).value,
                         form.allowReshuffle, now)
  {
    match AcceptedQuantity(form)
    case None => (form, s)
    case Some(qty) =>
      var s' := AddPrize(s, Trim(form.sessionName), Trim(form.prizeName), qty, form.allowReshuffle, now);
      (form.(prizeName := "", quantity := "1"), s')
  }

  /** An add through the form keeps every quantity positive and every prize
      filed under its session's name, and grows the number of boxes by the
      accepted quantity; the roster, the winners and the lock are untouched. */
  lemma HandleAddKeepsCatalogue(form: Form, s: AppState, now: nat)
    requires PositiveQuantities(s.sessions) && CategoriesMatch(s.sessions)
    ensures var r := HandleAdd(form, s, now).1;
      PositiveQuantities(r.sessions) && CategoriesMatch(r.sessions)
      && TotalSlots(r.sessions) == TotalSlots(s.sessions) + AcceptedQuantity(form).GetOr(0)
      && r.participants == s.participants && r.winners == s.winners && r.isLocked == s.isLocked
  {
    match AcceptedQuantity(form)
    case None =>
    case Some(qty) =>
      var name := Trim(form.sessionName);
      var prize := Trim(form.prizeName);
      AddPrizeKeepsCatalogueShape(s, name, prize, qty, form.allowReshuffle, now);
      AddPrizeSlots(s, name, prize, qty, form.allowReshuffle, now);
  }

  /** The prize an accepted add files is the last line of its session, named
      by the trimmed prize name (non-empty, no surrounding white space) and
      carrying the accepted quantity. */
  lemma HandleAddFilesTrimmedPrize(form: Form, s: AppState, now: nat)
    requires AcceptedQuantity(form).Some?
    ensures var session := Trim(form.sessionName);
      var p := PrizeItem(NewPrizeId(session, now), session, Trim(form.prizeName), AcceptedQuantity(form).value);
      FiledLast(HandleAdd(form, s, now).1.sessions, TargetSession(s.sessions, session), session, p)
      && p.name != [] && !IsSpace(p.name[0]) && !IsSpace(p.name[|p.name| - 1])
  {
    AddPrizeFilesLast(s, Trim(form.sessionName), Trim(form.prizeName), AcceptedQuantity(form).value,
                      form.allowReshuffle, now);
  }

  /** The quantity check inherits `parseInt`'s leniency on what a number
      field can hold: a fraction is dropped, and so is an exponent, so `"1e3"`
      files 1; zero, negative and empty quantities are refused, and so is a
      blank session name. */
  lemma QuantityParsing()
    ensures AcceptedQuantity(Form("S", "P", "2.9", false, false)) == Some(2)
    ensures AcceptedQuantity(Form("S", "P", "1e3", false, false)) == Some(1)
    ensures AcceptedQuantity(Form("S", "P", "0", false, false)).None?
    ensures AcceptedQuantity(Form("S", "P", "-1", false, false)).None?
    ensures AcceptedQuantity(Form("S", "P", "", false, false)).None?
    ensures AcceptedQuantity(Form(" ", "P", "1", false, false)).None?
  {
    TrimKeepsSolid("S");
    TrimKeepsSolid("P");
    ParseIntDropsTail();
    QuantityFiles("2.9", 2);
    assert Decimal(1) + "e3" == "1e3";
    ParseDecimalThen(1, "e3");
    QuantityFiles("1e3", 1);
    ParseDecimal(0);
    assert Decimal(0) == "0";
    QuantityFiles("0", 0);
    ParseIntNegative();
    QuantityFiles("-1", -1);
    ParseIntBlank();
  }

  /** With names "S" and "P", non-empty quantity text files what it parses
      to when that is at least one, and nothing otherwise. */
  lemma QuantityFiles(text: string, v: int)
    requires text != [] && ParseInt(text) == Some(v)
    ensures AcceptedQuantity(Form("S", "P", text, false, false)) == if v >= 1 then Some(v) else None
  {
    TrimKeepsSolid("S");
    TrimKeepsSolid("P");
  }

  /** The store itself takes any quantity: filing a prize of quantity zero
      breaks the positive-quantity shape. */
  lemma AddPrizeAcceptsZero()
    ensures !PositiveQuantities(AddPrize(Initial(), "Sesi 1", "Lamp", 0, false, 0).sessions)
  {
    var r := AddPrize(Initial(), "Sesi 1", "Lamp", 0, false, 0);
    assert r.sessions[0].prizes[0].quantity == 0;
  }

  // ------------------------------------------------------ session names

  function SessionNames(sessions: seq<SessionData>): (r: seq<string>)
    ensures |r| == |sessions| && forall k :: 0 <= k < |sessions| ==> r[k] == sessions[k].name
  {
    seq(|sessions|, k requires 0 <= k < |sessions| => sessions[k].name)
  }

  /** `uniqueSessions`: every session name once, in order of first use. */
  function UniqueSessions(sessions: seq<SessionData>): (r: seq<string>)
    ensures Distinct(r)
    ensures forall x :: x in r <==> x in SessionNames(sessions)
    ensures forall i, j :: 0 <= i < j < |r| ==>
      FirstIndex(SessionNames(sessions), r[i]) < FirstIndex(SessionNames(sessions), r[j])
  {
    Dedup(SessionNames(sessions))
  }

  predicate OccursAt(s: string, part: string, i: int)
  {
    0 <= i <= |s| - |part| && s[i..i + |part|] == part
  }

  /** `s.includes(part)`. */
  predicate Contains(s: string, part: string)
  {
    exists i :: 0 <= i <= |s| && OccursAt(s, part, i)
  }

  /** A suggestion matches the typed text ignoring (ASCII) case. */
  predicate Matches(input: string, name: string)
  {
    Contains(Lower(name), Lower(input))
  }

  /** The suggestion list: the unique session names containing the typed
      text, ignoring case, in order of first use. */
  function Suggestions(sessions: seq<SessionData>, input: string): (r: seq<string>)
    ensures Distinct(r) && SubseqOf(r, UniqueSessions(sessions))
    ensures forall x :: x in r <==>
      (exists k :: 0 <= k < |sessions| && sessions[k].name == x) && Contains(Lower(x), Lower(input))
  {
    var unique := UniqueSessions(sessions);
    FilterKeepsDistinct((n: string) => Matches(input, n), unique);
    FilterIsSubseq((n: string) => Matches(input, n), unique);
    Filter((n: string) => Matches(input, n), unique)
  }

  /** Before anything is typed, every session name is suggested. */
  lemma EmptyInputSuggestsAll(sessions: seq<SessionData>)
    ensures Suggestions(sessions, "") == UniqueSessions(sessions)
  {
    var input := "";
    var unique := UniqueSessions(sessions);
    forall k | 0 <= k < |unique|
      ensures Matches(input, unique[k])
    {
      assert OccursAt(Lower(unique[k]), Lower(input), 0);
    }
    FilterAll((n: string) => Matches(input, n), unique);
  }

  /** Texts that differ only in (ASCII) case give the same suggestions. */
  lemma SuggestionsIgnoreCase(sessions: seq<SessionData>, a: string, b: string)
    requires Lower(a) == Lower(b)
    ensures Suggestions(sessions, a) == Suggestions(sessions, b)
  {
    FilterAgree((n: string) => Matches(a, n), (n: string) => Matches(b, n), UniqueSessions(sessions));
  }

  // ----------------------------------------------------------- the total

  /** `prizes.reduce((s, p) => s + p.quantity, acc)`. */
  function SumQuantities(acc: int, prizes: seq<PrizeItem>): int
    decreases |prizes|
  {
    if prizes == [] then acc else SumQuantities(acc + prizes[0].quantity, prizes[1..])
  }

  /** The outer `reduce` over the sessions. */
  function SumSessions(acc: int, sessions: seq<SessionData>): int
    decreases |sessions|
  {
    if sessions == [] then acc else SumSessions(acc + SumQuantities(0, sessions[0].prizes), sessions[1..])
  }

  lemma {:induction false} SumQuantitiesSlots(acc: int, prizes: seq<PrizeItem>)
    ensures SumQuantities(acc, prizes) == acc + PrizeSlots(prizes)
    decreases |prizes|
  {
    if prizes != [] {
      SumQuantitiesSlots(acc + prizes[0].quantity, prizes[1..]);
    }
  }

  lemma {:induction false} SumSessionsSlots(acc: int, sessions: seq<SessionData>)
    ensures SumSessions(acc, sessions) == acc + TotalSlots(sessions)
    decreases |sessions|
  {
    if sessions != [] {
      SumQuantitiesSlots(0, sessions[0].prizes);
      SumSessionsSlots(acc + SumQuantities(0, sessions[0].prizes), sessions[1..]);
    }
  }

  /** `totalPrizes`: the sum of every quantity over every session, the number
      of boxes the catalogue occupies. */
  function TotalPrizes(sessions: seq<SessionData>): (n: int)
    ensures n == TotalSlots(sessions)
    ensures sessions == [] ==> n == 0
  {
    SumSessionsSlots(0, sessions);
    SumSessions(0, sessions)
  }

  /** The sample catalogue counts 31 prizes. */
  lemma SampleTotal()
    ensures TotalPrizes(PrizeData()) == 31
  {
    PrizeDataSlots();
  }

  // ------------------------------------------------- choosing a session

  /** The reshuffle flag of the first session called `name` (undefined reads
      as `false`), or `current` when no session has that name. */
  function CopiedFlag(sessions: seq<SessionData>, name: string, current: bool): (f: bool)
    ensures (forall k :: 0 <= k < |sessions| ==> sessions[k].name != name) ==> f == current
    ensures forall k :: (0 <= k < |sessions| && sessions[k].name == name
      && forall j :: 0 <= j < k ==> sessions[j].name != name) ==> f == sessions[k].allowReshuffle
  {
    match FindSession(sessions, name)
    case Some(i) => sessions[i].allowReshuffle
    case None => current
  }

  /** `handleSessionSelect`: takes the chosen name, closes the list and copies
      the session's reshuffle flag; the prize fields are kept. */
  function SessionSelect(form: Form, sessions: seq<SessionData>, name: string): (r: Form)
    ensures r.sessionName == name && !r.suggestionsOpen
    ensures r.prizeName == form.prizeName && r.quantity == form.quantity
    ensures r.allowReshuffle == CopiedFlag(sessions, name, form.allowReshuffle)
  {
    form.(sessionName := name, suggestionsOpen := false,
          allowReshuffle := CopiedFlag(sessions, name, form.allowReshuffle))
  }

  /** Typing in the session field: takes the text, opens the list, and copies
      the flag of a session with exactly that name. */
  function SessionNameChange(form: Form, sessions: seq<SessionData>, text: string): (r: Form)
    ensures r.sessionName == text && r.suggestionsOpen
    ensures r.prizeName == form.prizeName && r.quantity == form.quantity
    ensures r.allowReshuffle == CopiedFlag(sessions, text, form.allowReshuffle)
  {
    form.(sessionName := text, suggestionsOpen := true,
          allowReshuffle := CopiedFlag(sessions, text, form.allowReshuffle))
  }

  /** Choosing an existing session (whose name has no surrounding white
      space) and adding a prize files it in that session and leaves the
      session's reshuffle flag as it was. */
  lemma SelectedSessionKeepsFlag(form: Form, s: AppState, name: string, now: nat)
    requires FindSession(s.sessions, name).Some? && Trim(name) == name
    requires AcceptedQuantity(SessionSelect(form, s.sessions, name)).Some?
    ensures var i := FindSession(s.sessions, name).value;
      var r := HandleAdd(SessionSelect(form, s.sessions, name), s, now).1;
      |r.sessions| == |s.sessions| && r.sessions[i].allowReshuffle == s.sessions[i].allowReshuffle
      && |r.sessions[i].prizes| == |s.sessions[i].prizes| + 1
  {
  }
}

=== FILE: prizes.dfy ===
/** Prize catalogue records and the sample four-session catalogue. */
module Prizes {
  import opened Seqs

  /** One prize line: `quantity` identical prizes, each a separate slot. */
  datatype PrizeItem = PrizeItem(id: string, category: string, name: string, quantity: int)

  /** A drawing session. `allowReshuffle` is written by the store for every
      session it creates, although the declared record type omits it; the
      sample catalogue leaves it undefined, which reads as `false`. */
  datatype SessionData = SessionData(id: string, name: string, allowReshuffle: bool, prizes: seq<PrizeItem>)

  /** Sum of the quantities of `prizes`: the number of boxes they occupy. */
  function PrizeSlots(prizes: seq<PrizeItem>): int
    decreases |prizes|
  {
    if prizes == [] then 0 else prizes[0].quantity + PrizeSlots(prizes[1..])
  }

  /** Sum of the quantities over all sessions. */
  function TotalSlots(sessions: seq<SessionData>): int
    decreases |sessions|
  {
    if sessions == [] then 0 else PrizeSlots(sessions[0].prizes) + TotalSlots(sessions[1..])
  }

  /** Every prize of every session, session by session. */
  function AllPrizes(sessions: seq<SessionData>): seq<PrizeItem>
    decreases |sessions|
  {
    if sessions == [] then [] else sessions[0].prizes + AllPrizes(sessions[1..])
  }

  function PrizeIds(prizes: seq<PrizeItem>): (r: seq<string>)
    ensures |r| == |prizes| && forall k :: 0 <= k < |prizes| ==> r[k] == prizes[k].id
  {
    seq(|prizes|, k requires 0 <= k < |prizes| => prizes[k].id)
  }

  function SessionIds(sessions: seq<SessionData>): (r: seq<string>)
    ensures |r| == |sessions| && forall k :: 0 <= k < |sessions| ==> r[k] == sessions[k].id
  {
    seq(|sessions|, k requires 0 <= k < |sessions| => sessions[k].id)
  }

  /** Every prize line holds at least one prize. */
  predicate PositiveQuantities(sessions: seq<SessionData>)
  {
    forall s, k :: 0 <= s < |sessions| && 0 <= k < |sessions[s].prizes| ==> sessions[s].prizes[k].quantity >= 1
  }

  /** Every prize is filed under the name of the session holding it. */
  predicate CategoriesMatch(sessions: seq<SessionData>)
  {
    forall s, k :: 0 <= s < |sessions| && 0 <= k < |sessions[s].prizes| ==> sessions[s].prizes[k].category == sessions[s].name
  }

  /** Catalogue well-formedness as the sample catalogue exhibits it. */
  predicate WellFormedCatalogue(sessions: seq<SessionData>)
  {
    PositiveQuantities(sessions) && CategoriesMatch(sessions)
      && Distinct(SessionIds(sessions)) && Distinct(PrizeIds(AllPrizes(sessions)))
  }

  function Item(session: string, id: string, name: string, quantity: int): PrizeItem
  {
    PrizeItem(id, session, name, quantity)
  }

  /** The sample catalogue `PRIZE_DATA`. The store does not load it: it starts
      with no sessions, and every session comes from the prize form. */
  function PrizeData(): seq<SessionData>
  {
    var s1 := "Doorprize Sesi 1";
    var s2 := "Doorprize Sesi 2";
    var s3 := "Doorprize Sesi 3";
    var su := "Doorprize Utama";
    [ SessionData("sesi-1", s1, false,
        [ Item(s1, "s1-1", "Emergency Lamp", 3),
          Item(s1, "s1-2", "Alat Pel Putar", 3),
          Item(s1, "s1-3", "Toples Set", 3),
          Item(s1, "s1-4", "Timbangan Digital", 3),
          Item(s1, "s1-5", "Setrika Philips", 3) ]),
      SessionData("sesi-2", s2, false,
        [ Item(s2, "s2-1", "Rice Cooker Miyako", 2),
          Item(s2, "s2-2", "Toaster", 2),
          Item(s2, "s2-3", "Blender Cosmos", 2),
          Item(s2, "s2-4", "Power Bank Xiaomi", 3),
          Item(s2, "s2-5", "Air Fryer Mito", 2) ]),
      SessionData("sesi-3", s3, false,
        [ Item(s3, "s3-1", "Mesin Cuci Sanken", 1),
          Item(s3, "s3-2", "Kulkas 1 Pintu Sharp", 1),
          Item(s3, "s3-3", "Dispenser GEA", 1) ]),
      SessionData("utama", su, false,
        [ Item(su, "u-1", "Sepeda Polygon", 1),
          Item(su, "u-2", "TV Toshiba 43inch", 1) ]) ]
  }

  /** The sample catalogue offers 31 boxes: 15, 11, 3 and 2 per session. */
  lemma PrizeDataSlots()
    ensures |PrizeData()| == 4
    ensures PrizeSlots(PrizeData()[0].prizes) == 15 && PrizeSlots(PrizeData()[1].prizes) == 11
    ensures PrizeSlots(PrizeData()[2].prizes) == 3 && PrizeSlots(PrizeData()[3].prizes) == 2
    ensures TotalSlots(PrizeData()) == 31
  {
    var d := PrizeData();
    assert d[..3][..2][..1][..0] == [];
  }

  const PrizeDataIds: seq<string> :=
    ["s1-1", "s1-2", "s1-3", "s1-4", "s1-5", "s2-1", "s2-2", "s2-3", "s2-4", "s2-5",
     "s3-1", "s3-2", "s3-3", "u-1", "u-2"]

  lemma PrizeDataIdList()
    ensures PrizeIds(AllPrizes(PrizeData())) == PrizeDataIds
  {
    var d := PrizeData();
    assert d[1..][1..][1..][1..] == [];
  }

  lemma PrizeDataIdsDistinct()
    ensures Distinct(PrizeDataIds)
  {
    var ids := PrizeDataIds;
    forall i, j | 0 <= i < j < |ids|
      ensures ids[i] != ids[j]
    {
      if |ids[i]| == |ids[j]| {
        assert ids[i][1] != ids[j][1] || ids[i][|ids[i]| - 1] != ids[j][|ids[j]| - 1];
      }
    }
  }

  /** The sample catalogue is well formed: positive quantities, categories
      equal to session names, unique session ids and unique prize ids. */
  lemma PrizeDataWellFormed()
    ensures WellFormedCatalogue(PrizeData())
  {
    PrizeDataPositive();
    PrizeDataCategories();
    PrizeDataSessionIds();
    PrizeDataIdList();
    PrizeDataIdsDistinct();
  }

  lemma PrizeDataPositive()
    ensures PositiveQuantities(PrizeData())
  {
  }

  lemma PrizeDataCategories()
    ensures CategoriesMatch(PrizeData())
  {
  }

  lemma PrizeDataSessionIds()
    ensures Distinct(SessionIds(PrizeData()))
  {
    var sids := SessionIds(PrizeData());
    assert sids == ["sesi-1", "sesi-2", "sesi-3", "utama"];
  }
}

=== FILE: random_route.dfy ===
/** The server route that proxies the random-integer provider
    (`src/app/api/random/route.ts`): checks the API key and the request's
    `count` and `max`, asks the provider for `count` distinct integers in
    `[0, max - 1]`, and relays the answer or the failure. Whether the key is
    configured, the parsed body and the provider's answer are inputs. */
module RandomRoute {
  import opened Options
  import opened Seqs
  import RandomClient

  /** A JSON field read as a number: absent or `null` (`Missing`), or a
      number. */
  datatype JsonNum = Missing | Number(x: real)

  /** `!v` in JavaScript for such a field. */
  predicate Falsy(v: JsonNum)
  {
    v.Missing? || v.x == 0.0
  }

  /** The request body: JSON that did not parse, with the parser's message, or
      the two fields. */
  datatype Body = Malformed(message: string) | Parsed(count: JsonNum, max: JsonNum)

  /** What the provider does when asked: answers with the integers and the
      remaining quota, or throws (`message` is `None` when what it throws is
      not an `Error`). */
  datatype Provider = Generated(data: seq<int>, requestsLeft: int) | Threw(message: Option<string>)

  /** The provider request: `n` integers between `min` and `max` inclusive. */
  datatype Request = Request(n: real, min: real, max: real, replacement: bool)

  /** The JSON response with its status. */
  datatype Response = Response(status: int, data: Option<seq<int>>, requestsLeft: Option<int>, error: Option<string>)

  /** The response, and the provider request the route made, if any. */
  datatype Outcome = Outcome(response: Response, asked: Option<Request>)

  const MissingKeyError: string := "RANDOM_ORG_API_KEY is not configured"
  const InvalidParamsError: string :=
    "Invalid parameters: count and max must be positive integers, count <= max, count <= 10000"
  const ProviderFailedError: string := "Random.org request failed"
  /** The most integers one request may ask for. */
  const MaxCount: real := 10000.0

  /** The parameter check that answers 400. */
  predicate Invalid(count: JsonNum, max: JsonNum)
  {
    Falsy(count) || Falsy(max) || count.x < 1.0 || max.x < 1.0 || count.x > max.x || count.x > MaxCount
  }

  function Fail(status: int, message: string): Response
  {
    Response(status, None, None, Some(message))
  }

  /** The `POST` handler. Every answer has one of four statuses, each for
      exactly one situation: 500 without a key, 400 for rejected parameters,
      200 with the provider's integers when it answered, 502 with the error's
      message when the body or the provider failed. Only a 200 carries data,
      and the provider is asked only for parameters that passed the check. */
  function Post(keyConfigured: bool, body: Body, provider: Provider): (o: Outcome)
    ensures !keyConfigured ==> o == Outcome(Fail(500, MissingKeyError), None)
    ensures o.response.status == 400 <==> keyConfigured && body.Parsed? && Invalid(body.count, body.max)
    ensures o.response.status == 200 <==> o.asked.Some? && provider.Generated?
    ensures o.response.status == 502 <==> keyConfigured && (body.Malformed? || (o.asked.Some? && provider.Threw?))
    ensures o.response.status in {200, 400, 500, 502}
    ensures o.response.data.Some? <==> o.response.status == 200
    ensures o.response.status == 200 ==> o.response.data == Some(provider.data) && o.response.error.None?
    ensures o.response.status == 502 ==>
      o.response.error == Some(if body.Malformed? then body.message else provider.message.GetOr(ProviderFailedError))
    ensures o.asked.Some? <==> keyConfigured && body.Parsed? && !Invalid(body.count, body.max)
    ensures o.asked.Some? ==>
      o.asked.value == Request(body.count.x, 0.0, body.max.x - 1.0, false)
      && 1.0 <= o.asked.value.n <= body.max.x && o.asked.value.n <= MaxCount
  {
    if !keyConfigured then Outcome(Fail(500, MissingKeyError), None)
    else match body
      case Malformed(message) => Outcome(Fail(502, message), None)
      case Parsed(count, max) =>
        if Invalid(count, max) then Outcome(Fail(400, InvalidParamsError), None)
        else
          var request := Request(count.x, 0.0, max.x - 1.0, false);
          match provider
          case Generated(data, left) => Outcome(Response(200, Some(data), Some(left), None), Some(request))
          case Threw(message) => Outcome(Fail(502, message.GetOr(ProviderFailedError)), Some(request))
  }

  /** The check does not ask for whole numbers: a fractional count within
      bounds reaches the provider. */
  lemma FractionalCountPasses(provider: Provider)
    ensures Post(true, Parsed(Number(2.5), Number(3.0)), provider).asked == Some(Request(2.5, 0.0, 2.0, false))
  {
  }

  // ------------------------------------------------------- with the client

  /** What the client sees of a route outcome. */
  function ReplyOf(o: Outcome): RandomClient.Reply
  {
    RandomClient.Response(o.response.status, o.response.data)
  }

  /** The client asks with `count == max == n` for an array of `n > 1`
      elements. Up to 10000 elements the route asks the provider for a full
      ordering of the positions, and an answer of that shape, relayed, makes
      the client's result a permutation of the array. */
  lemma HonestProviderPermutes<T>(items: seq<T>, data: seq<int>, left: int)
    requires 2 <= |items| <= 10000
    requires |data| == |items| && Distinct(data)
    requires forall k :: 0 <= k < |data| ==> 0 <= data[k] < |items|
    ensures var n := Number(|items| as real);
      var o := Post(true, Parsed(n, n), Generated(data, left));
      o.asked == Some(Request(|items| as real, 0.0, (|items| - 1) as real, false))
      && RandomClient.FetchRandomIndices(ReplyOf(o)) == RandomClient.Indices(data)
      && PermutationOf(RandomClient.MapIndices(items, data), items)
  {
    RandomClient.IndexPermutationPermutes(items, data);
  }

  /** Beyond 10000 elements the route refuses, and the client falls back to
      its local shuffle. */
  lemma LargeArrayFallsBack(n: nat, provider: Provider)
    requires n > 10000
    ensures var o := Post(true, Parsed(Number(n as real), Number(n as real)), provider);
      o.response.status == 400 && RandomClient.FetchRandomIndices(ReplyOf(o)).Failed?
  {
  }
}

=== FILE: random_source.dfy ===
/** The client-side shuffle (`src/lib/random.ts`): ask the proxy route for a
    random ordering of the indices, map it onto the items, and fall back to the
    local shuffle on any failure. The network round trip is an input: the
    reply the route gave. */
module RandomClient {
  import opened Options
  import opened Seqs
  import opened FisherYates

  /** What the client reads from the proxy: no response at all, or a status
      with the `data` field of the JSON body (`None` when the body is not JSON
      or has no `data` items). */
  datatype Reply = NoResponse | Response(status: int, data: Option<seq<int>>)

  /** The outcome of `fetchRandomIndices`: the indices, or a thrown error. */
  datatype Fetched = Indices(ix: seq<int>) | Failed

  /** A `fetch` response counts as ok for statuses 200 to 299. */
  predicate Ok(status: int)
  {
    200 <= status <= 299
  }

  /** `fetchRandomIndices` as the caller experiences it: indices for an ok
      status with a data items; any other reply ends in an error, either
      thrown here or raised when the missing data is mapped. */
  function FetchRandomIndices(reply: Reply): (r: Fetched)
    ensures r.Indices? <==> reply.Response? && Ok(reply.status) && reply.data.Some?
    ensures r.Indices? ==> r.ix == reply.data.value
  {
    match reply
    case NoResponse => Failed
    case Response(status, data) =>
      if !Ok(status) then Failed
      else if data.None? then Failed
      else Indices(data.value)
  }

  /** `randomIndices.map(i => array[i])`: an index off the array reads
      `undefined`. */
  function MapIndices<T>(items: seq<T>, ix: seq<int>): (r: seq<Option<T>>)
    ensures |r| == |ix|
    ensures forall k :: 0 <= k < |ix| ==>
      (r[k].Some? <==> 0 <= ix[k] < |items|) && (r[k].Some? ==> r[k].value == items[ix[k]])
  {
    seq(|ix|, k requires 0 <= k < |ix| => if 0 <= ix[k] < |items| then Some(items[ix[k]]) else None)
  }

  /** `shuffleWithRandomOrg`. Arrays of at most one element come back as they
      are, without asking; otherwise the route's `reply` decides, and on
      failure the result is the local Fisher-Yates pass over `supply`, `None`
      exactly when that pass runs out. */
  method ShuffleWithRandomOrg<T>(items: seq<T>, reply: Reply, supply: seq<u32>)
    returns (r: Option<seq<Option<T>>>, asked: bool)
    requires |items| < TwoTo32
    ensures asked <==> |items| > 1
    ensures |items| <= 1 ==> r == Some(Lift(items))
    ensures asked && FetchRandomIndices(reply).Indices? ==> r == Some(MapIndices(items, FetchRandomIndices(reply).ix))
    ensures asked && FetchRandomIndices(reply).Failed? && r.Some? ==> PermutationOf(r.value, items)
    ensures asked && FetchRandomIndices(reply).Failed? && r.Some? ==>
      exists picks, positions :: DrawnFrom(|items|, supply, picks, positions) && |picks| == |items| - 1
        && ValidPicks(|items|, picks) && r.value == Lift(Steps(items, picks))
    ensures r.None? ==> asked && FetchRandomIndices(reply).Failed?
    ensures r.None? ==> exists picks, positions :: RanOut(|items|, supply, picks, positions)
  {
    if |items| <= 1 {
      return Some(Lift(items)), false;
    }
    asked := true;
    match FetchRandomIndices(reply)
    case Indices(ix) =>
      r := Some(MapIndices(items, ix));
    case Failed =>
      var local, picks, _, positions := Shuffle(items, supply);
      if local.Some? {
        r := Some(Lift(local.value));
      } else {
        r := None;
      }
  }

  /** A reply that orders all positions, each once, yields a permutation. */
  lemma IndexPermutationPermutes<T>(items: seq<T>, ix: seq<int>)
    requires |ix| == |items| && Distinct(ix)
    requires forall k :: 0 <= k < |ix| ==> 0 <= ix[k] < |items|
    ensures PermutationOf(MapIndices(items, ix), items)
  {
    var n := |items|;
    var r := MapIndices(items, ix);
    assert InRange(ix, n) && InRange(Range(n), n);
    DistinctInRangeIsPermutation(ix, n);
    PickPermutation(items, ix, Range(n));
    PickRange(items);
    assert Values(r) == Pick(items, ix);
  }

  /** The reply is used unchecked: a repeated index repeats an element, and an
      index off the items yields an undefined entry. */
  lemma UncheckedIndices()
    ensures MapIndices(["a", "b"], [0, 0]) == [Some("a"), Some("a")]
    ensures !PermutationOf(MapIndices(["a", "b"], [0, 0]), ["a", "b"])
    ensures MapIndices(["a", "b"], [1, 2]) == [Some("b"), None]
  {
    var r := MapIndices(["a", "b"], [0, 0]);
    assert Values(r) == ["a", "a"];
    assert multiset(Values(r))["b"] == 0;
    assert multiset(["a", "b"])["b"] == 1;
  }
}

=== FILE: seqs.dfy ===
/** Sequence vocabulary shared by the model: order-preserving filtering,
    duplicate-freedom, permutations, optional entries and first-occurrence
    de-duplication. */
module Seqs {
  import opened Options

  /** `a` can be obtained from `b` by deleting elements (greedy matching). */
  predicate SubseqOf<T(==)>(a: seq<T>, b: seq<T>)
    decreases |b|
  {
    if a == [] then true
    else if b == [] then false
    else if a[0] == b[0] then SubseqOf(a[1..], b[1..])
    else SubseqOf(a, b[1..])
  }

  /** The elements of `xs` that `keep` accepts, in their original order:
      JavaScript's `Array.prototype.filter`. */
  function Filter<T(==,!new)>(keep: T -> bool, xs: seq<T>): (r: seq<T>)
    ensures |r| <= |xs|
    ensures forall x :: x in r <==> x in xs && keep(x)
    decreases |xs|
  {
    if xs == [] then []
    else
      var rest := Filter(keep, xs[1..]);
      assert xs == [xs[0]] + xs[1..];
      if keep(xs[0]) then [xs[0]] + rest else rest
  }

  /** Filtering leaves nothing exactly when it accepts nothing. */
  lemma {:induction false} FilterEmpty<T(!new)>(keep: T -> bool, xs: seq<T>)
    ensures Filter(keep, xs) == [] <==> forall k :: 0 <= k < |xs| ==> !keep(xs[k])
    decreases |xs|
  {
    if xs != [] {
      FilterEmpty(keep, xs[1..]);
      assert forall k :: 1 <= k < |xs| ==> xs[k] == xs[1..][k - 1];
    }
  }

  /** Filtering with a predicate that accepts everything changes nothing. */
  lemma {:induction false} FilterAll<T(!new)>(keep: T -> bool, xs: seq<T>)
    requires forall k :: 0 <= k < |xs| ==> keep(xs[k])
    ensures Filter(keep, xs) == xs
    decreases |xs|
  {
    if xs != [] {
      FilterAll(keep, xs[1..]);
      assert xs == [xs[0]] + xs[1..];
    }
  }

  /** Filtering with two predicates that agree on the elements gives one result. */
  lemma {:induction false} FilterAgree<T(!new)>(keep: T -> bool, keep': T -> bool, xs: seq<T>)
    requires forall k :: 0 <= k < |xs| ==> keep(xs[k]) == keep'(xs[k])
    ensures Filter(keep, xs) == Filter(keep', xs)
    decreases |xs|
  {
    if xs != [] {
      FilterAgree(keep, keep', xs[1..]);
    }
  }

  /** A prefix that the filter rejects followed by a suffix it accepts leaves
      the suffix. */
  lemma FilterSuffix<T(!new)>(keep: T -> bool, xs: seq<T>, m: nat)
    requires m <= |xs|
    requires forall k :: 0 <= k < m ==> !keep(xs[k])
    requires forall k :: m <= k < |xs| ==> keep(xs[k])
    ensures Filter(keep, xs) == xs[m..]
  {
    assert xs == xs[..m] + xs[m..];
    FilterConcat(keep, xs[..m], xs[m..]);
    FilterDropsPrefix(keep, xs, m);
    FilterKeepsSuffix(keep, xs, m);
  }

  lemma FilterDropsPrefix<T(!new)>(keep: T -> bool, xs: seq<T>, m: nat)
    requires m <= |xs| && forall k :: 0 <= k < m ==> !keep(xs[k])
    ensures Filter(keep, xs[..m]) == []
  {
    var a := xs[..m];
    assert forall k :: 0 <= k < |a| ==> a[k] == xs[k];
    FilterEmpty(keep, a);
  }

  lemma FilterKeepsSuffix<T(!new)>(keep: T -> bool, xs: seq<T>, m: nat)
    requires m <= |xs| && forall k :: m <= k < |xs| ==> keep(xs[k])
    ensures Filter(keep, xs[m..]) == xs[m..]
  {
    var b := xs[m..];
    assert forall k :: 0 <= k < |b| ==> b[k] == xs[m + k];
    FilterAll(keep, b);
  }

  /** A sequence holding one value throughout holds it as often as it is long. */
  lemma {:induction false} ConstantCount<T>(xs: seq<T>, x: T)
    requires forall k :: 0 <= k < |xs| ==> xs[k] == x
    ensures multiset(xs)[x] == |xs|
    decreases |xs|
  {
    if xs != [] {
      ConstantCount(xs[1..], x);
      assert xs == [x] + xs[1..];
    }
  }

  /** Filtering keeps every accepted value exactly as often as it occurs. */
  lemma {:induction false} FilterCount<T(!new)>(keep: T -> bool, xs: seq<T>)
    ensures forall x :: multiset(Filter(keep, xs))[x] == if keep(x) then multiset(xs)[x] else 0
    decreases |xs|
  {
    if xs != [] {
      FilterCount(keep, xs[1..]);
      assert xs == [xs[0]] + xs[1..];
    }
  }

  /** Filtering deletes elements and keeps the order of the rest. */
  lemma {:induction false} FilterIsSubseq<T(!new)>(keep: T -> bool, xs: seq<T>)
    ensures SubseqOf(Filter(keep, xs), xs)
    decreases |xs|
  {
    if xs != [] {
      FilterIsSubseq(keep, xs[1..]);
      var rest := Filter(keep, xs[1..]);
      if keep(xs[0]) {
        assert ([xs[0]] + rest)[1..] == rest;
      } else {
        SubseqSkip(rest, xs);
      }
    }
  }

  /** A subsequence of the tail is a subsequence of the whole. */
  lemma {:induction false} SubseqSkip<T>(a: seq<T>, b: seq<T>)
    requires b != [] && SubseqOf(a, b[1..])
    ensures SubseqOf(a, b)
    decreases |b|, 0
  {
    if a != [] && a[0] == b[0] && |b| > 1 {
      SubseqTail(a, b[1..]);
    }
  }

  /** Dropping the head of a subsequence keeps it a subsequence. */
  lemma {:induction false} SubseqTail<T>(a: seq<T>, b: seq<T>)
    requires a != [] && SubseqOf(a, b)
    ensures SubseqOf(a[1..], b)
    decreases |b|, 1
  {
    if a[0] == b[0] {
      SubseqSkip(a[1..], b);
    } else {
      SubseqTail(a, b[1..]);
      SubseqSkip(a[1..], b);
    }
  }

  /** Filtering keeps the length exactly when it keeps every element. */
  lemma {:induction false} FilterKeepsLength<T(!new)>(keep: T -> bool, xs: seq<T>)
    ensures |Filter(keep, xs)| == |xs| <==> forall k :: 0 <= k < |xs| ==> keep(xs[k])
    decreases |xs|
  {
    if xs != [] {
      var rest := Filter(keep, xs[1..]);
      FilterKeepsLength(keep, xs[1..]);
      if keep(xs[0]) {
        assert Filter(keep, xs) == [xs[0]] + rest;
        assert (forall k :: 0 <= k < |xs| ==> keep(xs[k]))
          <==> forall k :: 0 <= k < |xs[1..]| ==> keep(xs[1..][k]) by {
          forall k | 0 <= k < |xs[1..]|
            ensures xs[1..][k] == xs[k + 1]
          {
          }
        }
      } else {
        assert Filter(keep, xs) == rest;
      }
    }
  }

  lemma {:induction false} FilterConcat<T(!new)>(keep: T -> bool, a: seq<T>, b: seq<T>)
    ensures Filter(keep, a + b) == Filter(keep, a) + Filter(keep, b)
    decreases |a|
  {
    if a == [] {
      assert a + b == b;
    } else {
      var ab := a + b;
      assert ab[0] == a[0] && ab[1..] == a[1..] + b;
      FilterConcat(keep, a[1..], b);
      FilterCons(keep, ab);
      FilterCons(keep, a);
    }
  }

  /** One step of the filter: the first element, if accepted, then the rest. */
  lemma FilterCons<T(!new)>(keep: T -> bool, xs: seq<T>)
    requires xs != []
    ensures Filter(keep, xs) == (if keep(xs[0]) then [xs[0]] else []) + Filter(keep, xs[1..])
  {
  }

  /** Deleting an element the filter rejects does not change the result. */
  lemma FilterSkipsRejected<T(!new)>(keep: T -> bool, a: seq<T>, x: T, b: seq<T>)
    requires !keep(x)
    ensures Filter(keep, a + [x] + b) == Filter(keep, a + b)
  {
    var fa, fb := Filter(keep, a), Filter(keep, b);
    assert Filter(keep, [x]) == [] by {
      assert [x][1..] == [];
    }
    FilterConcat(keep, a, [x]);
    assert Filter(keep, a + [x]) == fa;
    FilterConcat(keep, a + [x], b);
    FilterConcat(keep, a, b);
  }

  /** No value occurs twice. */
  predicate Distinct<T(==)>(xs: seq<T>)
  {
    forall i, j :: 0 <= i < j < |xs| ==> xs[i] != xs[j]
  }

  lemma {:induction false} DistinctMultiplicity<T>(xs: seq<T>, x: T)
    requires Distinct(xs)
    ensures multiset(xs)[x] <= 1
    decreases |xs|
  {
    if xs != [] {
      assert xs == [xs[0]] + xs[1..];
      DistinctMultiplicity(xs[1..], x);
      if xs[0] == x {
        assert x !in xs[1..];
      }
    }
  }

  /** A sequence in which every value occurs at most once is duplicate-free. */
  lemma MultiplicityDistinct<T>(xs: seq<T>)
    requires forall x :: multiset(xs)[x] <= 1
    ensures Distinct(xs)
  {
    forall i, j | 0 <= i < j < |xs|
      ensures xs[i] != xs[j]
    {
      assert xs == xs[..j] + xs[j..];
      assert xs[..j][i] == xs[i];
      assert multiset(xs)[xs[j]] == multiset(xs[..j])[xs[j]] + multiset(xs[j..])[xs[j]];
      assert xs[j..][0] == xs[j];
      assert multiset(xs[j..])[xs[j]] >= 1;
    }
  }

  /** Rearranging a duplicate-free sequence cannot create a duplicate. */
  lemma PermutationKeepsDistinct<T>(a: seq<T>, b: seq<T>)
    requires multiset(a) == multiset(b)
    requires Distinct(a)
    ensures Distinct(b)
  {
    forall x
      ensures multiset(b)[x] <= 1
    {
      DistinctMultiplicity(a, x);
    }
    MultiplicityDistinct(b);
  }

  lemma FilterKeepsDistinct<T(!new)>(keep: T -> bool, xs: seq<T>)
    requires Distinct(xs)
    ensures Distinct(Filter(keep, xs))
  {
    var r := Filter(keep, xs);
    FilterCount(keep, xs);
    forall x
      ensures multiset(r)[x] <= 1
    {
      DistinctMultiplicity(xs, x);
    }
    MultiplicityDistinct(r);
  }

  /** Every entry is present. */
  predicate AllPresent<T>(xs: seq<Option<T>>)
  {
    forall k :: 0 <= k < |xs| ==> xs[k].Some?
  }

  /** The values of a sequence whose entries are all present. */
  function Values<T>(xs: seq<Option<T>>): (r: seq<T>)
    requires AllPresent(xs)
    ensures |r| == |xs|
  {
    seq(|xs|, k requires 0 <= k < |xs| => xs[k].value)
  }

  /** Wraps every element as a present entry. */
  function Lift<T>(xs: seq<T>): (r: seq<Option<T>>)
    ensures |r| == |xs|
    ensures AllPresent(r) && Values(r) == xs
  {
    seq(|xs|, k requires 0 <= k < |xs| => Some(xs[k]))
  }

  /** `r` holds, with no entry missing, exactly the elements of `a`, each as
      often as in `a`. */
  predicate PermutationOf<T(==)>(r: seq<Option<T>>, a: seq<T>)
  {
    AllPresent(r) && multiset(Values(r)) == multiset(a)
  }

  /** `0, 1, ..., n-1`. */
  function Range(n: nat): (r: seq<int>)
    ensures |r| == n
  {
    seq(n, k requires 0 <= k < n => k)
  }

  /** `a[ix[0]], a[ix[1]], ...` for in-range indices. */
  function Pick<T>(a: seq<T>, ix: seq<int>): (r: seq<T>)
    requires InRange(ix, |a|)
    ensures |r| == |ix|
  {
    seq(|ix|, k requires 0 <= k < |ix| => a[ix[k]])
  }

  lemma PickConcat<T>(a: seq<T>, u: seq<int>, v: seq<int>)
    requires InRange(u, |a|) && InRange(v, |a|)
    ensures InRange(u + v, |a|)
    ensures Pick(a, u + v) == Pick(a, u) + Pick(a, v)
  {
  }

  lemma MultisetRemoveAt<T>(xs: seq<T>, i: nat)
    requires i < |xs|
    ensures multiset(xs[..i] + xs[i + 1..]) == multiset(xs) - multiset{xs[i]}
  {
    assert xs == xs[..i] + [xs[i]] + xs[i + 1..];
  }

  /** Indices that are a rearrangement of in-range indices are in range. */
  lemma RearrangedInRange(n: int, ix: seq<int>, jx: seq<int>)
    requires InRange(ix, n)
    requires multiset(ix) == multiset(jx)
    ensures InRange(jx, n)
  {
    forall k | 0 <= k < |jx|
      ensures 0 <= jx[k] < n
    {
      assert jx[k] in multiset(jx);
      assert jx[k] in ix;
    }
  }

  /** All indices lie in `[0, n)`. */
  predicate InRange(ix: seq<int>, n: int)
  {
    forall k :: 0 <= k < |ix| ==> 0 <= ix[k] < n
  }

  lemma PickStep<T>(a: seq<T>, x: int, rest: seq<int>, pre: seq<int>, post: seq<int>)
    requires 0 <= x < |a| && InRange(rest, |a|) && InRange(pre, |a|) && InRange(post, |a|)
    requires InRange(pre + post, |a|) && InRange(pre + [x] + post, |a|)
    requires multiset(Pick(a, rest)) == multiset(Pick(a, pre + post))
    ensures multiset(Pick(a, [x] + rest)) == multiset(Pick(a, pre + [x] + post))
  {
    PickConcat(a, [x], rest);
    PickConcat(a, pre, post);
    PickConcat(a, [x], post);
    assert pre + [x] + post == pre + ([x] + post);
    PickConcat(a, pre, [x] + post);
    assert Pick(a, [x]) == [a[x]];
  }

  lemma InRangeRemoveAt(jx: seq<int>, i: nat, n: int)
    requires i < |jx| && InRange(jx, n)
    ensures InRange(jx[..i], n) && InRange(jx[i + 1..], n)
    ensures InRange(jx[..i] + jx[i + 1..], n)
  {
    assert InRange(jx[..i], n) && InRange(jx[i + 1..], n);
  }

  /** Locates the first element of `ix` in its rearrangement `jx`, splitting
      `jx` around it. */
  lemma SplitAtFirst(ix: seq<int>, jx: seq<int>, n: int) returns (pre: seq<int>, post: seq<int>)
    requires ix != [] && InRange(ix, n) && InRange(jx, n)
    requires multiset(ix) == multiset(jx)
    ensures jx == pre + [ix[0]] + post
    ensures multiset(ix[1..]) == multiset(pre + post)
    ensures InRange(ix[1..], n) && InRange(pre, n) && InRange(post, n) && InRange(pre + post, n)
  {
    var x := ix[0];
    assert ix == [x] + ix[1..];
    assert x in multiset(jx);
    var i :| 0 <= i < |jx| && jx[i] == x;
    pre, post := jx[..i], jx[i + 1..];
    assert jx == pre + [x] + post;
    MultisetRemoveAt(jx, i);
    InRangeRemoveAt(jx, i, n);
    InRangeRemoveAt(ix, 0, n);
  }

  /** Picking with two rearrangements of one index sequence gives two
      rearrangements of one value sequence. */
  lemma {:induction false} PickPermutation<T>(a: seq<T>, ix: seq<int>, jx: seq<int>)
    requires InRange(ix, |a|) && InRange(jx, |a|)
    requires multiset(ix) == multiset(jx)
    ensures multiset(Pick(a, ix)) == multiset(Pick(a, jx))
    decreases |ix|
  {
    if ix != [] {
      var pre, post := SplitAtFirst(ix, jx, |a|);
      PickPermutation(a, ix[1..], pre + post);
      PickStep(a, ix[0], ix[1..], pre, post);
      assert ix == [ix[0]] + ix[1..];
    }
  }

  /** The elements of a sequence, as a set. */
  function Elements<T>(xs: seq<T>): set<T>
  {
    set x | x in xs
  }

  lemma {:induction false} DistinctElementsCount<T>(xs: seq<T>)
    requires Distinct(xs)
    ensures |Elements(xs)| == |xs|
    decreases |xs|
  {
    if xs != [] {
      DistinctElementsCount(xs[1..]);
      assert Elements(xs) == {xs[0]} + Elements(xs[1..]);
      assert xs[0] !in Elements(xs[1..]);
    }
  }

  lemma {:induction false} RangeElementsCount(n: nat)
    ensures |Elements(Range(n))| == n
    decreases n
  {
    if n > 0 {
      RangeElementsCount(n - 1);
      assert Range(n) == Range(n - 1) + [n - 1];
      assert Elements(Range(n)) == Elements(Range(n - 1)) + {n - 1};
    }
  }

  lemma {:induction false} SubsetCount<T>(a: set<T>, b: set<T>)
    requires a <= b
    ensures |a| <= |b|
    decreases |b|
  {
    if a != {} {
      var x :| x in a;
      SubsetCount(a - {x}, b - {x});
    }
  }

  /** Pigeonhole: `n` distinct indices in `[0, n)` are a rearrangement of
      `0, ..., n-1`. */
  lemma DistinctInRangeIsPermutation(ix: seq<int>, n: nat)
    requires |ix| == n
    requires Distinct(ix)
    requires forall k :: 0 <= k < n ==> 0 <= ix[k] < n
    ensures multiset(ix) == multiset(Range(n))
  {
    var s := Elements(ix);
    var r := Elements(Range(n));
    DistinctElementsCount(ix);
    RangeElementsCount(n);
    assert s <= r by {
      forall x | x in s
        ensures x in r
      {
        var k :| 0 <= k < n && ix[k] == x;
        assert Range(n)[x] == x;
      }
    }
    if s != r {
      var y :| y in r && y !in s;
      SubsetCount(s, r - {y});
      assert false;
    }
    assert Distinct(Range(n));
    forall x
      ensures multiset(ix)[x] == multiset(Range(n))[x]
    {
      DistinctMultiplicity(ix, x);
      DistinctMultiplicity(Range(n), x);
      assert x in ix <==> x in s;
      assert x in Range(n) <==> x in r;
    }
  }

  lemma PickRange<T>(a: seq<T>)
    ensures Pick(a, Range(|a|)) == a
  {
  }

  /** Position of the first occurrence of `x`. */
  function FirstIndex<T(==)>(xs: seq<T>, x: T): (r: nat)
    requires x in xs
    ensures r < |xs| && xs[r] == x && x !in xs[..r]
  {
    if xs[0] == x then 0
    else
      var r := 1 + FirstIndex(xs[1..], x);
      assert xs[..r] == [xs[0]] + xs[1..][..r - 1];
      r
  }

  lemma FirstIndexUnique<T>(xs: seq<T>, x: T, i: nat)
    requires i < |xs| && xs[i] == x && x !in xs[..i]
    ensures FirstIndex(xs, x) == i
  {
  }

  lemma FirstIndexExtend<T>(a: seq<T>, z: T, y: T)
    requires y in a
    ensures FirstIndex(a + [z], y) == FirstIndex(a, y)
  {
    var i := FirstIndex(a, y);
    assert (a + [z])[..i] == a[..i];
    FirstIndexUnique(a + [z], y, i);
  }

  lemma FirstIndexExtendAll<T>(a: seq<T>, z: T)
    ensures forall y :: y in a ==> FirstIndex(a + [z], y) == FirstIndex(a, y)
  {
    forall y | y in a
      ensures FirstIndex(a + [z], y) == FirstIndex(a, y)
    {
      FirstIndexExtend(a, z, y);
    }
  }

  /** The distinct elements of `xs` in order of first occurrence:
      JavaScript's `Array.from(new Set(xs))`. */
  function Dedup<T(==,!new)>(xs: seq<T>): (r: seq<T>)
    ensures Distinct(r)
    ensures forall x :: x in r <==> x in xs
    ensures forall i, j :: 0 <= i < j < |r| ==> FirstIndex(xs, r[i]) < FirstIndex(xs, r[j])
    decreases |xs|
  {
    if xs == [] then []
    else
      var init := xs[..|xs| - 1];
      var last := xs[|xs| - 1];
      assert xs == init + [last];
      var d := Dedup(init);
      FirstIndexExtendAll(init, last);
      if last in init then d
      else
        assert FirstIndex(xs, last) == |init|;
        d + [last]
  }
}

=== FILE: slug.dfy ===
/** The session slug `addPrize` derives from a session name:
    `name.toLowerCase().replace(/[^a-z0-9]+/g, "-").replace(/(^-|-$)/g, "")`. */
module Slug {
  import opened Seqs

  /** Lower-casing restricted to ASCII letters. */
  function LowerChar(c: char): (r: char)
    ensures 'A' <= c <= 'Z' ==> 'a' <= r <= 'z'
    ensures !('A' <= c <= 'Z') ==> r == c
  {
    if 'A' <= c <= 'Z' then (c as int + 32) as char else c
  }

  function Lower(s: string): (r: string)
    ensures |r| == |s| && forall k :: 0 <= k < |s| ==> r[k] == LowerChar(s[k])
  {
    seq(|s|, k requires 0 <= k < |s| => LowerChar(s[k]))
  }

  /** The characters the first replacement keeps: `[a-z0-9]`. */
  predicate IsSlugChar(c: char)
  {
    'a' <= c <= 'z' || '0' <= c <= '9'
  }

  /** Every maximal run of characters outside `[a-z0-9]` becomes one `-`;
      `inRun` says whether the character before `s` already started such a run. */
  function Collapse(s: string, inRun: bool): (r: string)
    decreases |s|
  {
    if s == [] then []
    else if IsSlugChar(s[0]) then [s[0]] + Collapse(s[1..], false)
    else if inRun then Collapse(s[1..], true)
    else ['-'] + Collapse(s[1..], true)
  }

  /** Drops one leading and one trailing `-`. */
  function StripDashes(s: string): string
  {
    var t := if |s| > 0 && s[0] == '-' then s[1..] else s;
    if |t| > 0 && t[|t| - 1] == '-' then t[..|t| - 1] else t
  }

  function Slugify(name: string): string
  {
    StripDashes(Collapse(Lower(name), false))
  }

  /** Only `[a-z0-9-]`. */
  predicate SlugAlphabet(s: string)
  {
    forall k :: 0 <= k < |s| ==> IsSlugChar(s[k]) || s[k] == '-'
  }

  /** No two consecutive dashes. */
  predicate NoDoubleDash(s: string)
  {
    forall k :: 0 <= k < |s| - 1 ==> s[k] != '-' || s[k + 1] != '-'
  }

  /** A well-formed slug: `[a-z0-9-]` only, no dash at either end, no `--`. */
  predicate WellFormedSlug(s: string)
  {
    SlugAlphabet(s) && NoDoubleDash(s) && (s == [] || (s[0] != '-' && s[|s| - 1] != '-'))
  }

  lemma {:induction false} CollapseShape(s: string, inRun: bool)
    ensures SlugAlphabet(Collapse(s, inRun)) && NoDoubleDash(Collapse(s, inRun))
    ensures inRun && Collapse(s, inRun) != [] ==> Collapse(s, inRun)[0] != '-'
    decreases |s|
  {
    if s != [] {
      CollapseShape(s[1..], !IsSlugChar(s[0]));
      var rest := Collapse(s[1..], !IsSlugChar(s[0]));
      if IsSlugChar(s[0]) {
        assert Collapse(s, inRun) == [s[0]] + rest;
      } else if !inRun {
        assert Collapse(s, inRun) == ['-'] + rest;
      }
    }
  }

  /** The slug satisfies the shape a URL-safe identifier needs. */
  lemma SlugifyWellFormed(name: string)
    ensures WellFormedSlug(Slugify(name))
  {
    var c := Collapse(Lower(name), false);
    CollapseShape(Lower(name), false);
    var t := if |c| > 0 && c[0] == '-' then c[1..] else c;
    assert SlugAlphabet(t) && NoDoubleDash(t);
    assert t != [] ==> t[0] != '-';
    var r := Slugify(name);
    assert r == if |t| > 0 && t[|t| - 1] == '-' then t[..|t| - 1] else t;
    if |t| > 0 && t[|t| - 1] == '-' && |t| > 1 {
      assert t[|t| - 2] != '-';
    }
  }

  lemma {:induction false} CollapseKeepsContent(s: string, inRun: bool)
    ensures Filter(IsSlugChar, Collapse(s, inRun)) == Filter(IsSlugChar, s)
    decreases |s|
  {
    if s != [] {
      CollapseKeepsContent(s[1..], !IsSlugChar(s[0]));
      var rest := Collapse(s[1..], !IsSlugChar(s[0]));
      if IsSlugChar(s[0]) {
        assert Collapse(s, inRun) == [s[0]] + rest;
        FilterConcat(IsSlugChar, [s[0]], rest);
      } else if !inRun {
        assert Collapse(s, inRun) == ['-'] + rest;
        FilterConcat(IsSlugChar, ['-'], rest);
      }
    }
  }

  lemma DropFirstDash(s: string)
    requires s != [] && s[0] == '-'
    ensures Filter(IsSlugChar, s[1..]) == Filter(IsSlugChar, s)
  {
    assert s == [] + ['-'] + s[1..];
    FilterSkipsRejected(IsSlugChar, [], '-', s[1..]);
    assert [] + s[1..] == s[1..];
  }

  lemma DropLastDash(s: string)
    requires s != [] && s[|s| - 1] == '-'
    ensures Filter(IsSlugChar, s[..|s| - 1]) == Filter(IsSlugChar, s)
  {
    var u := s[..|s| - 1];
    assert s == u + ['-'];
    FilterConcat(IsSlugChar, u, ['-']);
    assert !IsSlugChar('-') && ['-'][1..] == [];
    assert Filter(IsSlugChar, ['-']) == [];
    assert Filter(IsSlugChar, u) + [] == Filter(IsSlugChar, u);
  }

  lemma StripKeepsContent(s: string)
    ensures Filter(IsSlugChar, StripDashes(s)) == Filter(IsSlugChar, s)
  {
    var t := if |s| > 0 && s[0] == '-' then s[1..] else s;
    if |s| > 0 && s[0] == '-' {
      DropFirstDash(s);
    }
    if |t| > 0 && t[|t| - 1] == '-' {
      DropLastDash(t);
    }
  }

  /** The slug keeps every letter and digit of the lower-cased name, in
      order, and adds none: deleting its dashes gives the name's `[a-z0-9]`
      characters. */
  lemma SlugifyKeepsContent(name: string)
    ensures Filter(IsSlugChar, Slugify(name)) == Filter(IsSlugChar, Lower(name))
  {
    CollapseKeepsContent(Lower(name), false);
    StripKeepsContent(Collapse(Lower(name), false));
  }

  /** The slug is empty exactly when the name has no ASCII letter or digit
      (the case in which `addPrize` falls back to a timestamped session id). */
  lemma SlugifyEmpty(name: string)
    ensures Slugify(name) == [] <==> Filter(IsSlugChar, Lower(name)) == []
  {
    var r := Slugify(name);
    SlugifyWellFormed(name);
    SlugifyKeepsContent(name);
    if r != [] {
      assert IsSlugChar(r[0]);
      assert r[0] in Filter(IsSlugChar, r);
    }
  }

  lemma {:induction false} CollapseFixesSlug(s: string, inRun: bool)
    requires SlugAlphabet(s) && NoDoubleDash(s)
    requires inRun ==> s == [] || s[0] != '-'
    ensures Collapse(s, inRun) == s
    decreases |s|
  {
    if s != [] {
      assert SlugAlphabet(s[1..]) && NoDoubleDash(s[1..]);
      if s[0] == '-' {
        assert |s| > 1 ==> s[1] != '-';
        CollapseFixesSlug(s[1..], true);
      } else {
        CollapseFixesSlug(s[1..], false);
      }
    }
  }

  /** Slugifying a slug changes nothing. */
  lemma SlugifyIdempotent(name: string)
    ensures Slugify(Slugify(name)) == Slugify(name)
  {
    var r := Slugify(name);
    SlugifyWellFormed(name);
    assert Lower(r) == r;
    CollapseFixesSlug(r, false);
  }
}
